=== FILE: README.md ===
# Breeez core, modelled in Dafny

This project models the on-chain core of Breeez, a Solana program written
with the Anchor framework. Breeez gives a verified NFT collection four
community features:

- a **collection registry** that records which modules a collection has
  enabled and their parameters;
- a **trade escrow** in which two holders of the collection swap SOL, SPL
  tokens or both through program-controlled escrows;
- a **voting engine** in which holders open proposals and vote once per NFT,
  tracked in a bitmap;
- a **stake engine** in which holders lock an NFT in escrow and accrue the
  collection's reward token by the hour.

Every instruction is a pure function from the accounts it touches (a
registry, a trade book, a proposal store or a stake vault, plus a token
ledger) and its arguments to a `Result`. The `Result` holds either the new
state or the error the program returns: a program error, an Anchor
constraint error, a token or system program failure, or a panic.

The modules follow the program's layout:

| Dafny module | file | program part |
|---|---|---|
| `Keys`, `Errors`, `Wrappers`, `Ints`, `Sums` | keys, errors, wrappers, ints, sums | program-derived addresses, the error enum, `Result`, checked `i64`/`u64` arithmetic, sums over maps |
| `Ledger` | ledger | lamport balances, token accounts and mints, with the token and system program calls the core makes |
| `Metadata`, `TokenCheck` | metadata, validate_token | the metadata oracle and the membership utilities `validate_metadata_account` and `validate_token_account` |
| `Registry` | collection | the `Collection` record and the eight collection instructions |
| `TradeState`, `TradeCreate`, `TradeAccept`, `TradeExecute`, `TradeCancel` | trade_state, create_trade, accept_trade, execute_trade, cancel_trade | the `Trade` record and the four trade instructions |
| `ProposalState`, `ProposalCreate`, `ProposalVote`, `ProposalExecute` | proposal, create_proposal, give_vote, execute_proposal | the `Proposal` record with its vote bitmap and the three voting instructions |
| `StakeState`, `StakeDeposit`, `StakeWithdraw`, `StakeRelease` | stake, stake_nft, withdraw_tokens, unstake_nft | the `Stake` record, `calc_emission` and the three stake instructions |

Modelling choices:

- Integers are unbounded. `u64` and `i64` are subset types, and every
  arithmetic step the program performs is checked explicitly. An overflow is
  a panic, as in a build with overflow checks.
- Casts between `u64` and `i64` are written out as two's-complement
  reinterpretations.
- Strings are sequences of characters, and a string's length in characters
  stands for its length in bytes (see "## Left out").
- Program-derived addresses are constructors of an `Address` datatype, one
  per seed family. Derivation is therefore injective by construction.
- The clock reading is a parameter `now`.
- Metadata accounts are an oracle map from address to the fields the program
  reads.

Behaviour the model follows exactly as coded:

- **Reward formula.** The reward is `elapsed * emission * 10^9 / 3600` base
  units of the nine-decimal reward mint: `emission` whole tokens per hour,
  rounded down.
- **Bitmap size.** The voter bitmap has `count / 8 + 1` bytes, one more than
  needed when `count` is a multiple of eight.
- **Proposal size.** The proposal account is sized by `Proposal::len`
  (see Finding 2).
- **Proposal state at creation.** A new proposal starts with `is_active`
  false (see Finding 3).
- **Trade and voting parameters.** `add_trade`, `edit_trade`, `add_voting`
  and `edit_voting` check neither positivity nor the quorum against the
  member count.
- **Cancelling.** Only party one, who signs, may cancel a trade.
- **Trade fee.** The fee is paid only when it is positive.

## Model

| member | source | states |
|---|---|---|
| Registry.LenIsMaximalEncoding | programs/sol/src/states/collection.rs:32 | `Collection::LEN` (149) covers the Borsh encoding of every record, and equals it exactly when a reward mint is set |
| Registry.New | programs/sol/src/states/collection.rs:34-52 | a new record carries the two keys, no reward mint, every module off and every parameter zero |
| Registry.CheckUpdateAuthority | programs/sol/src/instructions/collection/add_stake.rs:16-21 | the `verified_collection` constraints pass exactly when the metadata account exists, is a collection NFT (no parent collection) and has the signer as update authority; tagged constraints report `NotCollectionNft` / `NotUpdateAuthority` |
| Registry.CreateCollection | programs/sol/src/instructions/collection/create_collection.rs:5-46 | succeeds exactly when no record exists at the collection address and the update-authority checks pass; then the only change is a fresh record for the mint at that address |
| Registry.UpdateCollection | programs/sol/src/instructions/collection/add_trade.rs:5-18 | a registry instruction succeeds exactly when the record exists, the authority checks pass and its handler succeeds, and it replaces only that record |
| Registry.AddTradeRecord | programs/sol/src/instructions/collection/add_trade.rs:25-34 | trading is enabled at most once (`ModuleAlreadyAdded` otherwise); on success only the flag, fee and duration change and no flag falls |
| Registry.AddTrade | programs/sol/src/instructions/collection/add_trade.rs:5-34 | succeeds exactly when the record exists, the update authority signs and trading is off; the registry keeps its keys, the fee and duration are the given ones |
| Registry.EditTradeRecord | programs/sol/src/instructions/collection/edit_trade.rs:25-37 | always succeeds and changes one parameter; a duration above `i64::MAX` wraps to a negative duration |
| Registry.EditTrade | programs/sol/src/instructions/collection/edit_trade.rs:5-37 | succeeds exactly when the record exists and the update authority signs; the module flags never fall |
| Registry.AddTradeOneShot | programs/sol/src/instructions/collection/add_trade.rs:28 | after a successful `add_trade` a second one fails with `ModuleAlreadyAdded`, while `edit_trade` succeeds |
| Registry.AddVotingRecordAsWritten | programs/sol/src/instructions/collection/add_voting.rs:25-33 | the source's handler always succeeds, setting the flag and all three parameters, whatever the record held |
| Registry.AddVotingRepeatOverwrites | programs/sol/src/instructions/collection/add_voting.rs:25-33 | a second `add_voting` as written succeeds and replaces every parameter of the first |
| Registry.AddVotingRecord | programs/sol/src/instructions/collection/add_voting.rs:25-33 | corrected handler: fails with `ModuleAlreadyAdded` exactly when voting is on, and otherwise agrees with the source's handler |
| Registry.AddVoting | programs/sol/src/instructions/collection/add_voting.rs:5-33 | succeeds exactly when the record exists, the update authority signs and voting is off; the quorum is the given one and no flag falls |
| Registry.AddVotingOneShot | programs/sol/src/instructions/collection/add_voting.rs:25-33 | with the guard, enabling voting twice fails the second time |
| Registry.EditVotingRecord | programs/sol/src/instructions/collection/edit_voting.rs:25-40 | always succeeds and changes exactly the chosen parameter; the duration is reinterpreted as `i64` |
| Registry.EditVoting | programs/sol/src/instructions/collection/edit_voting.rs:5-40 | succeeds exactly when the record exists and the update authority signs; the module flags never fall |
| Registry.AddStakeRecord | programs/sol/src/instructions/collection/add_stake.rs:25-44 | fails with `ModuleAlreadyAdded`, `TokenNotFound` or `ZeroValue` in that order; succeeds exactly when staking is off, a reward mint is attached and the emission is positive |
| Registry.AddStake | programs/sol/src/instructions/collection/add_stake.rs:5-44 | succeeds exactly under the tagged authority checks and the handler's conditions; staking is on with the given emission afterwards |
| Registry.EditStakeRecord | programs/sol/src/instructions/collection/edit_stake.rs:25-33 | succeeds exactly for a positive emission and changes nothing else |
| Registry.EditStake | programs/sol/src/instructions/collection/edit_stake.rs:5-33 | succeeds exactly under the tagged authority checks with a positive emission; the new emission is stored |
| Registry.EmissionStaysPositive | programs/sol/src/instructions/collection/edit_stake.rs:28 | once staking is enabled, every successful edit keeps the emission positive |
| Registry.AttachTokenRecord | programs/sol/src/instructions/collection/add_token.rs:56-79 | a reward mint is attached only when none is (`TokenAlreadyExists` otherwise), and no flag falls |
| Registry.AddToken | programs/sol/src/instructions/collection/add_token.rs:14-79 | succeeds exactly when the checks pass and the new mint does not exist; the mint appears with 9 decimals and the token authority as mint authority, and the record points at it |
| Registry.AddTokenOneShot | programs/sol/src/instructions/collection/add_token.rs:57-62 | after one successful `add_token` a second one fails, whatever mint it brings |
| Ints.U64AsI64 | programs/sol/src/instructions/collection/edit_trade.rs:33 | `as i64` keeps values up to `i64::MAX` and maps larger ones to the negative value 2^64 below |
| Ints.I64AsU64 | programs/sol/src/utils/calc_emission.rs:7 | `as u64` keeps non-negative values and maps negative ones 2^64 above |
| Ints.AddI64 | programs/sol/src/instructions/voting/give_vote.rs:32 | `i64` addition succeeds exactly when the sum is in range, and otherwise panics |
| Ints.SubI64 | programs/sol/src/utils/calc_emission.rs:7 | `i64` subtraction succeeds exactly when the difference is in range, and otherwise panics |
| Ints.AddU64 | programs/sol/src/instructions/voting/execute_proposal.rs:37 | `u64` addition succeeds exactly when the sum is in range, and otherwise panics |
| Ints.MulU64 | programs/sol/src/utils/calc_emission.rs:9 | `u64` multiplication succeeds exactly when the product is in range, and otherwise panics |
| Ledger.TransferLamports | programs/sol/src/instructions/trade/create_trade.rs:208-211 | a system transfer succeeds exactly when the payer holds the amount; it moves that amount and conserves total lamports and every supply |
| Ledger.SweepLamports | programs/sol/src/instructions/trade/execute.rs:22 | closing an account moves all its lamports to the destination and conserves the total |
| Ledger.TransferTokens | programs/sol/src/instructions/stake/stake_nft.rs:103 | a token transfer succeeds exactly when both accounts exist, the balance covers it, the mints match and the owner signs; it moves the amount and keeps every supply |
| Ledger.SetOwner | programs/sol/src/instructions/stake/stake_nft.rs:107-111 | handing an account to a new owner needs the current owner and changes only the owner |
| Ledger.CloseTokenAccount | programs/sol/src/instructions/stake/unstake_nft.rs:132 | only an empty account closed by its owner disappears; its lamports go to the destination and supplies are unchanged |
| Ledger.MintTo | programs/sol/src/instructions/stake/withdraw_tokens.rs:79 | minting needs the mint authority and a destination of that mint; it raises that account and that mint's supply by the amount, and nothing else |
| Ledger.CreateTokenAccount | programs/sol/src/instructions/stake/stake_nft.rs:26-37 | `init` of a token account adds an empty account of the given mint and owner, and nothing else |
| Ledger.InitTokenIfNeeded | programs/sol/src/instructions/stake/withdraw_tokens.rs:30-35 | `init_if_needed` accepts an existing account only with the declared mint and owner, creates it otherwise, and changes no balance |
| Metadata.NameOrdinal | programs/sol/src/utils/validate_metadata.rs:41-54 | the ordinal is the text after the first `#` of the NUL-stripped name, parsed as `u64`; a failed parse panics |
| Metadata.ValidateMetadata | programs/sol/src/utils/validate_metadata.rs:7-57 | fails with `AccountNotInitialized` or `WrongMetadata` when the account is missing or misplaced, then with `CollectionNotSet`, `CollectionNotVerified` or `CollectionNotSame` when the collection field is absent, unverified or another collection's, and panics on an unparsable name; succeeds exactly for the mint's metadata verified in the collection with a parsable name, returning its ordinal |
| Metadata.CheckMember | programs/sol/src/instructions/trade/create_trade.rs:65-104 | the membership constraints pass exactly when the token account is the holder's, holds one token of the mint and its metadata is verified in the collection; the result is the mint. A missing token account is `NotInitialized`, a wrong amount `TokenNotOne`; on existing metadata a missing collection field panics (the `unwrap`), an unverified one is `CollectionNotVerified` and another collection's `CollectionNotSame` |
| Metadata.ParseDecimal | programs/sol/src/utils/validate_metadata.rs:54 | parsing the decimal rendering of any `u64` gives it back |
| Metadata.OrdinalOfName | programs/sol/src/utils/validate_metadata.rs:41-54 | a name `prefix#n` with any trailing NUL padding yields ordinal `n` |
| Metadata.OrdinalUsesFirstHash | programs/sol/src/utils/validate_metadata.rs:47-52 | only the first `#` counts; everything after it, later `#`s included, must parse |
| Metadata.NoHashPanics | programs/sol/src/utils/validate_metadata.rs:45-54 | a name with no `#` leaves the empty string, whose parse panics |
| TokenCheck.ValidateToken | programs/sol/src/utils/validate_token.rs:7-26 | succeeds exactly for an existing account owned by the signer holding one token, returning its mint; a foreign owner panics (`assert_eq!`) |
| TradeState.LenIsMaximalEncoding | programs/sol/src/states/trade.rs:33 | `Trade::LEN` covers every trade record's encoding, and equals that of a record with all five optional keys present |
| TradeState.New | programs/sol/src/states/trade.rs:35-59 | a new trade holds party one's leg in slot 0, an empty slot 1, no party-two accounts and is unconfirmed |
| TradeState.RecordedMint | programs/sol/src/instructions/trade/create_trade.rs:240-249 | a leg records its mint only when the mint is passed and tokens are offered |
| TradeState.CheckSendAccount | programs/sol/src/instructions/trade/create_trade.rs:49-55 | a passed send account must hold the mint, belong to the party and cover the amount |
| TradeState.CheckRecorded | programs/sol/src/instructions/trade/cancel_trade.rs:46-58 | a passed optional account must equal the recorded key; an unrecorded key panics on unwrap |
| TradeState.ReleaseEscrow | programs/sol/src/instructions/trade/execute.rs:100-148 | an escrow pays its amount to the destination under the escrow authority and is closed, its rent going to its funder; lamports and supplies are conserved |
| TradeState.EscrowTokens | programs/sol/src/instructions/trade/create_trade.rs:118-144 | a token leg needs a positive amount, moves from the send account into the escrow, and hands the escrow to the escrow authority |
| TradeState.LockLeg | programs/sol/src/instructions/trade/create_trade.rs:195-227 | the trade type decides which legs must be zero or positive; the SOL leg goes to the trade account and the token leg into escrow |
| TradeState.MoveLamports | programs/sol/src/instructions/trade/execute.rs:150-160 | a direct lamport move from the trade account fails on underflow and otherwise conserves the total |
| TradeState.CloseTrade | programs/sol/src/instructions/trade/execute.rs:22 | closing removes the record and sends its lamports to party one |
| TradeState.RemovalKeepsDerivedAddresses | programs/sol/src/instructions/trade/create_trade.rs:20-31 | removing a record keeps every other record at the address derived from its parties and collection |
| TradeState.PayOut | programs/sol/src/instructions/trade/execute.rs:206-211 | a positive token leg needs its escrow and destination passed (a missing one panics) and releases the escrow |
| TradeState.PaySol | programs/sol/src/instructions/trade/execute.rs:213-219 | a positive SOL leg leaves the trade account for the receiving party |
| TradeState.PayOutLamports | programs/sol/src/instructions/trade/execute.rs:138-145 | after a pay-out the escrow's lamports sit with the rent receiver and every other balance is unchanged |
| TradeState.PayOutAmount | programs/sol/src/instructions/trade/execute.rs:138-145 | after a pay-out the destination holds the leg more and the escrow is gone |
| TradeState.PayOutConserves | programs/sol/src/instructions/trade/execute.rs:138-145 | a pay-out conserves total lamports and every mint's supply |
| TradeCreate.MemberSurvivesInit | programs/sol/src/instructions/trade/create_trade.rs:34-69 | a membership check passes after `init_if_needed` adds the escrow |
| TradeCreate.CheckAccounts | programs/sol/src/instructions/trade/create_trade.rs:14-115 | the account constraints fail with `AccountAlreadyInUse` on an existing trade and pass exactly when the trade account is new, escrow one (when passed) can be initialised for the mint, the send account fits, party one covers the SOL leg, the collection exists and both parties hold a verified member NFT |
| TradeCreate.Handler | programs/sol/src/instructions/trade/create_trade.rs:183-227 | the handler needs trading enabled before locking party one's leg |
| TradeCreate.CreateTrade | programs/sol/src/instructions/trade/create_trade.rs:183-263 | on success exactly one record is added, at the derived address, holding party one's leg; the SOL leg sits in the trade account, the token leg in escrow, and no lamport or token is created |
| TradeCreate.CreateKeepsDerivedAddresses | programs/sol/src/instructions/trade/create_trade.rs:20-31 | creation keeps every record at its derived address |
| TradeCreate.OneOpenTradePerPair | programs/sol/src/instructions/trade/create_trade.rs:20-31 | a second offer between the same parties in the same collection fails until the first is closed |
| TradeAccept.InitReceive | programs/sol/src/instructions/trade/accept_trade.rs:41-47 | the receive account is party two's associated account for party one's mint, created when missing |
| TradeAccept.CheckAccounts | programs/sol/src/instructions/trade/accept_trade.rs:13-75 | the account constraints pass exactly when the trade is recorded with party two and the collection, escrow two (when passed) and the receive account can be initialised, the send account fits, a passed mint matches the recorded one, party two covers the SOL leg and the collection exists; balances, lamports and supplies are unchanged |
| TradeAccept.Confirmed | programs/sol/src/instructions/trade/accept_trade.rs:223-230 | acceptance fills slot 1 and confirms the trade, leaving party one's leg and the parties unchanged |
| TradeAccept.Handler | programs/sol/src/instructions/trade/accept_trade.rs:143-221 | an offer is accepted only while unconfirmed, and with a receive account when party one offers tokens |
| TradeAccept.AcceptTrade | programs/sol/src/instructions/trade/accept_trade.rs:143-233 | on success the trade is confirmed with party two's leg locked as party one's was; nothing is created or destroyed |
| TradeAccept.AcceptKeepsDerivedAddresses | programs/sol/src/instructions/trade/accept_trade.rs:13-20 | acceptance keeps every record at its derived address |
| TradeAccept.AcceptAtMostOnce | programs/sol/src/instructions/trade/accept_trade.rs:149-151 | after a successful acceptance every further acceptance fails |
| TradeExecute.CheckAccounts | programs/sol/src/instructions/trade/execute.rs:15-97 | the account constraints of `execute_trade`, in field order |
| TradeExecute.PayFee | programs/sol/src/instructions/trade/execute.rs:197-204 | a positive fee moves from party one to the treasury; a zero fee moves nothing |
| TradeExecute.Settle | programs/sol/src/instructions/trade/execute.rs:183-208 | settlement needs a confirmed trade and a receive account when party two offered tokens, then pays the fee and party one's token leg |
| TradeExecute.HandlerAsWritten | programs/sol/src/instructions/trade/execute.rs:173-225 | the source's handler pays both SOL legs only inside the branch for party two's token leg |
| TradeExecute.Handler | programs/sol/src/instructions/trade/execute.rs:173-225 | corrected handler, over the ledger settlement leaves: party two gains party one's SOL leg and party one gains party two's, whatever the token legs, both leaving the trade account; party two's escrow rent returns to party two; party two's tokens reach party one's receive account, or the token map is untouched when there are none; a missing escrow or receive account for a token leg panics |
| TradeExecute.PaySecondLegLamports | programs/sol/src/instructions/trade/execute.rs:206-220 | on any ledger, party two's escrow rent returns to party two and each SOL leg leaves the trade account for the other party |
| TradeExecute.PaySecondLegTokens | programs/sol/src/instructions/trade/execute.rs:206-220 | on any ledger, party two's escrow pays its tokens into party one's receive account and is closed; the SOL legs move no token |
| TradeExecute.ExecuteTradeAsWritten | programs/sol/src/instructions/trade/execute.rs:15-225 | `execute_trade` as written: checks, handler, then the record closes to party one |
| TradeExecute.ExecuteTrade | programs/sol/src/instructions/trade/execute.rs:15-225 | corrected `execute_trade`: on success the record is gone and no lamport or token is created or destroyed |
| TradeExecute.ExecuteKeepsDerivedAddresses | programs/sol/src/instructions/trade/execute.rs:22 | execution keeps every other record at its derived address |
| TradeExecute.SettleLamports | programs/sol/src/instructions/trade/execute.rs:197-211 | the lamports settlement moves before the SOL payouts: the fee, then each escrow's rent back to its funder |
| TradeExecute.ExecuteSettles | programs/sol/src/instructions/trade/execute.rs:206-219 | after execution each party holds its balance minus its own SOL leg (and the fee, for party one) plus the other's SOL leg |
| TradeExecute.ExecuteAsWrittenStrandsSol | programs/sol/src/instructions/trade/execute.rs:210-220 | as written, with no token leg from party two, party two receives nothing and party one recovers the trade account's lamports |
| TradeExecute.ExecutePaysPartyTwo | programs/sol/src/instructions/trade/execute.rs:213-215 | the corrected handler pays party two party one's SOL leg on the same trades |
| TradeExecute.HandlerTokens | programs/sol/src/instructions/trade/execute.rs:197-211 | the ledger after each step of the corrected handler |
| TradeExecute.HandlerDeliversLegOne | programs/sol/src/instructions/trade/execute.rs:206-208 | on any ledger, a positive token leg of party one ends in party two's receive account and escrow one is closed, provided the receive accounts are distinct from each other and from the escrows |
| TradeExecute.HandlerDeliversLegTwo | programs/sol/src/instructions/trade/execute.rs:210-211 | on any ledger, a positive token leg of party two ends in party one's receive account and escrow two is closed, under the same distinctness |
| TradeExecute.ExecuteDeliversLegOne | programs/sol/src/instructions/trade/execute.rs:206-208 | party one's token leg reaches party two's receive account and escrow one is closed |
| TradeExecute.ExecuteDeliversLegTwo | programs/sol/src/instructions/trade/execute.rs:210-211 | party two's token leg reaches party one's receive account and escrow two is closed |
| TradeCancel.CheckAccounts | programs/sol/src/instructions/trade/cancel_trade.rs:12-76 | the account constraints: party one signs the recorded trade of this collection and the optional accounts match the recorded ones |
| TradeCancel.WindowPassed | programs/sol/src/instructions/trade/cancel_trade.rs:169-170 | an unaccepted trade is cancellable strictly after `time + trade_duration`; the sum panics on overflow |
| TradeCancel.RefundOne | programs/sol/src/instructions/trade/cancel_trade.rs:172-178 | party one's send account gains its token leg and escrow one is closed (the token map is untouched when there is no token leg); party one gains its SOL leg and escrow one's rent, the trade account loses the SOL leg, party two is untouched; a token leg without its escrow or send account panics |
| TradeCancel.Handler | programs/sol/src/instructions/trade/cancel_trade.rs:143-182 | an unaccepted trade fails with the window's error until the window has passed; a token leg without its escrow or send account panics. On success each party regains its own SOL leg and its escrow's rent (party two only when the trade was accepted) and the trade account loses exactly those legs; each send account regains its token leg and the escrow that held it is closed; with no token leg to return the token map is unchanged |
| TradeCancel.UnwindBothLamports | programs/sol/src/instructions/trade/cancel_trade.rs:151-166 | on any ledger, both pay-outs and both SOL legs return each party its SOL leg and escrow rent, out of the trade account |
| TradeCancel.UnwindBothLegOne | programs/sol/src/instructions/trade/cancel_trade.rs:151-153 | on any ledger, party one's send account regains its token leg and escrow one is closed; the rest of the unwinding moves neither |
| TradeCancel.UnwindBothLegTwo | programs/sol/src/instructions/trade/cancel_trade.rs:155-157 | on any ledger, party two's send account regains its token leg and escrow two is closed |
| TradeCancel.UnwindNoTokens | programs/sol/src/instructions/trade/cancel_trade.rs:151-166 | with no token legs the unwinding moves no token |
| TradeCancel.CancelTrade | programs/sol/src/instructions/trade/cancel_trade.rs:12-182 | on success the record is gone and no lamport or token is created or destroyed |
| TradeCancel.CancelKeepsDerivedAddresses | programs/sol/src/instructions/trade/cancel_trade.rs:18 | cancellation keeps every other record at its derived address |
| TradeCancel.ClockOnlyGatesTheWindow | programs/sol/src/instructions/trade/cancel_trade.rs:151-170 | an accepted trade's cancellation does not depend on the clock |
| TradeCancel.NotCancellableAtDeadline | programs/sol/src/instructions/trade/cancel_trade.rs:170 | at `time + trade_duration` an unaccepted trade cannot be cancelled, one second later the window check passes |
| TradeCancel.UnwindAcceptedLamports | programs/sol/src/instructions/trade/cancel_trade.rs:151-167 | the lamports the unwinding of an accepted trade moves |
| TradeCancel.UnwindOfferLamports | programs/sol/src/instructions/trade/cancel_trade.rs:172-178 | the lamports the unwinding of an unaccepted trade moves |
| TradeCancel.CancelRefundsLamports | programs/sol/src/instructions/trade/cancel_trade.rs:143-182 | cancelling returns each party exactly its own SOL leg and escrow rent; party two gets nothing back from an unaccepted trade |
| TradeCancel.UnwindAcceptedSteps | programs/sol/src/instructions/trade/cancel_trade.rs:151-167 | the ledger after each step of unwinding an accepted trade |
| TradeCancel.UnwindAcceptedLegOne | programs/sol/src/instructions/trade/cancel_trade.rs:152-154 | party one's tokens return to its send account |
| TradeCancel.UnwindAcceptedLegTwo | programs/sol/src/instructions/trade/cancel_trade.rs:156-159 | party two's tokens return to its send account |
| TradeCancel.UnwindOfferTokens | programs/sol/src/instructions/trade/cancel_trade.rs:172-174 | only party one's escrow and send account change |
| TradeCancel.CancelRefundsAcceptedTokens | programs/sol/src/instructions/trade/cancel_trade.rs:151-159 | cancelling an accepted trade returns each token leg to where it came from and closes its escrow |
| TradeCancel.CancelRefundsOfferTokens | programs/sol/src/instructions/trade/cancel_trade.rs:168-174 | cancelling an unaccepted trade returns party one's tokens and changes no other balance |
| ProposalState.StringsSizeIsPrefixed | programs/sol/src/states/proposal.rs:32 | a vector of strings encodes as a 4-byte length, then a 4-byte length and the bytes of each string |
| ProposalState.OptionCharsBound | programs/sol/src/instructions/voting/create_proposal.rs:82-87 | options of at most 25 bytes total at most 25 per option, with equality only when all are 25 long |
| ProposalState.LenAsWrittenFitsIff | programs/sol/src/states/proposal.rs:27-35 | `Proposal::len` as written fits a record exactly when the options' bytes plus 4 stay within 21 per option |
| ProposalState.LenFits | programs/sol/src/states/proposal.rs:27-35 | the corrected size fits every record the handler creates, exactly at its largest |
| ProposalState.NewAsWritten | programs/sol/src/states/proposal.rs:37-58 | `Proposal::new` as written: inactive, not passed, stamped with `now` |
| ProposalState.New | programs/sol/src/states/proposal.rs:37-58 | corrected `new`: the same record, but open (`is_active`), as execution expects |
| ProposalState.TotalVotesZero | programs/sol/src/instructions/voting/create_proposal.rs:88 | zeroed counters add up to no vote |
| ProposalState.TotalVotesIncrement | programs/sol/src/states/proposal.rs:60-62 | adding one to a counter adds one to the total |
| ProposalState.IncreaseVote | programs/sol/src/states/proposal.rs:60-62 | `increase_vote` adds one to the chosen counter only; an index past the counters or an overflow panics |
| ProposalState.ToBinary | programs/sol/src/states/proposal.rs:66 | `format!("{:08b}")` renders the bits most significant first |
| ProposalState.FromToBinary | programs/sol/src/states/proposal.rs:66-76 | parsing the binary rendering of a value gives it back |
| ProposalState.ToFromBinary | programs/sol/src/states/proposal.rs:66-76 | rendering the value of a binary string gives the string back |
| ProposalState.FromBinarySet | programs/sol/src/states/proposal.rs:74-76 | writing `1` over a `0` digit adds that digit's weight |
| ProposalState.SetClearBit | programs/sol/src/states/proposal.rs:74-76 | adding a clear bit's weight sets that bit and no other |
| ProposalState.RenderedSet | programs/sol/src/states/proposal.rs:74-76 | on a byte, the render, write and parse cycle adds the bit's weight and stays a byte |
| ProposalState.RecordVoter | programs/sol/src/states/proposal.rs:64-79 | `record_voter` panics out of range, fails with `AlreadyVoted` on a set bit, and otherwise sets bit `7 - pos` of byte `index` |
| ProposalState.RecordVoterSetsOneBit | programs/sol/src/states/proposal.rs:74-76 | a successful `record_voter` sets exactly one bit of the bitmap |
| ProposalState.RecordOrdinal | programs/sol/src/instructions/voting/give_vote.rs:51-55 | recording ordinal `m` at `(m / 8, m % 8)` fails exactly when `m` has voted, and otherwise adds `m` alone to the voted set |
| ProposalState.ZeroBitmapIsEmpty | programs/sol/src/instructions/voting/create_proposal.rs:91-93 | a zeroed bitmap marks no ordinal |
| ProposalState.VotedSetBound | programs/sol/src/states/proposal.rs:14-15 | a bitmap marks at most eight ordinals per byte |
| ProposalState.TalliedBound | programs/sol/src/states/proposal.rs:14-15 | when the counters agree with the bitmap, the total is at most eight votes per byte |
| ProposalCreate.CheckAccounts | programs/sol/src/instructions/voting/create_proposal.rs:10-55 | fails with `AccountAlreadyInUse` on an existing account, and passes exactly when the signer holds a verified member NFT |
| ProposalCreate.CheckOptions | programs/sol/src/instructions/voting/create_proposal.rs:82-87 | passes exactly when every option has 1 to 25 bytes; the first bad option decides the error |
| ProposalCreate.Validate | programs/sol/src/instructions/voting/create_proposal.rs:67-87 | voting on, 2 to 5 options, a title of 1 to 300 bytes, valid options, with the errors in the source's order |
| ProposalCreate.Zeros | programs/sol/src/instructions/voting/create_proposal.rs:88-93 | exactly `n` entries, every one zero: the per-option counters and the bitmap bytes of a fresh proposal |
| ProposalCreate.CreateProposalAsWritten | programs/sol/src/instructions/voting/create_proposal.rs:10-105 | the source's instruction writes an inactive record and also needs its record to fit the as-written size |
| ProposalCreate.CreateProposal | programs/sol/src/instructions/voting/create_proposal.rs:57-105 | succeeds exactly when the accounts and arguments are valid; the new record is open, consistent, zero-voted and fits its space |
| ProposalCreate.AsWrittenRejectsLongOptions | programs/sol/src/states/proposal.rs:32-34 | among valid proposals, the source's sizing accepts exactly those whose option bytes plus 4 stay within 21 per option |
| ProposalCreate.TwoLongOptionsDoNotFit | programs/sol/src/states/proposal.rs:32-34 | two 25-byte options are valid, yet the source's account is too small for them |
| ProposalVote.Ballots | programs/sol/src/instructions/voting/give_vote.rs:39-43 | the loop reads `len / 2` consecutive (token, metadata) pairs and never reads a trailing odd account |
| ProposalVote.Ordinal | programs/sol/src/instructions/voting/give_vote.rs:41-49 | a ballot is valid exactly when its token account and metadata are, and yields the NFT's ordinal |
| ProposalVote.MarkedHas | programs/sol/src/instructions/voting/give_vote.rs:39-56 | every valid ballot's ordinal is among those a call marks |
| ProposalVote.CastBallot | programs/sol/src/instructions/voting/give_vote.rs:41-55 | one loop pass succeeds exactly when the ballot is valid, the counter does not overflow and the ordinal is new; it counts one vote and marks one ordinal |
| ProposalVote.CastBallots | programs/sol/src/instructions/voting/give_vote.rs:39-56 | on success the chosen counter grows by the number of ballots and nothing else but the bitmap changes |
| ProposalVote.CastBallotsValid | programs/sol/src/instructions/voting/give_vote.rs:39-56 | a successful loop has only valid ballots |
| ProposalVote.CastBallotsMarks | programs/sol/src/instructions/voting/give_vote.rs:39-56 | a successful loop marks exactly the ballots' ordinals, all new and pairwise distinct |
| ProposalVote.DuplicateBallotFails | programs/sol/src/instructions/voting/give_vote.rs:55 | two ballots with the same ordinal in one call make the call fail |
| ProposalVote.MarkedDistinct | programs/sol/src/instructions/voting/give_vote.rs:39-56 | ballots that mark as many ordinals as there are ballots have distinct ordinals |
| ProposalVote.MarksOfSize | programs/sol/src/instructions/voting/give_vote.rs:39-56 | a call marks at most one ordinal per ballot |
| ProposalVote.MarksOfDistinct | programs/sol/src/instructions/voting/give_vote.rs:51-55 | ballots that mark as many ordinals as there are ballots have pairwise distinct ordinals, whatever the outcomes |
| ProposalVote.MarkedCons | programs/sol/src/instructions/voting/give_vote.rs:39-56 | the first ballot marks its own ordinal (when valid) and the rest mark theirs |
| ProposalVote.Handler | programs/sol/src/instructions/voting/give_vote.rs:21-59 | the window (last instant included), the choice and at least two accounts are checked in that order, then the ballots are cast |
| ProposalVote.GiveVote | programs/sol/src/instructions/voting/give_vote.rs:6-59 | the proposal must belong to the collection passed; on success only that proposal changes |
| ProposalVote.VoteCountsEachBallotOnce | programs/sol/src/instructions/voting/give_vote.rs:39-56 | a vote adds one vote per ballot to the choice and one new ordinal per ballot, keeping the counters consistent with the bitmap |
| ProposalVote.RepeatVoteFails | programs/sol/src/states/proposal.rs:68-72 | repeating a successful vote with the same NFTs fails |
| ProposalVote.VoteKeepsActivity | programs/sol/src/instructions/voting/give_vote.rs:21-59 | voting never changes any proposal's `is_active` |
| ProposalExecute.SumVotes | programs/sol/src/instructions/voting/execute_proposal.rs:37 | `iter().sum()` as a left fold of checked `u64` additions: it panics exactly when the unbounded total of the counters exceeds `U64_MAX`, and otherwise yields that total |
| ProposalExecute.Handler | programs/sol/src/instructions/voting/execute_proposal.rs:20-46 | an open proposal whose window ended is closed and passes exactly when it had passed or its votes reach the quorum |
| ProposalExecute.ExecuteProposal | programs/sol/src/instructions/voting/execute_proposal.rs:6-46 | the proposal must belong to the collection passed; on success only that proposal changes |
| ProposalExecute.WindowsPartitionTime | programs/sol/src/instructions/voting/execute_proposal.rs:34 | at every instant exactly one of voting and execution is refused by its window check |
| ProposalExecute.ExecuteOnce | programs/sol/src/instructions/voting/execute_proposal.rs:32 | a second execution always fails with `ProposalAlreadyExecuted` |
| ProposalExecute.QuorumDecides | programs/sol/src/instructions/voting/execute_proposal.rs:39-41 | a proposal not yet passed passes exactly when its votes reach the quorum |
| ProposalExecute.ExecutesAfterWindow | programs/sol/src/instructions/voting/execute_proposal.rs:32-45 | an open, consistent proposal is executed by any call after its window |
| ProposalExecute.EngineKeepsConsistent | programs/sol/src/states/proposal.rs:60-79 | creation, voting and execution keep every proposal's counters in agreement with its bitmap |
| ProposalExecute.AsWrittenNeverExecutes | programs/sol/src/states/proposal.rs:53 | with proposals created as written, no proposal is ever open and every execution fails |
| ProposalExecute.CreatedProposalExecutes | programs/sol/src/instructions/voting/execute_proposal.rs:32-45 | a proposal created with the correction executes after its window, passing exactly when the quorum is zero |
| StakeState.LenIsExact | programs/sol/src/states/stake.rs:16 | `Stake::LEN` (112) is exactly the encoded record |
| StakeState.New | programs/sol/src/states/stake.rs:18-32 | a new record holds the three keys and the time of staking |
| StakeState.CalcEmission | programs/sol/src/utils/calc_emission.rs:3-12 | the reward is `elapsed * emission * 10^9 / 3600` when that fits in `u64`, and a panic when it does not; a clock behind the stake time panics unless the emission is zero |
| StakeState.RewardPerHour | programs/sol/src/utils/calc_emission.rs:9-11 | nothing accrues at once, and each further hour adds exactly `emission` whole tokens |
| StakeState.RewardMonotone | programs/sol/src/utils/calc_emission.rs:7-11 | the reward never decreases with elapsed time or emission |
| StakeState.RewardSplit | programs/sol/src/utils/calc_emission.rs:9-11 | splitting a span in two loses at most one base unit to rounding and never gains |
| StakeState.EmissionFitsEarlier | programs/sol/src/utils/calc_emission.rs:7-9 | a reward that fits at a later instant fits, and is no larger, at any earlier one |
| StakeDeposit.CheckAccounts | programs/sol/src/instructions/stake/stake_nft.rs:12-72 | fails on an existing record or escrow; passes exactly when the signer holds the verified member NFT of a zero-decimal mint; the escrow is created empty |
| StakeDeposit.Handler | programs/sol/src/instructions/stake/stake_nft.rs:95-111 | with staking on, the token moves into escrow and the escrow passes to the NFT authority |
| StakeDeposit.StakeNft | programs/sol/src/instructions/stake/stake_nft.rs:12-122 | on success the send account is empty, the escrow holds the NFT under the NFT authority, and a record of signer, send account, collection and `now` is written |
| StakeDeposit.StakeTwiceFails | programs/sol/src/instructions/stake/stake_nft.rs:14-24 | a mint staked once cannot be staked again, whoever signs |
| StakeDeposit.StakeKeepsSupply | programs/sol/src/instructions/stake/stake_nft.rs:103 | staking neither mints nor burns |
| StakeDeposit.StakeKeepsBacked | programs/sol/src/instructions/stake/stake_nft.rs:100-119 | staking keeps records and escrows in one-to-one correspondence |
| StakeWithdraw.CheckAccounts | programs/sol/src/instructions/stake/withdraw_tokens.rs:14-56 | the constraints the source declares: the record exists for the owner and collection, the receive account is the owner's for the passed mint |
| StakeWithdraw.Handler | programs/sol/src/instructions/stake/withdraw_tokens.rs:70-86 | the reward accrued since the record's time is minted to the owner and the record's time becomes `now` |
| StakeWithdraw.WithdrawTokensAsWritten | programs/sol/src/instructions/stake/withdraw_tokens.rs:14-86 | `withdraw_tokens` as written, with any mint the token authority controls |
| StakeWithdraw.WithdrawTokens | programs/sol/src/instructions/stake/withdraw_tokens.rs:14-86 | corrected `withdraw_tokens`: fails with `ConstraintRaw` for a mint other than the collection's reward mint; on success only the reward is minted and only the record's time changes |
| StakeWithdraw.WithdrawMintsReward | programs/sol/src/instructions/stake/withdraw_tokens.rs:71-79 | the only supply change is the reward, in the collection's own reward token |
| StakeWithdraw.TieOnlyRejectsForeignMints | programs/sol/src/instructions/stake/withdraw_tokens.rs:41-42 | the two versions agree on the collection's mint; only the source's version succeeds with another one |
| StakeWithdraw.AsWrittenPaysForeignReward | programs/sol/src/instructions/stake/withdraw_tokens.rs:41-42 | a concrete staker of collection A collects an hour's reward in collection B's token |
| StakeWithdraw.WithdrawKeepsBacked | programs/sol/src/instructions/stake/withdraw_tokens.rs:30-35 | withdrawing keeps records and escrows in correspondence |
| StakeWithdraw.WithdrawAgainPaysNothing | programs/sol/src/instructions/stake/withdraw_tokens.rs:81-84 | a second withdrawal at the same instant mints nothing |
| StakeWithdraw.SplitWithdrawalLosesAtMostOne | programs/sol/src/instructions/stake/withdraw_tokens.rs:74-84 | two withdrawals pay at most one base unit less than one over the same span, never more |
| StakeRelease.CheckRecord | programs/sol/src/instructions/stake/unstake_nft.rs:15-40 | the record exists for the owner and collection and the escrow holds the staked mint |
| StakeRelease.SendAccountAsWritten | programs/sol/src/instructions/stake/unstake_nft.rs:42-48 | the source demands the owner's associated token account for the NFT as send account |
| StakeRelease.SendAccount | programs/sol/src/instructions/stake/unstake_nft.rs:23-48 | corrected: an existing send account passes exactly when it holds the NFT's mint under the owner, and is left as it is; a missing one passes exactly when it is the owner's associated account, which is created empty; no balance, mint or supply changes |
| StakeRelease.SendAccountAgreesOnAssociated | programs/sol/src/instructions/stake/unstake_nft.rs:42-48 | on the owner's associated account the corrected check is the source's `init_if_needed`, so a closed associated account is recreated |
| StakeRelease.SendAccountFrame | programs/sol/src/instructions/stake/unstake_nft.rs:42-48 | the send-account check changes no existing account and creates no escrow |
| StakeRelease.CheckRest | programs/sol/src/instructions/stake/unstake_nft.rs:50-62 | the receive account is created or accepted for the owner and reward mint |
| StakeRelease.Release | programs/sol/src/instructions/stake/unstake_nft.rs:128-132 | the escrow is gone afterwards and no mint is added or removed |
| StakeRelease.ReleaseSucceeds | programs/sol/src/instructions/stake/unstake_nft.rs:128-132 | the three token-program calls go through when the escrow holds the NFT under the NFT authority, the send and receive accounts take the right mints and the token authority controls the reward mint |
| StakeRelease.ReleaseLamports | programs/sol/src/instructions/stake/unstake_nft.rs:132 | closing the escrow pays its lamports to the owner and moves no other lamports |
| StakeRelease.ReleaseAmounts | programs/sol/src/instructions/stake/unstake_nft.rs:128-132 | the send account gains the NFT and the receive account the reward; other balances except the escrow's are unchanged |
| StakeRelease.ReleaseAccounts | programs/sol/src/instructions/stake/unstake_nft.rs:128-132 | only the escrow disappears; every other account keeps its mint and owner |
| StakeRelease.ReleaseSupply | programs/sol/src/instructions/stake/unstake_nft.rs:130 | only the reward mint's supply grows, by the reward |
| StakeRelease.Handler | programs/sol/src/instructions/stake/unstake_nft.rs:116-135 | the reward is computed (a panic aborts), the release runs, and `close = owner` removes the record and pays its lamports to the owner |
| StakeRelease.HandlerUnstakes | programs/sol/src/instructions/stake/unstake_nft.rs:116-135 | a successful handler run completes an unstake: record gone, NFT and reward delivered, escrow closed, only the reward supply grows, the escrow's and the record's lamports with the owner |
| StakeRelease.SweptLamports | programs/sol/src/instructions/stake/unstake_nft.rs:25 | with the record's close, the owner receives the escrow's and the record's lamports and no other balance moves |
| StakeRelease.UnstakeNftAsWritten | programs/sol/src/instructions/stake/unstake_nft.rs:13-135 | the source's version succeeds only when the record exists and the send account is the owner's associated account; then the record is gone, the NFT is back in the send account, the reward is minted into the receive account in the mint passed, the escrow is closed and its lamports and the record's go to the owner, nothing else changes |
| StakeRelease.AsWrittenAgreesOnAssociated | programs/sol/src/instructions/stake/unstake_nft.rs:42-62 | for an NFT staked from the owner's associated account and paid in the collection's reward mint, the source's and the corrected unstake give the same result |
| StakeRelease.AsWrittenUnstakePaysForeignReward | programs/sol/src/instructions/stake/unstake_nft.rs:61-62 | as written, an unstake passing a mint other than the collection's reward mint (one the token authority controls) succeeds and mints the reward in that mint |
| StakeRelease.UnstakeNft | programs/sol/src/instructions/stake/unstake_nft.rs:13-135 | corrected `unstake_nft`: a missing record fails with `NotInitialized`, a foreign reward mint with `ConstraintRaw`; on success the record is gone, the NFT is back in the send account it came from, the reward is in the receive account, the escrow is closed, only the reward supply grows, and the owner receives the escrow's and the record's lamports with every other balance unchanged |
| StakeRelease.AsWrittenNeverReleases | programs/sol/src/instructions/stake/unstake_nft.rs:42-48 | as written, an NFT staked from a non-associated account can never be unstaked |
| StakeRelease.UnstakeAvailable | programs/sol/src/instructions/stake/unstake_nft.rs:116-135 | with the correction, a backed NFT can always be taken back when the recorded send account still takes its mint under the owner (or is the owner's associated account, recreated if closed), the reward mint is the collection's and the reward fits |
| StakeRelease.UnstakeKeepsBacked | programs/sol/src/instructions/stake/unstake_nft.rs:25-38 | the record and its escrow disappear together and no other escrow is touched |
| StakeRelease.UnstakeShape | programs/sol/src/instructions/stake/unstake_nft.rs:116-135 | a successful unstake is the release run on the checked ledger, with the record removed; the checks add only the send and receive accounts, neither an escrow |
| StakeRelease.CheckRestFrame | programs/sol/src/instructions/stake/unstake_nft.rs:50-56 | the checks only add the receive account |
| StakeRelease.ReleaseKeepsBacked | programs/sol/src/instructions/stake/unstake_nft.rs:128-132 | releasing a backed record's NFT and dropping the record keeps the vault backed |
| StakeRelease.EscrowSurvives | programs/sol/src/instructions/stake/unstake_nft.rs:128-132 | every other record's escrow comes out of a release untouched |
| StakeRelease.ReleaseKeeps | programs/sol/src/instructions/stake/unstake_nft.rs:128-132 | an account other than the escrow, send and receive accounts is unchanged by a release |
| StakeRelease.UnstakeSupply | programs/sol/src/instructions/stake/unstake_nft.rs:128-132 | unstaking mints the reward in the collection's token and changes no other supply |

## Left out

- Rent and account space: lamports held for rent are ordinary balances. The `space` of an `init` is compared with the encoded size only for `Proposal`, where it decides an outcome (Finding 2).
- The token and system programs are abstracted to the effects and failure conditions listed for `Ledger`. Their exact error codes are collapsed into a few `Custody` errors.
- Strings: a Rust `String`'s `len()` counts UTF-8 bytes, while the model counts characters. The title and option limits of `create_proposal` (1 to 300 and 1 to 25) and the `Proposal` size therefore agree with the program only for ASCII text; a non-ASCII title or option is measured shorter here than on chain.
- Ledger.MintTo: the token program's `u64` overflow checks are not modelled; a real `mint_to` also fails when the mint's supply or the destination's amount would exceed `U64_MAX`. Balances and supplies are unbounded here, so `StakeRelease.UnstakeAvailable`, `StakeWithdraw.WithdrawAgainSucceeds` and every success condition that mints hold only while the minted totals stay within `u64`.
- `Clock::get()` is the parameter `now`. The clock sysvar never fails in the model.
- Token-metadata accounts are an oracle map. Only the name, the update authority and the `collection` field are modelled. Deserialising a malformed account is not modelled.
- Anchor's account discriminators, owner checks, bump derivation and the `Signer` check are assumed to hold for the accounts passed. Constraint order matters only for which error is reported.
- The identity module (`create_identity`, `states/identity.rs`) is not part of this model.
- The dispatch table in `programs/sol/src/lib.rs:14-79` exposes neither the stake instructions nor `execute_proposal`. `collection/mod.rs` does not list `add_stake`, `edit_stake` or `add_token`. The model treats all of them as callable instructions.
- The `Collection` struct declares no `emission` field, yet `add_stake`, `edit_stake` and the stake instructions read and write one. The model adds it; the `LEN` lemma measures only the declared fields.
- `give_vote` checks neither the proposal's `is_active` flag nor the collection's voting flag, and the model follows that.
- ProposalVote.Handler: a `choice` argument is a `u8` in the source; the model takes the `U8` argument as a natural number index, which is the same value.
- StakeState.CalcEmission: when the clock is behind the stake time and the emission is zero the model states the result only when the difference fits in `i64`. An earlier overflowing subtraction panics, as the first ensures covers.
- StakeWithdraw.CheckAccounts: the associated-token-program check that the receive address is the owner's associated account is folded into the address `AssociatedToken(owner, mint)`.
- TradeExecute.CheckAccounts and TradeCancel.CheckAccounts: stated as the conjunction of constraints in field order. The error for each failed constraint is the reported one, but the model states only the first few explicitly.

## Findings

| source | as written | input that shows it | evidently intended | confidence | as-written member | corrected member |
|---|---|---|---|---|---|---|
| programs/sol/src/instructions/trade/execute.rs:210-220 | both SOL payouts sit inside `if spl_amount[1] > 0` | an accepted SOL-for-SOL trade (`spl_amount == [0, 0]`, `sol_amount == [x, y]`, x, y > 0): party two receives nothing and the trade account, with both SOL legs, closes to party one | each party receives the other's SOL leg whatever the token legs | high, not executed | TradeExecute.ExecuteAsWrittenStrandsSol | TradeExecute.ExecutePaysPartyTwo |
| programs/sol/src/states/proposal.rs:32-34 | `Proposal::len` counts 25 bytes per option and the title's bytes, but no 4-byte length prefix for the title or for each option | a valid proposal with two 25-byte options: its record needs more bytes than the account is given, so serialisation fails | one 4-byte prefix per string | high, not executed | ProposalCreate.TwoLongOptionsDoNotFit | ProposalState.LenFits |
| programs/sol/src/states/proposal.rs:53 | `Proposal::new` sets `is_active: false`, while `execute_proposal` requires `is_active == true` | any created proposal, executed after its window: `ProposalAlreadyExecuted` | proposals start open (`is_active: true`) | high, not executed | ProposalExecute.AsWrittenNeverExecutes | ProposalExecute.CreatedProposalExecutes |
| programs/sol/src/instructions/stake/unstake_nft.rs:42-48 | the send account must be the owner's associated token account, and `has_one` pins it to the recorded one | an NFT staked from any token account other than the associated one: every unstake fails and the NFT stays in escrow | return the NFT to the recorded send account, still creating the owner's associated account when that is the recorded one and it was closed | medium, not executed | StakeRelease.AsWrittenNeverReleases | StakeRelease.UnstakeAvailable |
| programs/sol/src/instructions/stake/unstake_nft.rs:61-62 | `token_mint` is any mint; nothing ties it to the collection's reward mint | a staker of collection A unstakes passing collection B's reward mint, which the same token authority controls, and is paid in B's token | require `token_mint == collection.token_mint` | high, not executed | StakeRelease.AsWrittenUnstakePaysForeignReward | StakeRelease.UnstakeSupply |
| programs/sol/src/instructions/stake/withdraw_tokens.rs:41-42 | `token_mint` is any mint; nothing ties it to the collection's reward mint | a staker of collection A passes collection B's reward mint, which the same token authority controls, and is paid in B's token | require `token_mint == collection.token_mint` | high, not executed | StakeWithdraw.AsWrittenPaysForeignReward | StakeWithdraw.WithdrawTokens |
| programs/sol/src/instructions/collection/add_voting.rs:25-33 | no `ModuleAlreadyAdded` guard, unlike `add_trade` and `add_stake` | calling `add_voting` twice: the second call succeeds and overwrites count, duration and quorum | enabling is one-shot | medium, not executed | Registry.AddVotingRepeatOverwrites | Registry.AddVotingOneShot |

=== FILE: accept_trade.dfy ===
/** `accept_trade`: party two answers an open offer with a leg of its own
    (SOL into the trade account and/or tokens into escrow two) and confirms it. */
module TradeAccept {
  import opened Keys
  import opened Errors
  import opened Wrappers
  import opened Ints
  import opened Ledger
  import opened Registry
  import opened TradeState

  datatype AcceptTradeArgs = AcceptTradeArgs(
    trade: Address,                  // the trade record's address
    partyTwo: Address,               // the signer
    collection: Address,
    escrowPassed: bool,              // whether the optional escrow-two account is passed
    receiveAccount: Option<Address>, // party two's receive account for party one's tokens, if passed
    sendAccount: Option<Address>,    // party two's token send account, if passed
    oneMint: Option<Address>,        // the mint party one offers, if passed
    twoMint: Option<Address>,        // the mint party two offers, if passed
    solAmount: U64,
    splAmount: U64,
    tradeType: TradeType)

  function Escrow(t: Trade, a: AcceptTradeArgs): Address {
    EscrowTwoPda(t.partyOne, a.partyTwo, a.collection)
  }

  /** The optional receive account: an associated token account of party two
      for party one's mint, created when missing. */
  function InitReceive(l: Ledger, a: AcceptTradeArgs): (r: Result<Ledger>)
    ensures a.receiveAccount.None? ==> r == Ok(l)
    ensures r.Ok? && a.receiveAccount.Some? ==>
      && a.oneMint.Some?
      && a.receiveAccount.value == AssociatedToken(a.partyTwo, a.oneMint.value)
      && r == InitTokenIfNeeded(l, a.receiveAccount.value, a.oneMint.value, a.partyTwo)
  {
    match a.receiveAccount
    case None => Ok(l)
    case Some(x) =>
      if a.oneMint.None? then Err(Framework(ConstraintAccountIsNone))
      else if x != AssociatedToken(a.partyTwo, a.oneMint.value) then Err(Framework(AccountNotAssociated))
      else InitTokenIfNeeded(l, x, a.oneMint.value, a.partyTwo)
  }

  /** The instruction's account constraints, in field order. Returns the
      ledger with escrow two and the receive account initialised when passed. */
  function CheckAccounts(b: Book, reg: Registry, a: AcceptTradeArgs): (r: Result<Ledger>)
    ensures a.trade !in b.trades ==> r == Err(Framework(NotInitialized))
    ensures r.Ok? ==> a.trade in b.trades && a.collection in reg
    ensures r.Ok? ==> b.trades[a.trade].partyTwo == a.partyTwo && b.trades[a.trade].collection == a.collection
    ensures r.Ok? ==> a.oneMint.Some? ==> b.trades[a.trade].oneMint == a.oneMint
    ensures r.Ok? ==> Lamports(b.ledger, a.partyTwo) >= a.solAmount
    ensures r.Ok? ==> r.value.lamports == b.ledger.lamports && r.value.mints == b.ledger.mints
    ensures r.Ok? ==> forall x {:trigger Amount(r.value, x)} :: Amount(r.value, x) == Amount(b.ledger, x)
    ensures r.Ok? ==> forall m {:trigger Supply(r.value, m)} :: Supply(r.value, m) == Supply(b.ledger, m)
    ensures r.Ok? ==> CheckSendAccount(r.value, a.sendAccount, a.twoMint, a.partyTwo, a.splAmount).Pass?
    ensures r.Ok? && a.escrowPassed ==>
      && a.twoMint.Some?
      && Escrow(b.trades[a.trade], a) in r.value.tokens
      && r.value.tokens[Escrow(b.trades[a.trade], a)].mint == a.twoMint.value
    ensures r.Ok? && a.receiveAccount.Some? ==>
      && a.oneMint.Some?
      && a.receiveAccount.value == AssociatedToken(a.partyTwo, a.oneMint.value)
      && a.receiveAccount.value in r.value.tokens
      && r.value.tokens[a.receiveAccount.value].mint == a.oneMint.value
      && r.value.tokens[a.receiveAccount.value].owner == a.partyTwo
    ensures (&& a.trade in b.trades
             && b.trades[a.trade].partyTwo == a.partyTwo && b.trades[a.trade].collection == a.collection
             && (a.escrowPassed ==>
                   && a.twoMint.Some?
                   && InitTokenIfNeeded(b.ledger, Escrow(b.trades[a.trade], a), a.twoMint.value, a.partyTwo).Ok?)
             && var l1 := if a.escrowPassed then InitTokenIfNeeded(b.ledger, Escrow(b.trades[a.trade], a), a.twoMint.value, a.partyTwo).value
                          else b.ledger;
             && InitReceive(l1, a).Ok?
             && CheckSendAccount(InitReceive(l1, a).value, a.sendAccount, a.twoMint, a.partyTwo, a.splAmount).Pass?
             && (a.oneMint.Some? ==> b.trades[a.trade].oneMint == a.oneMint)
             && Lamports(b.ledger, a.partyTwo) >= a.solAmount
             && a.collection in reg)
            ==> r.Ok?
  {
    if a.trade !in b.trades then Err(Framework(NotInitialized)) else
    var t := b.trades[a.trade];
    :- Need(t.partyTwo == a.partyTwo, Framework(ConstraintHasOne));
    :- Need(t.collection == a.collection, Framework(ConstraintHasOne));
    var l1 :- if !a.escrowPassed then Ok(b.ledger)
              else if a.twoMint.None? then Err(Framework(ConstraintAccountIsNone))
              else InitTokenIfNeeded(b.ledger, Escrow(t, a), a.twoMint.value, a.partyTwo);
    var l2 :- InitReceive(l1, a);
    :- CheckSendAccount(l2, a.sendAccount, a.twoMint, a.partyTwo, a.splAmount);
    :- CheckRecorded(a.oneMint, t.oneMint, Program(MintNotExist));
    :- Need(Lamports(l2, a.partyTwo) >= a.solAmount, Program(InsufficientBalance));
    :- Need(a.collection in reg, Framework(NotInitialized));
    Ok(l2)
  }

  /** Party two's leg. */
  function LegOf(t: Trade, a: AcceptTradeArgs): Leg {
    Leg(a.partyTwo, a.trade, Escrow(t, a), a.escrowPassed, a.sendAccount, a.solAmount, a.splAmount, a.tradeType)
  }

  /** The record after acceptance: party two's leg is filled in and the trade
      is confirmed; party one's leg and the parties stay as they were. */
  function Confirmed(t: Trade, a: AcceptTradeArgs): (u: Trade)
    ensures u.isConfirmed
    ensures u.solAmount == Slots(t.solAmount.one, a.solAmount) && u.splAmount == Slots(t.splAmount.one, a.splAmount)
    ensures u.twoSendAddress == a.sendAccount && u.twoReceiveAddress == a.receiveAccount
    ensures u.twoMint == RecordedMint(a.twoMint, a.splAmount)
    ensures u.partyOne == t.partyOne && u.partyTwo == t.partyTwo && u.collection == t.collection && u.time == t.time
    ensures u.oneSendAddress == t.oneSendAddress && u.oneMint == t.oneMint
  {
    t.(isConfirmed := true,
       twoReceiveAddress := a.receiveAccount,
       twoSendAddress := a.sendAccount,
       twoMint := RecordedMint(a.twoMint, a.splAmount),
       solAmount := t.solAmount.(two := a.solAmount),
       splAmount := t.splAmount.(two := a.splAmount))
  }

  /** `accept_trade_handler`: an offer can be accepted once; party two must
      pass a receive account when party one offers tokens. */
  function Handler(l: Ledger, t: Trade, a: AcceptTradeArgs): (r: Result<Ledger>)
    ensures t.isConfirmed ==> r == Err(Program(TradeAlreadyAccepted))
    ensures r.Ok? ==> !t.isConfirmed && LockLeg(l, LegOf(t, a)).Ok? && r == LockLeg(l, LegOf(t, a))
    ensures r.Ok? ==> t.oneMint.Some? ==> a.receiveAccount.Some?
    ensures (!t.isConfirmed && LockLeg(l, LegOf(t, a)).Ok? && t.oneMint.Some? && a.receiveAccount.None?)
            ==> r == Err(Program(AccountNotProvided))
  {
    if t.isConfirmed then Err(Program(TradeAlreadyAccepted)) else
    var l1 :- LockLeg(l, LegOf(t, a));
    :- Need(t.oneMint.None? || a.receiveAccount.Some?, Program(AccountNotProvided));
    Ok(l1)
  }

  /** `accept_trade`. On success the trade is confirmed with party two's leg
      recorded and locked (SOL in the trade account, tokens in escrow two,
      now out of party two's control); every other record is unchanged and
      no lamport or token is created or destroyed. Neither the module flag
      nor the trade's age is checked. */
  function AcceptTrade(b: Book, reg: Registry, a: AcceptTradeArgs): (r: Result<Book>)
    ensures a.trade !in b.trades ==> r == Err(Framework(NotInitialized))
    ensures a.trade in b.trades && b.trades[a.trade].partyTwo != a.partyTwo ==> r == Err(Framework(ConstraintHasOne))
    ensures r.Ok? ==> a.trade in b.trades && !b.trades[a.trade].isConfirmed
    ensures r.Ok? ==> b.trades[a.trade].partyTwo == a.partyTwo && b.trades[a.trade].collection == a.collection
    ensures r.Ok? ==> FitsType(a.tradeType, a.solAmount, a.splAmount)
    ensures r.Ok? ==> r.value.trades == b.trades[a.trade := Confirmed(b.trades[a.trade], a)]
    ensures r.Ok? ==> forall x {:trigger Lamports(r.value.ledger, x)} ::
      Lamports(r.value.ledger, x) == Lamports(b.ledger, x) - (if x == a.partyTwo then a.solAmount else 0)
                                                           + (if x == a.trade then a.solAmount else 0)
    ensures r.Ok? && a.tradeType != Sol ==>
      && a.sendAccount.Some? && a.twoMint.Some?
      && var e := Escrow(b.trades[a.trade], a);
      && e in r.value.ledger.tokens
      && r.value.ledger.tokens[e].owner == EscrowAuthority
      && r.value.ledger.tokens[e].mint == a.twoMint.value
      && forall x {:trigger Amount(r.value.ledger, x)} ::
           Amount(r.value.ledger, x) == Amount(b.ledger, x) - (if x == a.sendAccount.value then a.splAmount else 0)
                                                            + (if x == e then a.splAmount else 0)
    ensures r.Ok? && a.tradeType == Sol ==> forall x {:trigger Amount(r.value.ledger, x)} ::
      Amount(r.value.ledger, x) == Amount(b.ledger, x)
    ensures r.Ok? ==> r.value.ledger.mints == b.ledger.mints
    ensures r.Ok? ==> TotalLamports(r.value.ledger) == TotalLamports(b.ledger)
    ensures r.Ok? ==> forall m {:trigger Supply(r.value.ledger, m)} :: Supply(r.value.ledger, m) == Supply(b.ledger, m)
  {
    var l :- CheckAccounts(b, reg, a);
    var t := b.trades[a.trade];
    var l1 :- Handler(l, t, a);
    if a.tradeType != Sol then
      var g := LegOf(t, a);
      assert EscrowTokens(l, g).Ok?;
      assert forall x {:trigger Amount(l1, x)} :: Amount(l1, x) == Amount(EscrowTokens(l, g).value, x);
      Ok(Book(b.trades[a.trade := Confirmed(t, a)], l1))
    else
      Ok(Book(b.trades[a.trade := Confirmed(t, a)], l1))
  }

  /** Acceptance keeps every record at its derived address. */
  lemma AcceptKeepsDerivedAddresses(b: Book, reg: Registry, a: AcceptTradeArgs)
    requires StoredAtDerivedAddress(b.trades)
    requires AcceptTrade(b, reg, a).Ok?
    ensures StoredAtDerivedAddress(AcceptTrade(b, reg, a).value.trades)
  {
    var t := b.trades[a.trade];
    assert TradeAddress(Confirmed(t, a)) == TradeAddress(t);
  }

  /** An offer is accepted at most once: after a successful acceptance every
      further acceptance of the same trade fails. */
  lemma AcceptAtMostOnce(b: Book, reg: Registry, a1: AcceptTradeArgs, a2: AcceptTradeArgs)
    requires AcceptTrade(b, reg, a1).Ok?
    requires a2.trade == a1.trade
    ensures AcceptTrade(AcceptTrade(b, reg, a1).value, reg, a2).Err?
  {
    var b1 := AcceptTrade(b, reg, a1).value;
    assert b1.trades[a2.trade].isConfirmed;
    var c := CheckAccounts(b1, reg, a2);
    if c.Ok? {
      assert Handler(c.value, b1.trades[a2.trade], a2).Err?;
    }
  }
}

=== FILE: cancel_trade.dfy ===
/** `cancel_trade`: party one withdraws a trade. An accepted trade is unwound
    at any time, refunding both legs; an unaccepted one only once its trading
    window has passed, refunding party one's leg. The record is closed. */
module TradeCancel {
  import opened Keys
  import opened Errors
  import opened Wrappers
  import opened Ints
  import opened Ledger
  import opened Registry
  import opened TradeState

  datatype CancelTradeArgs = CancelTradeArgs(
    trade: Address,
    partyOne: Address,              // the signer
    partyTwo: Address,
    collection: Address,
    escrowOnePassed: bool,
    escrowTwoPassed: bool,
    oneSend: Option<Address>,       // party one's send account, to refund into, if passed
    twoSend: Option<Address>)       // party two's send account, to refund into, if passed

  /** The instruction's account constraints, in field order. */
  function CheckAccounts(b: Book, reg: Registry, a: CancelTradeArgs): (o: Result<Trade>)
    ensures a.trade !in b.trades ==> o == Err(Framework(NotInitialized))
    ensures o.Ok? ==> a.trade in b.trades && a.collection in reg && o.value == b.trades[a.trade]
    ensures o.Ok? ==> var t := b.trades[a.trade];
      t.partyOne == a.partyOne && t.partyTwo == a.partyTwo && t.collection == a.collection
    ensures o.Ok? ==> a.oneSend.Some? ==> b.trades[a.trade].oneSendAddress == a.oneSend
    ensures o.Ok? ==> a.twoSend.Some? ==> b.trades[a.trade].twoSendAddress == a.twoSend
    ensures (a.trade in b.trades && b.trades[a.trade].partyOne == a.partyOne && b.trades[a.trade].partyTwo == a.partyTwo
             && a.collection in reg && a.collection != b.trades[a.trade].collection
             && CheckRecorded(a.oneSend, b.trades[a.trade].oneSendAddress, Program(IncorrectTokenAccount)).Pass?
             && CheckRecorded(a.twoSend, b.trades[a.trade].twoSendAddress, Program(IncorrectTokenAccount)).Pass?
             && (a.oneSend.Some? ==> a.oneSend.value in b.ledger.tokens)
             && (a.twoSend.Some? ==> a.twoSend.value in b.ledger.tokens)
             && (a.escrowOnePassed ==> EscrowOnePda(a.partyOne, a.partyTwo, a.collection) in b.ledger.tokens)
             && (a.escrowTwoPassed ==> EscrowTwoPda(a.partyOne, a.partyTwo, a.collection) in b.ledger.tokens))
            ==> o == Err(Program(CollectionNotSame))
  {
    if a.trade !in b.trades then Err(Framework(NotInitialized)) else
    var t := b.trades[a.trade];
    :- Need(t.partyOne == a.partyOne, Framework(ConstraintHasOne));
    :- Need(t.partyTwo == a.partyTwo, Framework(ConstraintHasOne));
    :- Need(a.escrowOnePassed ==> EscrowOnePda(t.partyOne, t.partyTwo, a.collection) in b.ledger.tokens, Framework(NotInitialized));
    :- Need(a.escrowTwoPassed ==> EscrowTwoPda(t.partyOne, t.partyTwo, a.collection) in b.ledger.tokens, Framework(NotInitialized));
    :- Need(a.oneSend.Some? ==> a.oneSend.value in b.ledger.tokens, Framework(NotInitialized));
    :- CheckRecorded(a.oneSend, t.oneSendAddress, Program(IncorrectTokenAccount));
    :- Need(a.twoSend.Some? ==> a.twoSend.value in b.ledger.tokens, Framework(NotInitialized));
    :- CheckRecorded(a.twoSend, t.twoSendAddress, Program(IncorrectTokenAccount));
    :- Need(a.collection in reg, Framework(NotInitialized));
    :- Need(a.collection == t.collection, Program(CollectionNotSame));
    Ok(t)
  }

  /** Whether an unaccepted trade's window has passed at `now`: strictly after
      creation time plus the collection's trade duration, the sum computed
      with overflow checks. */
  function WindowPassed(t: Trade, c: Collection, now: I64): (o: Result<I64>)
    ensures t.time + c.tradeDuration > I64_MAX || t.time + c.tradeDuration < I64_MIN ==> o == Err(Panic)
    ensures I64_MIN <= t.time + c.tradeDuration <= I64_MAX ==>
      (o.Ok? <==> now > t.time + c.tradeDuration)
    ensures I64_MIN <= t.time + c.tradeDuration <= I64_MAX && now <= t.time + c.tradeDuration ==>
      o == Err(Program(TradeTimeNotExpired))
    ensures o.Ok? ==> o.value == t.time + c.tradeDuration
  {
    var deadline :- AddI64(t.time, c.tradeDuration);
    :- Need(now > deadline, Program(TradeTimeNotExpired));
    Ok(deadline)
  }

  /** Party one's leg back to party one: its tokens return from escrow one
      to its send account, and it receives its SOL leg from the trade
      account together with escrow one's rent. */
  function RefundOne(l: Ledger, t: Trade, a: CancelTradeArgs): (r: Result<Ledger>)
    ensures r.Ok? ==> PayOut(l, a.escrowOnePassed, EscrowOne(t), a.oneSend, t.splAmount.one, a.partyOne).Ok?
    ensures t.splAmount.one > 0 && (!a.escrowOnePassed || a.oneSend.None?) ==> r == Err(Panic)
    ensures r.Ok? && Apart(t, a) ==>
      && Lamports(r.value, a.partyOne) == Lamports(l, a.partyOne) + t.solAmount.one
           + (if t.splAmount.one > 0 then Lamports(l, EscrowOne(t)) else 0)
      && Lamports(r.value, a.trade) == Lamports(l, a.trade) - t.solAmount.one
      && Lamports(r.value, a.partyTwo) == Lamports(l, a.partyTwo)
    ensures r.Ok? && t.splAmount.one > 0 ==>
      && a.oneSend.Some? && a.oneSend.value != EscrowOne(t) && EscrowOne(t) !in r.value.tokens
      && Amount(r.value, a.oneSend.value) == Amount(l, a.oneSend.value) + t.splAmount.one
    ensures r.Ok? && t.splAmount.one == 0 ==> r.value.tokens == l.tokens
  {
    var l1 :- PayOut(l, a.escrowOnePassed, EscrowOne(t), a.oneSend, t.splAmount.one, a.partyOne);
    PayOutLamports(l, a.escrowOnePassed, EscrowOne(t), a.oneSend, t.splAmount.one, a.partyOne, a.partyOne);
    PayOutLamports(l, a.escrowOnePassed, EscrowOne(t), a.oneSend, t.splAmount.one, a.partyOne, a.partyTwo);
    PayOutLamports(l, a.escrowOnePassed, EscrowOne(t), a.oneSend, t.splAmount.one, a.partyOne, a.trade);
    PaySol(l1, a.trade, a.partyOne, t.solAmount.one)
  }

  /** `cancel_trade_handler`. An accepted trade returns each escrow to the
      party that funded it, then each SOL leg; an unaccepted one returns
      party one's leg once the window has passed. */
  function Handler(l: Ledger, c: Collection, t: Trade, a: CancelTradeArgs, now: I64): (r: Result<Ledger>)
    ensures !t.isConfirmed && WindowPassed(t, c, now).Err? ==> r == Err(WindowPassed(t, c, now).error)
    ensures r.Ok? ==> t.isConfirmed || WindowPassed(t, c, now).Ok?
    ensures (&& (t.isConfirmed || WindowPassed(t, c, now).Ok?) && t.splAmount.one > 0
             && (!a.escrowOnePassed || a.oneSend.None?)) ==> r == Err(Panic)
    ensures (&& t.isConfirmed && PayOut(l, a.escrowOnePassed, EscrowOne(t), a.oneSend, t.splAmount.one, a.partyOne).Ok?
             && t.splAmount.two > 0 && (!a.escrowTwoPassed || a.twoSend.None?)) ==> r == Err(Panic)
    ensures r.Ok? && Apart(t, a) ==>
      && Lamports(r.value, a.partyOne) == Lamports(l, a.partyOne) + t.solAmount.one
           + (if t.splAmount.one > 0 then Lamports(l, EscrowOne(t)) else 0)
      && Lamports(r.value, a.partyTwo) == Lamports(l, a.partyTwo)
           + (if t.isConfirmed then t.solAmount.two + (if t.splAmount.two > 0 then Lamports(l, EscrowTwo(t)) else 0) else 0)
      && Lamports(r.value, a.trade) == Lamports(l, a.trade) - t.solAmount.one - (if t.isConfirmed then t.solAmount.two else 0)
    ensures r.Ok? && t.splAmount.one > 0 && RefundAccountsApart(a) ==>
      && a.oneSend.Some? && EscrowOne(t) !in r.value.tokens
      && Amount(r.value, a.oneSend.value) == Amount(l, a.oneSend.value) + t.splAmount.one
    ensures r.Ok? && t.isConfirmed && t.splAmount.two > 0 && RefundAccountsApart(a) ==>
      && a.twoSend.Some? && EscrowTwo(t) !in r.value.tokens
      && Amount(r.value, a.twoSend.value) == Amount(l, a.twoSend.value) + t.splAmount.two
    ensures r.Ok? && t.splAmount.one == 0 && (!t.isConfirmed || t.splAmount.two == 0) ==> r.value.tokens == l.tokens
  {
    if t.isConfirmed then
      var l1 :- PayOut(l, a.escrowOnePassed, EscrowOne(t), a.oneSend, t.splAmount.one, a.partyOne);
      var l2 :- PayOut(l1, a.escrowTwoPassed, EscrowTwo(t), a.twoSend, t.splAmount.two, a.partyTwo);
      var l3 :- PaySol(l2, a.trade, a.partyOne, t.solAmount.one);
      var l4 :- PaySol(l3, a.trade, a.partyTwo, t.solAmount.two);
      UnwindBothLamports(l, t, a);
      UnwindBothLegOne(l, l1, l2, l3, l4, t, a);
      UnwindBothLegTwo(l, l1, l2, l3, l4, t, a);
      UnwindNoTokens(l, l1, l2, l3, l4, t, a);
      Ok(l4)
    else
      var _ :- WindowPassed(t, c, now);
      RefundOne(l, t, a)
  }

  /** The lamports both pay-outs and both SOL legs of an accepted trade move:
      each party regains its SOL leg and its escrow's rent. */
  lemma UnwindBothLamports(l: Ledger, t: Trade, a: CancelTradeArgs)
    requires PayOut(l, a.escrowOnePassed, EscrowOne(t), a.oneSend, t.splAmount.one, a.partyOne).Ok?
    requires var l1 := PayOut(l, a.escrowOnePassed, EscrowOne(t), a.oneSend, t.splAmount.one, a.partyOne).value;
      && PayOut(l1, a.escrowTwoPassed, EscrowTwo(t), a.twoSend, t.splAmount.two, a.partyTwo).Ok?
      && var l2 := PayOut(l1, a.escrowTwoPassed, EscrowTwo(t), a.twoSend, t.splAmount.two, a.partyTwo).value;
      && PaySol(l2, a.trade, a.partyOne, t.solAmount.one).Ok?
      && PaySol(PaySol(l2, a.trade, a.partyOne, t.solAmount.one).value, a.trade, a.partyTwo, t.solAmount.two).Ok?
    ensures Apart(t, a) ==>
      var l1 := PayOut(l, a.escrowOnePassed, EscrowOne(t), a.oneSend, t.splAmount.one, a.partyOne).value;
      var l2 := PayOut(l1, a.escrowTwoPassed, EscrowTwo(t), a.twoSend, t.splAmount.two, a.partyTwo).value;
      var r := PaySol(PaySol(l2, a.trade, a.partyOne, t.solAmount.one).value, a.trade, a.partyTwo, t.solAmount.two).value;
      && Lamports(r, a.partyOne) == Lamports(l, a.partyOne) + t.solAmount.one + (if t.splAmount.one > 0 then Lamports(l, EscrowOne(t)) else 0)
      && Lamports(r, a.partyTwo) == Lamports(l, a.partyTwo) + t.solAmount.two + (if t.splAmount.two > 0 then Lamports(l, EscrowTwo(t)) else 0)
      && Lamports(r, a.trade) == Lamports(l, a.trade) - t.solAmount.one - t.solAmount.two
  {
    if Apart(t, a) {
      PayOutLamports(l, a.escrowOnePassed, EscrowOne(t), a.oneSend, t.splAmount.one, a.partyOne, a.partyOne);
      PayOutLamports(l, a.escrowOnePassed, EscrowOne(t), a.oneSend, t.splAmount.one, a.partyOne, a.partyTwo);
      PayOutLamports(l, a.escrowOnePassed, EscrowOne(t), a.oneSend, t.splAmount.one, a.partyOne, a.trade);
      PayOutLamports(l, a.escrowOnePassed, EscrowOne(t), a.oneSend, t.splAmount.one, a.partyOne, EscrowTwo(t));
      var l1 := PayOut(l, a.escrowOnePassed, EscrowOne(t), a.oneSend, t.splAmount.one, a.partyOne).value;
      PayOutLamports(l1, a.escrowTwoPassed, EscrowTwo(t), a.twoSend, t.splAmount.two, a.partyTwo, a.partyOne);
      PayOutLamports(l1, a.escrowTwoPassed, EscrowTwo(t), a.twoSend, t.splAmount.two, a.partyTwo, a.partyTwo);
      PayOutLamports(l1, a.escrowTwoPassed, EscrowTwo(t), a.twoSend, t.splAmount.two, a.partyTwo, a.trade);
      var l2 := PayOut(l1, a.escrowTwoPassed, EscrowTwo(t), a.twoSend, t.splAmount.two, a.partyTwo).value;
      var l3 := PaySol(l2, a.trade, a.partyOne, t.solAmount.one).value;
      assert Lamports(l3, a.partyOne) == Lamports(l2, a.partyOne) + t.solAmount.one;
      assert Lamports(l3, a.partyTwo) == Lamports(l2, a.partyTwo);
      assert Lamports(l3, a.trade) == Lamports(l2, a.trade) - t.solAmount.one;
    }
  }

  /** Without token legs the unwinding of an accepted trade moves no token. */
  lemma UnwindNoTokens(l: Ledger, l1: Ledger, l2: Ledger, l3: Ledger, r: Ledger, t: Trade, a: CancelTradeArgs)
    requires PayOut(l, a.escrowOnePassed, EscrowOne(t), a.oneSend, t.splAmount.one, a.partyOne) == Ok(l1)
    requires PayOut(l1, a.escrowTwoPassed, EscrowTwo(t), a.twoSend, t.splAmount.two, a.partyTwo) == Ok(l2)
    requires PaySol(l2, a.trade, a.partyOne, t.solAmount.one) == Ok(l3)
    requires PaySol(l3, a.trade, a.partyTwo, t.solAmount.two) == Ok(r)
    ensures t.splAmount.one == 0 && t.splAmount.two == 0 ==> r.tokens == l.tokens
  {
    assert r.tokens == l3.tokens == l2.tokens;
  }

  /** Unwinding an accepted trade returns party one's token leg to its send
      account and closes escrow one; the SOL legs move no token. */
  lemma UnwindBothLegOne(l: Ledger, l1: Ledger, l2: Ledger, l3: Ledger, r: Ledger, t: Trade, a: CancelTradeArgs)
    requires PayOut(l, a.escrowOnePassed, EscrowOne(t), a.oneSend, t.splAmount.one, a.partyOne) == Ok(l1)
    requires PayOut(l1, a.escrowTwoPassed, EscrowTwo(t), a.twoSend, t.splAmount.two, a.partyTwo) == Ok(l2)
    requires PaySol(l2, a.trade, a.partyOne, t.solAmount.one) == Ok(l3)
    requires PaySol(l3, a.trade, a.partyTwo, t.solAmount.two) == Ok(r)
    ensures t.splAmount.one > 0 && RefundAccountsApart(a) ==>
      && a.oneSend.Some? && EscrowOne(t) !in r.tokens
      && Amount(r, a.oneSend.value) == Amount(l, a.oneSend.value) + t.splAmount.one
  {
    assert r.tokens == l3.tokens == l2.tokens;
    if t.splAmount.one > 0 && RefundAccountsApart(a) {
      PayOutsLegOne(l, l1, l2, t, a);
      assert Amount(r, a.oneSend.value) == Amount(l2, a.oneSend.value);
    }
  }

  /** Unwinding an accepted trade returns party two's token leg to its send
      account and closes escrow two; the SOL legs move no token. */
  lemma UnwindBothLegTwo(l: Ledger, l1: Ledger, l2: Ledger, l3: Ledger, r: Ledger, t: Trade, a: CancelTradeArgs)
    requires PayOut(l, a.escrowOnePassed, EscrowOne(t), a.oneSend, t.splAmount.one, a.partyOne) == Ok(l1)
    requires PayOut(l1, a.escrowTwoPassed, EscrowTwo(t), a.twoSend, t.splAmount.two, a.partyTwo) == Ok(l2)
    requires PaySol(l2, a.trade, a.partyOne, t.solAmount.one) == Ok(l3)
    requires PaySol(l3, a.trade, a.partyTwo, t.solAmount.two) == Ok(r)
    ensures t.splAmount.two > 0 && RefundAccountsApart(a) ==>
      && a.twoSend.Some? && EscrowTwo(t) !in r.tokens
      && Amount(r, a.twoSend.value) == Amount(l, a.twoSend.value) + t.splAmount.two
  {
    assert r.tokens == l3.tokens == l2.tokens;
    if t.splAmount.two > 0 && RefundAccountsApart(a) {
      PayOutsLegTwo(l, l1, l2, t, a);
      assert Amount(r, a.twoSend.value) == Amount(l2, a.twoSend.value);
    }
  }

  /** Party one's token leg through both pay-outs of an accepted trade. */
  lemma PayOutsLegOne(l: Ledger, l1: Ledger, l2: Ledger, t: Trade, a: CancelTradeArgs)
    requires t.splAmount.one > 0 && RefundAccountsApart(a)
    requires PayOut(l, a.escrowOnePassed, EscrowOne(t), a.oneSend, t.splAmount.one, a.partyOne) == Ok(l1)
    requires PayOut(l1, a.escrowTwoPassed, EscrowTwo(t), a.twoSend, t.splAmount.two, a.partyTwo) == Ok(l2)
    ensures a.oneSend.Some? && EscrowOne(t) !in l2.tokens
    ensures Amount(l2, a.oneSend.value) == Amount(l, a.oneSend.value) + t.splAmount.one
  {
    var x := a.oneSend.value;
    PayOutAmount(l, a.escrowOnePassed, EscrowOne(t), a.oneSend, t.splAmount.one, a.partyOne, x);
    PayOutAmount(l, a.escrowOnePassed, EscrowOne(t), a.oneSend, t.splAmount.one, a.partyOne, EscrowOne(t));
    PayOutAmount(l1, a.escrowTwoPassed, EscrowTwo(t), a.twoSend, t.splAmount.two, a.partyTwo, x);
  }

  /** Party two's token leg through both pay-outs of an accepted trade. */
  lemma PayOutsLegTwo(l: Ledger, l1: Ledger, l2: Ledger, t: Trade, a: CancelTradeArgs)
    requires t.splAmount.two > 0 && RefundAccountsApart(a)
    requires PayOut(l, a.escrowOnePassed, EscrowOne(t), a.oneSend, t.splAmount.one, a.partyOne) == Ok(l1)
    requires PayOut(l1, a.escrowTwoPassed, EscrowTwo(t), a.twoSend, t.splAmount.two, a.partyTwo) == Ok(l2)
    ensures a.twoSend.Some? && EscrowTwo(t) !in l2.tokens
    ensures Amount(l2, a.twoSend.value) == Amount(l, a.twoSend.value) + t.splAmount.two
  {
    var x := a.twoSend.value;
    PayOutAmount(l, a.escrowOnePassed, EscrowOne(t), a.oneSend, t.splAmount.one, a.partyOne, x);
    PayOutAmount(l1, a.escrowTwoPassed, EscrowTwo(t), a.twoSend, t.splAmount.two, a.partyTwo, x);
    PayOutAmount(l1, a.escrowTwoPassed, EscrowTwo(t), a.twoSend, t.splAmount.two, a.partyTwo, EscrowTwo(t));
  }

  /** `cancel_trade`. Only party one can cancel. On success the record is
      gone, its account emptied into party one, and no lamport or token is
      created or destroyed. */
  function CancelTrade(b: Book, reg: Registry, now: I64, a: CancelTradeArgs): (r: Result<Book>)
    ensures a.trade !in b.trades ==> r == Err(Framework(NotInitialized))
    ensures r.Ok? ==> CheckAccounts(b, reg, a).Ok? && b.trades[a.trade].partyOne == a.partyOne
    ensures r.Ok? ==> r.value.trades == b.trades - {a.trade}
    ensures r.Ok? ==> Handler(b.ledger, reg[a.collection], b.trades[a.trade], a, now).Ok?
    ensures r.Ok? ==> r.value.ledger == SweepLamports(Handler(b.ledger, reg[a.collection], b.trades[a.trade], a, now).value, a.trade, a.partyOne)
    ensures r.Ok? && !b.trades[a.trade].isConfirmed ==>
      now > b.trades[a.trade].time + reg[a.collection].tradeDuration
    ensures (&& CheckAccounts(b, reg, a).Ok? && !b.trades[a.trade].isConfirmed
             && I64_MIN <= b.trades[a.trade].time + reg[a.collection].tradeDuration <= I64_MAX
             && now <= b.trades[a.trade].time + reg[a.collection].tradeDuration)
            ==> r == Err(Program(TradeTimeNotExpired))
    ensures r.Ok? ==> TotalLamports(r.value.ledger) == TotalLamports(b.ledger)
    ensures r.Ok? ==> forall m {:trigger Supply(r.value.ledger, m)} :: Supply(r.value.ledger, m) == Supply(b.ledger, m)
  {
    var t :- CheckAccounts(b, reg, a);
    var l1 :- Handler(b.ledger, reg[a.collection], t, a, now);
    if t.isConfirmed then
      var l := PayOut(b.ledger, a.escrowOnePassed, EscrowOne(t), a.oneSend, t.splAmount.one, a.partyOne).value;
      PayOutConserves(b.ledger, a.escrowOnePassed, EscrowOne(t), a.oneSend, t.splAmount.one, a.partyOne);
      PayOutConserves(l, a.escrowTwoPassed, EscrowTwo(t), a.twoSend, t.splAmount.two, a.partyTwo);
      Ok(CloseTrade(Book(b.trades, l1), a.trade, a.partyOne))
    else
      PayOutConserves(b.ledger, a.escrowOnePassed, EscrowOne(t), a.oneSend, t.splAmount.one, a.partyOne);
      Ok(CloseTrade(Book(b.trades, l1), a.trade, a.partyOne))
  }

  /** Cancellation removes a record, so the others stay at their derived addresses. */
  lemma CancelKeepsDerivedAddresses(b: Book, reg: Registry, now: I64, a: CancelTradeArgs)
    requires StoredAtDerivedAddress(b.trades)
    requires CancelTrade(b, reg, now, a).Ok?
    ensures StoredAtDerivedAddress(CancelTrade(b, reg, now, a).value.trades)
  {
    RemovalKeepsDerivedAddresses(b.trades, a.trade);
  }

  /** The clock matters only through the window: an accepted trade cancels
      the same way at any time, and an unaccepted one the same way at any
      two instants after its deadline; at the deadline itself it fails. */
  lemma ClockOnlyGatesTheWindow(b: Book, reg: Registry, a: CancelTradeArgs, now1: I64, now2: I64)
    requires CheckAccounts(b, reg, a).Ok?
    requires var t := b.trades[a.trade]; var d := t.time + reg[a.collection].tradeDuration;
      t.isConfirmed || (I64_MIN <= d <= I64_MAX && now1 > d && now2 > d)
    ensures CancelTrade(b, reg, now1, a) == CancelTrade(b, reg, now2, a)
  {
  }

  lemma NotCancellableAtDeadline(b: Book, reg: Registry, a: CancelTradeArgs)
    requires CheckAccounts(b, reg, a).Ok?
    requires !b.trades[a.trade].isConfirmed
    requires I64_MIN <= b.trades[a.trade].time + reg[a.collection].tradeDuration <= I64_MAX
    ensures CancelTrade(b, reg, b.trades[a.trade].time + reg[a.collection].tradeDuration, a) == Err(Program(TradeTimeNotExpired))
  {
  }

  /** The accounts of a cancellation are where they normally are: the
      parties are distinct wallets, the record sits at its derived address
      and the refund accounts are two different non-escrow accounts. */
  predicate GenericPosition(b: Book, a: CancelTradeArgs) {
    && IsWallet(a.partyOne) && IsWallet(a.partyTwo) && a.partyOne != a.partyTwo
    && StoredAtDerivedAddress(b.trades)
    && RefundAccountsApart(a)
  }

  /** The parties and addresses the handler works with are the record's own. */
  predicate Apart(t: Trade, a: CancelTradeArgs) {
    && IsWallet(a.partyOne) && IsWallet(a.partyTwo) && a.partyOne != a.partyTwo
    && t.partyOne == a.partyOne && t.partyTwo == a.partyTwo && a.trade == TradeAddress(t)
  }

  /** The lamports the unwinding of an accepted trade moves. */
  lemma UnwindAcceptedLamports(l: Ledger, c: Collection, t: Trade, a: CancelTradeArgs, now: I64)
    requires t.isConfirmed && Apart(t, a)
    requires Handler(l, c, t, a, now).Ok?
    ensures var r := Handler(l, c, t, a, now).value;
      && Lamports(r, a.partyOne) == Lamports(l, a.partyOne) + t.solAmount.one + (if t.splAmount.one > 0 then Lamports(l, EscrowOne(t)) else 0)
      && Lamports(r, a.partyTwo) == Lamports(l, a.partyTwo) + t.solAmount.two + (if t.splAmount.two > 0 then Lamports(l, EscrowTwo(t)) else 0)
      && Lamports(r, a.trade) == Lamports(l, a.trade) - t.solAmount.one - t.solAmount.two
  {
    PayOutLamports(l, a.escrowOnePassed, EscrowOne(t), a.oneSend, t.splAmount.one, a.partyOne, a.partyOne);
    PayOutLamports(l, a.escrowOnePassed, EscrowOne(t), a.oneSend, t.splAmount.one, a.partyOne, a.partyTwo);
    PayOutLamports(l, a.escrowOnePassed, EscrowOne(t), a.oneSend, t.splAmount.one, a.partyOne, a.trade);
    PayOutLamports(l, a.escrowOnePassed, EscrowOne(t), a.oneSend, t.splAmount.one, a.partyOne, EscrowTwo(t));
    var l1 := PayOut(l, a.escrowOnePassed, EscrowOne(t), a.oneSend, t.splAmount.one, a.partyOne).value;
    PayOutLamports(l1, a.escrowTwoPassed, EscrowTwo(t), a.twoSend, t.splAmount.two, a.partyTwo, a.partyOne);
    PayOutLamports(l1, a.escrowTwoPassed, EscrowTwo(t), a.twoSend, t.splAmount.two, a.partyTwo, a.partyTwo);
    PayOutLamports(l1, a.escrowTwoPassed, EscrowTwo(t), a.twoSend, t.splAmount.two, a.partyTwo, a.trade);
    var l2 := PayOut(l1, a.escrowTwoPassed, EscrowTwo(t), a.twoSend, t.splAmount.two, a.partyTwo).value;
    var l3 := PaySol(l2, a.trade, a.partyOne, t.solAmount.one).value;
    assert Lamports(l3, a.partyOne) == Lamports(l2, a.partyOne) + t.solAmount.one;
    assert Lamports(l3, a.partyTwo) == Lamports(l2, a.partyTwo);
    assert Lamports(l3, a.trade) == Lamports(l2, a.trade) - t.solAmount.one;
  }

  /** The lamports the unwinding of an unaccepted trade moves. */
  lemma UnwindOfferLamports(l: Ledger, c: Collection, t: Trade, a: CancelTradeArgs, now: I64)
    requires !t.isConfirmed && Apart(t, a)
    requires Handler(l, c, t, a, now).Ok?
    ensures var r := Handler(l, c, t, a, now).value;
      && Lamports(r, a.partyOne) == Lamports(l, a.partyOne) + t.solAmount.one + (if t.splAmount.one > 0 then Lamports(l, EscrowOne(t)) else 0)
      && Lamports(r, a.partyTwo) == Lamports(l, a.partyTwo)
      && Lamports(r, a.trade) == Lamports(l, a.trade) - t.solAmount.one
  {
    PayOutLamports(l, a.escrowOnePassed, EscrowOne(t), a.oneSend, t.splAmount.one, a.partyOne, a.partyOne);
    PayOutLamports(l, a.escrowOnePassed, EscrowOne(t), a.oneSend, t.splAmount.one, a.partyOne, a.partyTwo);
    PayOutLamports(l, a.escrowOnePassed, EscrowOne(t), a.oneSend, t.splAmount.one, a.partyOne, a.trade);
  }

  /** Unwinding returns each party exactly its own leg: its SOL and its
      escrow's rent; party one also gets the trade account's rent. For an
      unaccepted trade party two had put nothing in and gets nothing. */
  lemma CancelRefundsLamports(b: Book, reg: Registry, now: I64, a: CancelTradeArgs)
    requires CancelTrade(b, reg, now, a).Ok?
    requires GenericPosition(b, a)
    ensures var r := CancelTrade(b, reg, now, a).value.ledger;
      var t := b.trades[a.trade];
      var two := if t.isConfirmed then t.solAmount.two + (if t.splAmount.two > 0 then Lamports(b.ledger, EscrowTwo(t)) else 0) else 0;
      && Lamports(r, a.partyTwo) == Lamports(b.ledger, a.partyTwo) + two
      && Lamports(r, a.partyOne) == Lamports(b.ledger, a.partyOne) + Lamports(b.ledger, a.trade)
           - (if t.isConfirmed then t.solAmount.two else 0)
           + (if t.splAmount.one > 0 then Lamports(b.ledger, EscrowOne(t)) else 0)
      && Lamports(r, a.trade) == 0
  {
    var t := b.trades[a.trade];
    assert a.trade == TradeAddress(t);
    assert Apart(t, a);
    if t.isConfirmed {
      UnwindAcceptedLamports(b.ledger, reg[a.collection], t, a, now);
    } else {
      UnwindOfferLamports(b.ledger, reg[a.collection], t, a, now);
    }
  }

  /** The send accounts refunds go to are two different non-escrow accounts. */
  predicate RefundAccountsApart(a: CancelTradeArgs) {
    && (a.oneSend.Some? ==> !a.oneSend.value.EscrowOnePda? && !a.oneSend.value.EscrowTwoPda?)
    && (a.twoSend.Some? ==> !a.twoSend.value.EscrowOnePda? && !a.twoSend.value.EscrowTwoPda?)
    && (a.oneSend.Some? && a.twoSend.Some? ==> a.oneSend != a.twoSend)
  }

  /** The ledger the unwinding of an accepted trade leaves, step by step. */
  lemma UnwindAcceptedSteps(l: Ledger, c: Collection, t: Trade, a: CancelTradeArgs, now: I64)
    requires t.isConfirmed
    requires Handler(l, c, t, a, now).Ok?
    ensures PayOut(l, a.escrowOnePassed, EscrowOne(t), a.oneSend, t.splAmount.one, a.partyOne).Ok?
    ensures var l1 := PayOut(l, a.escrowOnePassed, EscrowOne(t), a.oneSend, t.splAmount.one, a.partyOne).value;
      && PayOut(l1, a.escrowTwoPassed, EscrowTwo(t), a.twoSend, t.splAmount.two, a.partyTwo).Ok?
      && Handler(l, c, t, a, now).value.tokens == PayOut(l1, a.escrowTwoPassed, EscrowTwo(t), a.twoSend, t.splAmount.two, a.partyTwo).value.tokens
    ensures t.splAmount.one > 0 ==> a.oneSend.Some?
    ensures t.splAmount.two > 0 ==> a.twoSend.Some?
  {
    var l1 := PayOut(l, a.escrowOnePassed, EscrowOne(t), a.oneSend, t.splAmount.one, a.partyOne).value;
    var l2 := PayOut(l1, a.escrowTwoPassed, EscrowTwo(t), a.twoSend, t.splAmount.two, a.partyTwo).value;
    var l3 := PaySol(l2, a.trade, a.partyOne, t.solAmount.one).value;
    assert Handler(l, c, t, a, now).value == PaySol(l3, a.trade, a.partyTwo, t.solAmount.two).value;
  }

  /** Unwinding an accepted trade returns party one's tokens. */
  lemma UnwindAcceptedLegOne(l: Ledger, c: Collection, t: Trade, a: CancelTradeArgs, now: I64)
    requires t.isConfirmed && RefundAccountsApart(a) && t.splAmount.one > 0
    requires Handler(l, c, t, a, now).Ok?
    ensures a.oneSend.Some?
    ensures var r := Handler(l, c, t, a, now).value;
      && Amount(r, a.oneSend.value) == Amount(l, a.oneSend.value) + t.splAmount.one
      && EscrowOne(t) !in r.tokens
  {
    UnwindAcceptedSteps(l, c, t, a, now);
    var l1 := PayOut(l, a.escrowOnePassed, EscrowOne(t), a.oneSend, t.splAmount.one, a.partyOne).value;
    var x := a.oneSend.value;
    PayOutAmount(l, a.escrowOnePassed, EscrowOne(t), a.oneSend, t.splAmount.one, a.partyOne, x);
    PayOutAmount(l, a.escrowOnePassed, EscrowOne(t), a.oneSend, t.splAmount.one, a.partyOne, EscrowOne(t));
    PayOutAmount(l1, a.escrowTwoPassed, EscrowTwo(t), a.twoSend, t.splAmount.two, a.partyTwo, x);
  }

  /** Unwinding an accepted trade returns party two's tokens. */
  lemma UnwindAcceptedLegTwo(l: Ledger, c: Collection, t: Trade, a: CancelTradeArgs, now: I64)
    requires t.isConfirmed && RefundAccountsApart(a) && t.splAmount.two > 0
    requires Handler(l, c, t, a, now).Ok?
    ensures a.twoSend.Some?
    ensures var r := Handler(l, c, t, a, now).value;
      && Amount(r, a.twoSend.value) == Amount(l, a.twoSend.value) + t.splAmount.two
      && EscrowTwo(t) !in r.tokens
  {
    UnwindAcceptedSteps(l, c, t, a, now);
    var l1 := PayOut(l, a.escrowOnePassed, EscrowOne(t), a.oneSend, t.splAmount.one, a.partyOne).value;
    var x := a.twoSend.value;
    PayOutAmount(l, a.escrowOnePassed, EscrowOne(t), a.oneSend, t.splAmount.one, a.partyOne, x);
    PayOutAmount(l1, a.escrowTwoPassed, EscrowTwo(t), a.twoSend, t.splAmount.two, a.partyTwo, x);
    PayOutAmount(l1, a.escrowTwoPassed, EscrowTwo(t), a.twoSend, t.splAmount.two, a.partyTwo, EscrowTwo(t));
  }

  /** The token balances the unwinding of an unaccepted trade moves: only
      party one's escrow and send account change. */
  lemma UnwindOfferTokens(l: Ledger, c: Collection, t: Trade, a: CancelTradeArgs, now: I64)
    requires !t.isConfirmed && Apart(t, a) && RefundAccountsApart(a)
    requires Handler(l, c, t, a, now).Ok?
    ensures var r := Handler(l, c, t, a, now).value;
      && (t.splAmount.one > 0 ==>
            && a.oneSend.Some?
            && Amount(r, a.oneSend.value) == Amount(l, a.oneSend.value) + t.splAmount.one
            && EscrowOne(t) !in r.tokens)
      && forall x {:trigger Amount(r, x)} :: x != EscrowOne(t) && Some(x) != a.oneSend ==> Amount(r, x) == Amount(l, x)
  {
    var r := Handler(l, c, t, a, now).value;
    var l1 := PayOut(l, a.escrowOnePassed, EscrowOne(t), a.oneSend, t.splAmount.one, a.partyOne).value;
    assert r.tokens == l1.tokens;
    if t.splAmount.one > 0 {
      PayOutAmount(l, a.escrowOnePassed, EscrowOne(t), a.oneSend, t.splAmount.one, a.partyOne, a.oneSend.value);
      PayOutAmount(l, a.escrowOnePassed, EscrowOne(t), a.oneSend, t.splAmount.one, a.partyOne, EscrowOne(t));
    }
    forall x | x != EscrowOne(t) && Some(x) != a.oneSend
      ensures Amount(r, x) == Amount(l, x)
    {
      PayOutAmount(l, a.escrowOnePassed, EscrowOne(t), a.oneSend, t.splAmount.one, a.partyOne, x);
    }
  }

  /** A successful cancellation in a generic position is its handler's
      unwinding followed by the sweep of the record's lamports, which moves
      no token. */
  lemma CancelShape(b: Book, reg: Registry, now: I64, a: CancelTradeArgs)
    requires CancelTrade(b, reg, now, a).Ok?
    requires GenericPosition(b, a)
    ensures var t := b.trades[a.trade];
      && Apart(t, a)
      && Handler(b.ledger, reg[a.collection], t, a, now).Ok?
      && CancelTrade(b, reg, now, a).value.ledger.tokens == Handler(b.ledger, reg[a.collection], t, a, now).value.tokens
  {
    var t := b.trades[a.trade];
    assert a.trade == TradeAddress(t);
    var h := Handler(b.ledger, reg[a.collection], t, a, now).value;
    assert CancelTrade(b, reg, now, a).value.ledger == SweepLamports(h, a.trade, a.partyOne);
  }

  /** Cancelling an accepted trade returns each token leg to the send account
      it came from and closes the escrow that held it. */
  lemma CancelRefundsAcceptedTokens(b: Book, reg: Registry, now: I64, a: CancelTradeArgs)
    requires CancelTrade(b, reg, now, a).Ok?
    requires GenericPosition(b, a)
    requires b.trades[a.trade].isConfirmed
    ensures var r := CancelTrade(b, reg, now, a).value.ledger;
      var t := b.trades[a.trade];
      && (t.splAmount.one > 0 ==>
            && a.oneSend.Some?
            && Amount(r, a.oneSend.value) == Amount(b.ledger, a.oneSend.value) + t.splAmount.one
            && EscrowOne(t) !in r.tokens)
      && (t.splAmount.two > 0 ==>
            && a.twoSend.Some?
            && Amount(r, a.twoSend.value) == Amount(b.ledger, a.twoSend.value) + t.splAmount.two
            && EscrowTwo(t) !in r.tokens)
  {
    var t := b.trades[a.trade];
    CancelShape(b, reg, now, a);
    if t.splAmount.one > 0 { UnwindAcceptedLegOne(b.ledger, reg[a.collection], t, a, now); }
    if t.splAmount.two > 0 { UnwindAcceptedLegTwo(b.ledger, reg[a.collection], t, a, now); }
  }

  /** Cancelling an unaccepted trade returns party one's tokens to its send
      account, closes escrow one, and changes no other token balance. */
  lemma CancelRefundsOfferTokens(b: Book, reg: Registry, now: I64, a: CancelTradeArgs)
    requires CancelTrade(b, reg, now, a).Ok?
    requires GenericPosition(b, a)
    requires !b.trades[a.trade].isConfirmed
    ensures var r := CancelTrade(b, reg, now, a).value.ledger;
      var t := b.trades[a.trade];
      && (t.splAmount.one > 0 ==>
            && a.oneSend.Some?
            && Amount(r, a.oneSend.value) == Amount(b.ledger, a.oneSend.value) + t.splAmount.one
            && EscrowOne(t) !in r.tokens)
      && forall x {:trigger Amount(r, x)} :: x != EscrowOne(t) && Some(x) != a.oneSend ==> Amount(r, x) == Amount(b.ledger, x)
  {
    var t := b.trades[a.trade];
    CancelShape(b, reg, now, a);
    UnwindOfferTokens(b.ledger, reg[a.collection], t, a, now);
    var h := Handler(b.ledger, reg[a.collection], t, a, now).value;
    var r := CancelTrade(b, reg, now, a).value.ledger;
    forall x ensures Amount(r, x) == Amount(h, x) {
      assert r.tokens == h.tokens;
    }
  }
}

=== FILE: collection.dfy ===
/** The collection registry: one `Collection` record per verified collection,
    holding the module flags and parameters the three engines read, and the
    add/edit instructions of its update authority. */
module Registry {
  import opened Keys
  import opened Errors
  import opened Wrappers
  import opened Ints
  import opened Ledger
  import opened Metadata

  datatype Collection = Collection(
    verifiedCollectionKey: Address,   // the mint of the collection NFT
    treasuryAddress: Address,         // receives the trade fee
    tokenMint: Option<Address>,       // the staking reward mint, once attached
    isStaking: bool,
    isVoting: bool,
    isTrade: bool,
    isCommunity: bool,                // reserved, never set
    count: U64,                       // number of NFTs in the collection
    voteDuration: I64,                // seconds
    quorum: U64,
    tradeDuration: I64,               // seconds
    tradeFees: U64,                   // lamports
    emission: U64)                    // reward per staked NFT per hour; read by the stake engine

  /** Collection records by address. */
  type Registry = map<Address, Collection>

  /** `Collection::LEN`: discriminator plus the declared fields. */
  const LEN: nat := 8 + 32 + 32 + 1 + 32 + 1 + 1 + 1 + 1 + 8 + 8 + 8 + 8 + 8

  /** Borsh size of the declared fields (all but `emission`). */
  function EncodedSize(c: Collection): nat {
    32 + 32 + (if c.tokenMint.Some? then 1 + 32 else 1) + 4 * 1 + 5 * 8
  }

  /** The space budget covers every declared field at its largest, with nothing to spare. */
  lemma LenIsMaximalEncoding(c: Collection)
    ensures 8 + EncodedSize(c) <= LEN
    ensures 8 + EncodedSize(c) == LEN <==> c.tokenMint.Some?
    ensures LEN == 149
  {
  }

  /** `Collection::new`. */
  function New(verifiedCollectionKey: Address, treasuryAddress: Address): (c: Collection)
    ensures c.verifiedCollectionKey == verifiedCollectionKey && c.treasuryAddress == treasuryAddress
    ensures c.tokenMint == None
    ensures !c.isStaking && !c.isVoting && !c.isTrade && !c.isCommunity
    ensures c.count == 0 && c.voteDuration == 0 && c.quorum == 0 && c.tradeDuration == 0 && c.tradeFees == 0
    ensures c.emission == 0
  {
    Collection(verifiedCollectionKey, treasuryAddress, None, false, false, false, false, 0, 0, 0, 0, 0, 0)
  }

  /** Module flags never go back from true to false, and a reward mint, once
      attached, stays. */
  predicate FlagsOnlyRise(c: Collection, d: Collection) {
    && (c.isStaking ==> d.isStaking)
    && (c.isVoting ==> d.isVoting)
    && (c.isTrade ==> d.isTrade)
    && (c.isCommunity ==> d.isCommunity)
    && (c.tokenMint.Some? ==> d.tokenMint == c.tokenMint)
    && d.verifiedCollectionKey == c.verifiedCollectionKey
    && d.treasuryAddress == c.treasuryAddress
  }

  /** The checks every registry instruction puts on its `verified_collection`
      metadata account: it describes a collection NFT (its own `collection`
      field is empty) and the signer is its update authority. `tagged` says
      whether the instruction attaches the program's error codes to these
      constraints or leaves Anchor's generic one. */
  function CheckUpdateAuthority(oracle: Oracle, metadata: Address, signer: Address, tagged: bool): (o: Outcome)
    ensures o.Pass? <==>
      metadata in oracle && oracle[metadata].collection.None? && oracle[metadata].updateAuthority == signer
    ensures tagged && metadata in oracle && oracle[metadata].collection.Some? ==> o == Fail(Program(NotCollectionNft))
    ensures tagged && metadata in oracle && oracle[metadata].collection.None? && oracle[metadata].updateAuthority != signer
            ==> o == Fail(Program(NotUpdateAuthority))
  {
    if metadata !in oracle then Fail(Framework(NotInitialized))
    else if oracle[metadata].collection.Some? then
      Fail(if tagged then Program(NotCollectionNft) else Framework(ConstraintRaw))
    else if oracle[metadata].updateAuthority != signer then
      Fail(if tagged then Program(NotUpdateAuthority) else Framework(ConstraintRaw))
    else Pass
  }

  /** `create_collection`: registers the collection NFT `mint` at the address
      derived from its metadata account; a second registration fails. */
  function CreateCollection(reg: Registry, oracle: Oracle, mint: Address, signer: Address, treasury: Address): (r: Result<Registry>)
    ensures CollectionPda(MetadataPda(mint)) in reg ==> r == Err(Framework(AccountAlreadyInUse))
    ensures r.Ok? <==>
      && CollectionPda(MetadataPda(mint)) !in reg
      && CheckUpdateAuthority(oracle, MetadataPda(mint), signer, true).Pass?
    ensures r.Ok? ==> r.value == reg[CollectionPda(MetadataPda(mint)) := New(mint, treasury)]
  {
    var key := CollectionPda(MetadataPda(mint));
    :- Need(key !in reg, Framework(AccountAlreadyInUse));
    :- CheckUpdateAuthority(oracle, MetadataPda(mint), signer, true);
    Ok(reg[key := New(mint, treasury)])
  }

  /** Runs a record-level handler on the collection derived from `metadata`,
      after the update-authority checks. */
  function UpdateCollection(reg: Registry, oracle: Oracle, metadata: Address, signer: Address, tagged: bool,
                            handler: Collection -> Result<Collection>): (r: Result<Registry>)
    ensures r.Ok? <==>
      && CollectionPda(metadata) in reg
      && CheckUpdateAuthority(oracle, metadata, signer, tagged).Pass?
      && handler(reg[CollectionPda(metadata)]).Ok?
    ensures r.Ok? ==> r.value == reg[CollectionPda(metadata) := handler(reg[CollectionPda(metadata)]).value]
  {
    var key := CollectionPda(metadata);
    :- Need(key in reg, Framework(NotInitialized));
    :- CheckUpdateAuthority(oracle, metadata, signer, tagged);
    var c :- handler(reg[key]);
    Ok(reg[key := c])
  }

  // ---------------------------------------------------------------- trade module

  /** `add_trade_handler`: enables trading once; no range check on the values. */
  function AddTradeRecord(c: Collection, tradeFee: U64, duration: I64): (r: Result<Collection>)
    ensures c.isTrade ==> r == Err(Program(ModuleAlreadyAdded))
    ensures r.Ok? <==> !c.isTrade
    ensures r.Ok? ==> r.value.isTrade && r.value.tradeDuration == duration && r.value.tradeFees == tradeFee
    ensures r.Ok? ==> r.value.(isTrade := false, tradeDuration := c.tradeDuration, tradeFees := c.tradeFees) == c
    ensures r.Ok? ==> FlagsOnlyRise(c, r.value)
  {
    if c.isTrade then Err(Program(ModuleAlreadyAdded))
    else Ok(c.(isTrade := true, tradeDuration := duration, tradeFees := tradeFee))
  }

  /** `add_trade`: the update authority enables trading on its collection. */
  function AddTrade(reg: Registry, oracle: Oracle, metadata: Address, signer: Address, tradeFee: U64, duration: I64): (r: Result<Registry>)
    ensures r.Ok? <==>
      && CollectionPda(metadata) in reg
      && CheckUpdateAuthority(oracle, metadata, signer, false).Pass?
      && !reg[CollectionPda(metadata)].isTrade
    ensures r.Ok? ==> r.value.Keys == reg.Keys && FlagsOnlyRise(reg[CollectionPda(metadata)], r.value[CollectionPda(metadata)])
    ensures r.Ok? ==> r.value[CollectionPda(metadata)].tradeFees == tradeFee && r.value[CollectionPda(metadata)].tradeDuration == duration
  {
    UpdateCollection(reg, oracle, metadata, signer, false, c => AddTradeRecord(c, tradeFee, duration))
  }

  datatype TradeEditType = Fee | Duration

  /** `edit_trade_handler`: overwrites one parameter; the duration is the
      `u64` argument reinterpreted as `i64`. No flag or range check. */
  function EditTradeRecord(c: Collection, newNum: U64, editType: TradeEditType): (r: Result<Collection>)
    ensures r.Ok?
    ensures editType == Fee ==> r.value == c.(tradeFees := newNum)
    ensures editType == Duration ==> r.value == c.(tradeDuration := U64AsI64(newNum))
    ensures editType == Duration && newNum > I64_MAX ==> r.value.tradeDuration < 0
    ensures FlagsOnlyRise(c, r.value)
  {
    match editType
    case Fee => Ok(c.(tradeFees := newNum))
    case Duration => Ok(c.(tradeDuration := U64AsI64(newNum)))
  }

  /** `edit_trade`: the update authority changes one trade parameter. */
  function EditTrade(reg: Registry, oracle: Oracle, metadata: Address, signer: Address, newNum: U64, editType: TradeEditType): (r: Result<Registry>)
    ensures r.Ok? <==> CollectionPda(metadata) in reg && CheckUpdateAuthority(oracle, metadata, signer, false).Pass?
    ensures r.Ok? ==> r.value.Keys == reg.Keys && FlagsOnlyRise(reg[CollectionPda(metadata)], r.value[CollectionPda(metadata)])
  {
    UpdateCollection(reg, oracle, metadata, signer, false, c => EditTradeRecord(c, newNum, editType))
  }

  /** Enabling trading is one-shot: a second `add_trade` fails and leaves the
      first call's parameters in place, while `edit_trade` still works. */
  lemma AddTradeOneShot(c: Collection, fee1: U64, dur1: I64, fee2: U64, dur2: I64, newNum: U64, editType: TradeEditType)
    requires AddTradeRecord(c, fee1, dur1).Ok?
    ensures AddTradeRecord(AddTradeRecord(c, fee1, dur1).value, fee2, dur2) == Err(Program(ModuleAlreadyAdded))
    ensures EditTradeRecord(AddTradeRecord(c, fee1, dur1).value, newNum, editType).Ok?
  {
  }

  // ---------------------------------------------------------------- voting module

  /** `add_voting_handler` as the source writes it: no "already added" guard,
      so a repeat call silently overwrites the parameters; no quorum check. */
  function AddVotingRecordAsWritten(c: Collection, count: U64, duration: I64, quorum: U64): (r: Result<Collection>)
    ensures r.Ok?
    ensures r.value == c.(isVoting := true, quorum := quorum, count := count, voteDuration := duration)
  {
    Ok(c.(isVoting := true, quorum := quorum, count := count, voteDuration := duration))
  }

  /** The as-written handler accepts a second call and replaces the first call's parameters. */
  lemma AddVotingRepeatOverwrites(c: Collection, n1: U64, d1: I64, q1: U64, n2: U64, d2: I64, q2: U64)
    ensures var c1 := AddVotingRecordAsWritten(c, n1, d1, q1).value;
            && c1.isVoting
            && AddVotingRecordAsWritten(c1, n2, d2, q2).Ok?
            && AddVotingRecordAsWritten(c1, n2, d2, q2).value.count == n2
            && AddVotingRecordAsWritten(c1, n2, d2, q2).value.quorum == q2
            && AddVotingRecordAsWritten(c1, n2, d2, q2).value.voteDuration == d2
  {
  }

  /** `add_voting_handler` with the "already added" guard its sibling
      `add_trade_handler` has, so enabling voting is one-shot. */
  function AddVotingRecord(c: Collection, count: U64, duration: I64, quorum: U64): (r: Result<Collection>)
    ensures c.isVoting ==> r == Err(Program(ModuleAlreadyAdded))
    ensures r.Ok? <==> !c.isVoting
    ensures r.Ok? ==> r.value.isVoting && r.value.count == count && r.value.voteDuration == duration && r.value.quorum == quorum
    ensures r.Ok? ==> r.value.(isVoting := false, count := c.count, voteDuration := c.voteDuration, quorum := c.quorum) == c
    ensures r.Ok? ==> FlagsOnlyRise(c, r.value)
    ensures r.Ok? ==> r == AddVotingRecordAsWritten(c, count, duration, quorum)
  {
    if c.isVoting then Err(Program(ModuleAlreadyAdded))
    else AddVotingRecordAsWritten(c, count, duration, quorum)
  }

  /** `add_voting`, with the guard. */
  function AddVoting(reg: Registry, oracle: Oracle, metadata: Address, signer: Address, count: U64, duration: I64, quorum: U64): (r: Result<Registry>)
    ensures r.Ok? <==>
      && CollectionPda(metadata) in reg
      && CheckUpdateAuthority(oracle, metadata, signer, false).Pass?
      && !reg[CollectionPda(metadata)].isVoting
    ensures r.Ok? ==> r.value.Keys == reg.Keys && FlagsOnlyRise(reg[CollectionPda(metadata)], r.value[CollectionPda(metadata)])
    ensures r.Ok? ==> r.value[CollectionPda(metadata)].isVoting && r.value[CollectionPda(metadata)].quorum == quorum
  {
    UpdateCollection(reg, oracle, metadata, signer, false, c => AddVotingRecord(c, count, duration, quorum))
  }

  lemma AddVotingOneShot(c: Collection, n1: U64, d1: I64, q1: U64, n2: U64, d2: I64, q2: U64)
    requires AddVotingRecord(c, n1, d1, q1).Ok?
    ensures AddVotingRecord(AddVotingRecord(c, n1, d1, q1).value, n2, d2, q2) == Err(Program(ModuleAlreadyAdded))
  {
  }

  datatype VotingEditType = Count | VoteDuration | Quorum

  /** `edit_voting_handler`: overwrites one parameter, no flag or range check. */
  function EditVotingRecord(c: Collection, newNum: U64, editType: VotingEditType): (r: Result<Collection>)
    ensures r.Ok?
    ensures editType == Count ==> r.value == c.(count := newNum)
    ensures editType == VoteDuration ==> r.value == c.(voteDuration := U64AsI64(newNum))
    ensures editType == Quorum ==> r.value == c.(quorum := newNum)
    ensures FlagsOnlyRise(c, r.value)
  {
    match editType
    case Count => Ok(c.(count := newNum))
    case VoteDuration => Ok(c.(voteDuration := U64AsI64(newNum)))
    case Quorum => Ok(c.(quorum := newNum))
  }

  /** `edit_voting`: the update authority changes one voting parameter. */
  function EditVoting(reg: Registry, oracle: Oracle, metadata: Address, signer: Address, newNum: U64, editType: VotingEditType): (r: Result<Registry>)
    ensures r.Ok? <==> CollectionPda(metadata) in reg && CheckUpdateAuthority(oracle, metadata, signer, false).Pass?
    ensures r.Ok? ==> r.value.Keys == reg.Keys && FlagsOnlyRise(reg[CollectionPda(metadata)], r.value[CollectionPda(metadata)])
  {
    UpdateCollection(reg, oracle, metadata, signer, false, c => EditVotingRecord(c, newNum, editType))
  }

  // ---------------------------------------------------------------- staking module

  /** `add_stake_handler`: enables staking once, only after a reward mint is
      attached, with a positive emission. */
  function AddStakeRecord(c: Collection, emission: U64): (r: Result<Collection>)
    ensures c.isStaking ==> r == Err(Program(ModuleAlreadyAdded))
    ensures !c.isStaking && c.tokenMint.None? ==> r == Err(Program(TokenNotFound))
    ensures !c.isStaking && c.tokenMint.Some? && emission == 0 ==> r == Err(Program(ZeroValue))
    ensures r.Ok? <==> !c.isStaking && c.tokenMint.Some? && emission > 0
    ensures r.Ok? ==> r.value == c.(isStaking := true, emission := emission)
    ensures r.Ok? ==> FlagsOnlyRise(c, r.value)
  {
    if c.isStaking then Err(Program(ModuleAlreadyAdded))
    else if c.tokenMint.None? then Err(Program(TokenNotFound))
    else if emission == 0 then Err(Program(ZeroValue))
    else Ok(c.(isStaking := true, emission := emission))
  }

  /** `add_stake`: the update authority enables staking on its collection. */
  function AddStake(reg: Registry, oracle: Oracle, metadata: Address, signer: Address, emission: U64): (r: Result<Registry>)
    ensures r.Ok? <==>
      && CollectionPda(metadata) in reg
      && CheckUpdateAuthority(oracle, metadata, signer, true).Pass?
      && !reg[CollectionPda(metadata)].isStaking && reg[CollectionPda(metadata)].tokenMint.Some? && emission > 0
    ensures r.Ok? ==> r.value.Keys == reg.Keys && FlagsOnlyRise(reg[CollectionPda(metadata)], r.value[CollectionPda(metadata)])
    ensures r.Ok? ==> r.value[CollectionPda(metadata)].isStaking && r.value[CollectionPda(metadata)].emission == emission
  {
    UpdateCollection(reg, oracle, metadata, signer, true, c => AddStakeRecord(c, emission))
  }

  /** `edit_stake_handler`: a positive emission replaces the old one; staking
      need not be enabled. */
  function EditStakeRecord(c: Collection, emission: U64): (r: Result<Collection>)
    ensures emission == 0 ==> r == Err(Program(ZeroValue))
    ensures r.Ok? <==> emission > 0
    ensures r.Ok? ==> r.value == c.(emission := emission)
    ensures r.Ok? ==> FlagsOnlyRise(c, r.value)
  {
    if emission == 0 then Err(Program(ZeroValue)) else Ok(c.(emission := emission))
  }

  /** `edit_stake`: the update authority changes the emission rate. */
  function EditStake(reg: Registry, oracle: Oracle, metadata: Address, signer: Address, emission: U64): (r: Result<Registry>)
    ensures r.Ok? <==> CollectionPda(metadata) in reg && CheckUpdateAuthority(oracle, metadata, signer, true).Pass? && emission > 0
    ensures r.Ok? ==> r.value.Keys == reg.Keys && r.value[CollectionPda(metadata)].emission == emission
  {
    UpdateCollection(reg, oracle, metadata, signer, true, c => EditStakeRecord(c, emission))
  }

  /** Once staking is enabled, the emission stays positive through every
      later add/edit of the staking module. */
  lemma EmissionStaysPositive(c: Collection, e1: U64, e2: U64)
    requires AddStakeRecord(c, e1).Ok?
    ensures AddStakeRecord(c, e1).value.emission > 0
    ensures EditStakeRecord(AddStakeRecord(c, e1).value, e2).Ok? ==>
            EditStakeRecord(AddStakeRecord(c, e1).value, e2).value.emission > 0
  {
  }

  // ---------------------------------------------------------------- reward token

  /** The part of `add_token_handler` that touches the record: a reward mint
      can be attached once. */
  function AttachTokenRecord(c: Collection, mint: Address): (r: Result<Collection>)
    ensures c.tokenMint.Some? ==> r == Err(Program(TokenAlreadyExists))
    ensures r.Ok? <==> c.tokenMint.None?
    ensures r.Ok? ==> r.value == c.(tokenMint := Some(mint))
    ensures r.Ok? ==> FlagsOnlyRise(c, r.value)
  {
    if c.tokenMint.Some? then Err(Program(TokenAlreadyExists)) else Ok(c.(tokenMint := Some(mint)))
  }

  /** Registry and ledger together, for `add_token`, the one registry
      instruction that also creates an account. */
  datatype TokenSetup = TokenSetup(registry: Registry, ledger: Ledger)

  /** `add_token`: creates the reward mint `newMint` (9 decimals, signer as
      initial mint authority), hands its mint authority to the program's
      token-authority address and records it in the collection. */
  function AddToken(reg: Registry, l: Ledger, oracle: Oracle, metadata: Address, signer: Address, newMint: Address): (r: Result<TokenSetup>)
    ensures r.Ok? <==>
      && CollectionPda(metadata) in reg
      && CheckUpdateAuthority(oracle, metadata, signer, true).Pass?
      && newMint !in l.mints
      && reg[CollectionPda(metadata)].tokenMint.None?
    ensures r.Ok? ==> r.value.registry == reg[CollectionPda(metadata) := reg[CollectionPda(metadata)].(tokenMint := Some(newMint))]
    ensures r.Ok? ==> r.value.ledger == l.(mints := l.mints[newMint := Mint(9, Some(TokenAuthority))])
  {
    var key := CollectionPda(metadata);
    :- Need(key in reg, Framework(NotInitialized));
    :- CheckUpdateAuthority(oracle, metadata, signer, true);
    :- Need(newMint !in l.mints, Framework(AccountAlreadyInUse));
    var created := l.(mints := l.mints[newMint := Mint(9, Some(signer))]);
    var c :- AttachTokenRecord(reg[key], newMint);
    var handedOver := created.(mints := created.mints[newMint := Mint(9, Some(TokenAuthority))]);
    Ok(TokenSetup(reg[key := c], handedOver))
  }

  /** Attaching a reward mint is one-shot. */
  lemma AddTokenOneShot(reg: Registry, l: Ledger, oracle: Oracle, metadata: Address, signer: Address, m1: Address, m2: Address)
    requires AddToken(reg, l, oracle, metadata, signer, m1).Ok?
    ensures var s := AddToken(reg, l, oracle, metadata, signer, m1).value;
            AddToken(s.registry, s.ledger, oracle, metadata, signer, m2).Err?
  {
  }
}

=== FILE: create_proposal.dfy ===
/** `create_proposal`: a holder of a member NFT opens a proposal with two to
    five options in a collection whose voting module is enabled. */
module ProposalCreate {
  import opened Keys
  import opened Errors
  import opened Wrappers
  import opened Ints
  import opened Ledger
  import opened Metadata
  import opened Registry
  import opened ProposalState

  datatype CreateProposalArgs = CreateProposalArgs(
    account: Address,       // the new proposal account
    collection: Address,    // the collection record's address
    token: Address,         // the creator's membership token account
    mint: Address,          // the membership NFT's mint
    signer: Address,
    title: string,
    options: seq<string>)

  /** The instruction's account constraints, in field order. Returns the
      collection record. */
  function CheckAccounts(store: Proposals, reg: Registry, l: Ledger, oracle: Oracle, a: CreateProposalArgs): (r: Result<Collection>)
    ensures a.account in store ==> r == Err(Framework(AccountAlreadyInUse))
    ensures r.Ok? <==>
      && a.account !in store
      && a.collection in reg
      && CheckMember(l, oracle, a.token, a.signer, Some(a.mint), reg[a.collection].verifiedCollectionKey).Ok?
      && a.mint in l.mints && l.mints[a.mint].decimals == 0
    ensures r.Ok? ==> r.value == reg[a.collection]
  {
    if a.account in store then Err(Framework(AccountAlreadyInUse)) else
    :- Need(a.collection in reg, Framework(NotInitialized));
    :- Need(a.token in l.tokens, Framework(NotInitialized));
    :- Need(l.tokens[a.token].owner == a.signer, Framework(ConstraintTokenOwner));
    :- Need(l.tokens[a.token].mint == a.mint, Framework(ConstraintTokenMint));
    :- Need(l.tokens[a.token].amount == 1, Program(TokenNotOne));
    :- Need(a.mint in l.mints, Framework(NotInitialized));
    :- Need(l.mints[a.mint].decimals == 0, Framework(ConstraintMintDecimals));
    var _ :- CheckMember(l, oracle, a.token, a.signer, Some(a.mint), reg[a.collection].verifiedCollectionKey);
    Ok(reg[a.collection])
  }

  predicate ValidOption(o: string) {
    1 <= |o| <= 25
  }

  /** The per-option loop of the handler: the first option that is too long
      or blank decides the error. */
  function CheckOptions(options: seq<string>): (o: Outcome)
    ensures o.Pass? <==> forall i :: 0 <= i < |options| ==> ValidOption(options[i])
    ensures forall k :: 0 <= k < |options| && !ValidOption(options[k]) &&
                        (forall i :: 0 <= i < k ==> ValidOption(options[i])) ==>
      o == Fail(Program(if |options[k]| > 25 then StringLengthExceeds else BlankStringFound))
  {
    if |options| == 0 then Pass
    else if |options[0]| > 25 then Fail(Program(StringLengthExceeds))
    else if |options[0]| < 1 then Fail(Program(BlankStringFound))
    else
      var rest := CheckOptions(options[1..]);
      assert forall k :: 1 <= k < |options| ==> options[1..][k - 1] == options[k];
      rest
  }

  /** The handler's checks: the voting module is on, two to five options, a
      title of 1 to 300 bytes, then each option of 1 to 25 bytes. */
  function Validate(c: Collection, title: string, options: seq<string>): (o: Outcome)
    ensures !c.isVoting ==> o == Fail(Program(ModuleNotActive))
    ensures c.isVoting && !(1 < |options| < 6) ==> o == Fail(Program(IncorrectOptionCount))
    ensures c.isVoting && 1 < |options| < 6 && |title| > 300 ==> o == Fail(Program(StringLengthExceeds))
    ensures c.isVoting && 1 < |options| < 6 && |title| == 0 ==> o == Fail(Program(BlankStringFound))
    ensures c.isVoting && 1 < |options| < 6 && 0 < |title| <= 300 ==> o == CheckOptions(options)
    ensures o.Pass? <==>
      && c.isVoting && 1 < |options| < 6 && 0 < |title| <= 300
      && forall i :: 0 <= i < |options| ==> ValidOption(options[i])
  {
    if !c.isVoting then Fail(Program(ModuleNotActive))
    else if !(|options| > 1) || !(6 > |options|) then Fail(Program(IncorrectOptionCount))
    else if !(300 >= |title|) then Fail(Program(StringLengthExceeds))
    else if !(|title| > 0) then Fail(Program(BlankStringFound))
    else CheckOptions(options)
  }

  /** `n` zeros: the vote counters of a fresh proposal, and its bitmap bytes. */
  function Zeros(n: nat): (v: seq<U8>)
    ensures |v| == n && forall i :: 0 <= i < n ==> v[i] == 0
  {
    seq(n, _ => 0)
  }

  /** The bitmap length for a collection of `count` NFTs. */
  function BitmapLength(count: U64): nat {
    count / 8 + 1
  }

  /** `create_proposal` as the source writes it: the record starts inactive,
      and the account is sized by `LenAsWritten`, so a record whose options
      are long does not fit and the instruction fails when Anchor writes it back. */
  function CreateProposalAsWritten(store: Proposals, reg: Registry, l: Ledger, oracle: Oracle, now: I64,
                                   a: CreateProposalArgs): (r: Result<Proposals>)
    ensures r.Ok? ==> CheckAccounts(store, reg, l, oracle, a).Ok? && Validate(reg[a.collection], a.title, a.options).Pass?
    ensures r.Ok? ==> r.value == store[a.account := NewAsWritten(a.collection, a.title, Zeros(|a.options|),
                         Zeros(BitmapLength(reg[a.collection].count)), a.options, a.signer, now)]
  {
    var c :- CheckAccounts(store, reg, l, oracle, a);
    :- Validate(c, a.title, a.options);
    var p := NewAsWritten(a.collection, a.title, Zeros(|a.options|), Zeros(BitmapLength(c.count)), a.options, a.signer, now);
    :- Need(ProposalState.EncodedSize(p) <= LenAsWritten(c.count / 8, |a.title|, |a.options|), Framework(AccountDidNotSerialize));
    Ok(store[a.account := p])
  }

  /** `create_proposal` with the corrected size and the record open for voting.
      Exactly the validated proposals are created; the new record has one
      zero counter per option, a zeroed bitmap of `count / 8 + 1` bytes, the
      signer as creator and `now` as its start. */
  function CreateProposal(store: Proposals, reg: Registry, l: Ledger, oracle: Oracle, now: I64,
                          a: CreateProposalArgs): (r: Result<Proposals>)
    ensures a.account in store ==> r == Err(Framework(AccountAlreadyInUse))
    ensures r.Ok? <==> CheckAccounts(store, reg, l, oracle, a).Ok? && Validate(reg[a.collection], a.title, a.options).Pass?
    ensures CheckAccounts(store, reg, l, oracle, a).Ok? && Validate(reg[a.collection], a.title, a.options).Fail? ==>
            r == Err(Validate(reg[a.collection], a.title, a.options).error)
    ensures r.Ok? ==> r.value == store[a.account := ProposalState.New(a.collection, a.title, Zeros(|a.options|),
                         Zeros(BitmapLength(reg[a.collection].count)), a.options, a.signer, now)]
    ensures r.Ok? ==> a.account !in store && Consistent(r.value[a.account]) && r.value[a.account].isActive
    ensures r.Ok? ==> ProposalState.EncodedSize(r.value[a.account]) <= Len(reg[a.collection].count / 8, |a.title|, |a.options|)
  {
    var c :- CheckAccounts(store, reg, l, oracle, a);
    :- Validate(c, a.title, a.options);
    var p := ProposalState.New(a.collection, a.title, Zeros(|a.options|), Zeros(BitmapLength(c.count)), a.options, a.signer, now);
    LenFits(p, c.count / 8);
    TotalVotesZero(p.votes);
    ZeroBitmapIsEmpty(p.voters);
    assert ProposalState.EncodedSize(p) <= Len(c.count / 8, |a.title|, |a.options|);  // so the write-back cannot fail
    Ok(store[a.account := p])
  }

  /** The source's sizing turns away exactly the valid proposals whose option
      bytes exceed `21 * k - 4` for `k` options; every other valid proposal
      is created as the corrected instruction creates it, save for its
      `is_active` flag. */
  lemma AsWrittenRejectsLongOptions(store: Proposals, reg: Registry, l: Ledger, oracle: Oracle, now: I64,
                                    a: CreateProposalArgs)
    requires CreateProposal(store, reg, l, oracle, now, a).Ok?
    ensures CreateProposalAsWritten(store, reg, l, oracle, now, a).Ok? <==> OptionChars(a.options) + 4 <= 21 * |a.options|
    ensures CreateProposalAsWritten(store, reg, l, oracle, now, a).Err? ==>
            CreateProposalAsWritten(store, reg, l, oracle, now, a).error == Framework(AccountDidNotSerialize)
    ensures CreateProposalAsWritten(store, reg, l, oracle, now, a).Ok? ==>
            CreateProposalAsWritten(store, reg, l, oracle, now, a).value
            == store[a.account := CreateProposal(store, reg, l, oracle, now, a).value[a.account].(isActive := false)]
  {
    var c := reg[a.collection];
    var p := NewAsWritten(a.collection, a.title, Zeros(|a.options|), Zeros(BitmapLength(c.count)), a.options, a.signer, now);
    LenAsWrittenFitsIff(p, c.count / 8);
  }

  /** A concrete instance: two options of 25 bytes each are valid, yet their
      record is 12 bytes larger than the space the source allocates. */
  lemma TwoLongOptionsDoNotFit(store: Proposals, reg: Registry, l: Ledger, oracle: Oracle, now: I64,
                               a: CreateProposalArgs)
    requires CheckAccounts(store, reg, l, oracle, a).Ok? && reg[a.collection].isVoting
    requires a.title == "Mint date"
    requires a.options == ["aaaaaaaaaaaaaaaaaaaaaaaaa", "bbbbbbbbbbbbbbbbbbbbbbbbb"]
    ensures CreateProposal(store, reg, l, oracle, now, a).Ok?
    ensures CreateProposalAsWritten(store, reg, l, oracle, now, a) == Err(Framework(AccountDidNotSerialize))
  {
    assert OptionChars(a.options) == 50 by {
      var first := a.options[..1];
      assert first == [a.options[0]];
      assert first[..0] == [];
      assert OptionChars(first) == 25;
    }
    AsWrittenRejectsLongOptions(store, reg, l, oracle, now, a);
  }
}

=== FILE: create_trade.dfy ===
/** `create_trade`: party one opens a trade with party two inside a
    collection, putting SOL into the trade account and/or tokens into escrow one. */
module TradeCreate {
  import opened Keys
  import opened Errors
  import opened Wrappers
  import opened Ints
  import opened Ledger
  import opened Metadata
  import opened Registry
  import opened TradeState

  datatype CreateTradeArgs = CreateTradeArgs(
    partyOne: Address,            // the signer
    partyTwo: Address,
    collection: Address,          // the collection record's address
    escrowPassed: bool,           // whether the optional escrow-one account is passed
    sendAccount: Option<Address>, // party one's token send account, if passed
    mint: Option<Address>,        // the mint account, if passed
    oneToken: Address,            // party one's membership token account
    twoToken: Address,            // party two's membership token account
    solAmount: U64,
    splAmount: U64,
    tradeType: TradeType)

  function Address(a: CreateTradeArgs): Address {
    TradePda(a.partyOne, a.partyTwo, a.collection)
  }

  function Escrow(a: CreateTradeArgs): Address {
    EscrowOnePda(a.partyOne, a.partyTwo, a.collection)
  }

  /** A membership check that passes after an `init_if_needed` passed before it:
      the only account the initialisation can add is empty, so it holds no NFT. */
  lemma MemberSurvivesInit(l: Ledger, addr: Address, mint: Address, owner: Address,
                           oracle: Oracle, tokenAccount: Address, holder: Address, key: Address)
    requires InitTokenIfNeeded(l, addr, mint, owner).Ok?
    requires CheckMember(InitTokenIfNeeded(l, addr, mint, owner).value, oracle, tokenAccount, holder, None, key).Ok?
    ensures CheckMember(l, oracle, tokenAccount, holder, None, key).Ok?
  {
  }

  /** The instruction's account constraints, in field order. Returns the
      ledger with escrow one initialised when it is passed. */
  function CheckAccounts(b: Book, reg: Registry, oracle: Oracle, a: CreateTradeArgs): (r: Result<Ledger>)
    ensures r.Ok? ==> Address(a) !in b.trades && a.collection in reg
    ensures r.Ok? ==> CheckMember(b.ledger, oracle, a.oneToken, a.partyOne, None, reg[a.collection].verifiedCollectionKey).Ok?
    ensures r.Ok? ==> CheckMember(b.ledger, oracle, a.twoToken, a.partyTwo, None, reg[a.collection].verifiedCollectionKey).Ok?
    ensures r.Ok? ==> CheckSendAccount(r.value, a.sendAccount, a.mint, a.partyOne, a.splAmount).Pass?
    ensures r.Ok? ==> Lamports(b.ledger, a.partyOne) >= a.solAmount
    ensures r.Ok? && !a.escrowPassed ==> r.value == b.ledger
    ensures r.Ok? && a.escrowPassed ==>
      && a.mint.Some?
      && InitTokenIfNeeded(b.ledger, Escrow(a), a.mint.value, a.partyOne).Ok?
      && r.value == InitTokenIfNeeded(b.ledger, Escrow(a), a.mint.value, a.partyOne).value
    ensures Address(a) in b.trades ==> r == Err(Framework(AccountAlreadyInUse))
    ensures (&& Address(a) !in b.trades
             && (a.escrowPassed ==> a.mint.Some? && InitTokenIfNeeded(b.ledger, Escrow(a), a.mint.value, a.partyOne).Ok?)
             && CheckSendAccount(if a.escrowPassed then InitTokenIfNeeded(b.ledger, Escrow(a), a.mint.value, a.partyOne).value
                                 else b.ledger, a.sendAccount, a.mint, a.partyOne, a.splAmount).Pass?
             && Lamports(b.ledger, a.partyOne) >= a.solAmount
             && a.collection in reg
             && CheckMember(b.ledger, oracle, a.oneToken, a.partyOne, None, reg[a.collection].verifiedCollectionKey).Ok?
             && CheckMember(b.ledger, oracle, a.twoToken, a.partyTwo, None, reg[a.collection].verifiedCollectionKey).Ok?)
            ==> r.Ok?
  {
    if Address(a) in b.trades then Err(Framework(AccountAlreadyInUse)) else
    var l :- if !a.escrowPassed then Ok(b.ledger)
             else if a.mint.None? then Err(Framework(ConstraintAccountIsNone))
             else InitTokenIfNeeded(b.ledger, Escrow(a), a.mint.value, a.partyOne);
    :- CheckSendAccount(l, a.sendAccount, a.mint, a.partyOne, a.splAmount);
    :- Need(Lamports(l, a.partyOne) >= a.solAmount, Program(InsufficientBalance));
    :- Need(a.collection in reg, Framework(NotInitialized));
    var key := reg[a.collection].verifiedCollectionKey;
    var _ :- CheckMember(l, oracle, a.oneToken, a.partyOne, None, key);
    var _ :- CheckMember(l, oracle, a.twoToken, a.partyTwo, None, key);
    if a.escrowPassed then
      MemberSurvivesInit(b.ledger, Escrow(a), a.mint.value, a.partyOne, oracle, a.oneToken, a.partyOne, key);
      MemberSurvivesInit(b.ledger, Escrow(a), a.mint.value, a.partyOne, oracle, a.twoToken, a.partyTwo, key);
      Ok(l)
    else Ok(l)
  }

  /** Party one's leg as the instruction's arguments describe it. */
  function LegOf(a: CreateTradeArgs): Leg {
    Leg(a.partyOne, Address(a), Escrow(a), a.escrowPassed, a.sendAccount, a.solAmount, a.splAmount, a.tradeType)
  }

  /** `create_trade_handler` up to the record write: the trading module must
      be enabled before party one's leg is locked. */
  function Handler(l: Ledger, c: Collection, a: CreateTradeArgs): (r: Result<Ledger>)
    ensures !c.isTrade ==> r == Err(Program(ModuleNotActive))
    ensures c.isTrade ==> r == LockLeg(l, LegOf(a))
  {
    if !c.isTrade then Err(Program(ModuleNotActive)) else
    LockLeg(l, LegOf(a))
  }

  /** `create_trade`. On success exactly one record is added, at the address
      derived from the two parties and the collection; party one's SOL leg
      sits in the trade account and the token leg in escrow one, now out of
      party one's control; no lamport or token is created or destroyed. */
  function CreateTrade(b: Book, reg: Registry, oracle: Oracle, now: I64, a: CreateTradeArgs): (r: Result<Book>)
    ensures Address(a) in b.trades ==> r == Err(Framework(AccountAlreadyInUse))
    ensures r.Ok? ==> a.collection in reg && reg[a.collection].isTrade
    ensures r.Ok? ==> FitsType(a.tradeType, a.solAmount, a.splAmount)
    ensures r.Ok? ==> CheckMember(b.ledger, oracle, a.oneToken, a.partyOne, None, reg[a.collection].verifiedCollectionKey).Ok?
    ensures r.Ok? ==> CheckMember(b.ledger, oracle, a.twoToken, a.partyTwo, None, reg[a.collection].verifiedCollectionKey).Ok?
    ensures r.Ok? ==> r.value.trades == b.trades[Address(a) :=
      TradeState.New(a.partyOne, a.partyTwo, a.solAmount, a.splAmount, a.sendAccount, now, a.collection, RecordedMint(a.mint, a.splAmount))]
    ensures r.Ok? ==> Address(a) !in b.trades && Address(a) in r.value.trades
    ensures r.Ok? ==> forall x {:trigger Lamports(r.value.ledger, x)} ::
      Lamports(r.value.ledger, x) == Lamports(b.ledger, x) - (if x == a.partyOne then a.solAmount else 0)
                                                           + (if x == Address(a) then a.solAmount else 0)
    ensures r.Ok? && a.tradeType == Sol ==> r.value.ledger.tokens == b.ledger.tokens
    ensures r.Ok? && a.tradeType != Sol ==>
      && a.sendAccount.Some? && a.mint.Some?
      && Escrow(a) in r.value.ledger.tokens
      && r.value.ledger.tokens[Escrow(a)].owner == EscrowAuthority
      && r.value.ledger.tokens[Escrow(a)].mint == a.mint.value
      && forall x {:trigger Amount(r.value.ledger, x)} ::
           Amount(r.value.ledger, x) == Amount(b.ledger, x) - (if x == a.sendAccount.value then a.splAmount else 0)
                                                            + (if x == Escrow(a) then a.splAmount else 0)
    ensures r.Ok? ==> r.value.ledger.mints == b.ledger.mints
    ensures r.Ok? ==> TotalLamports(r.value.ledger) == TotalLamports(b.ledger)
    ensures r.Ok? ==> forall m {:trigger Supply(r.value.ledger, m)} :: Supply(r.value.ledger, m) == Supply(b.ledger, m)
  {
    var l :- CheckAccounts(b, reg, oracle, a);
    var l1 :- Handler(l, reg[a.collection], a);
    var t := TradeState.New(a.partyOne, a.partyTwo, a.solAmount, a.splAmount, a.sendAccount, now, a.collection, RecordedMint(a.mint, a.splAmount));
    if a.tradeType != Sol then
      var g := LegOf(a);
      assert EscrowTokens(l, g).Ok?;
      assert forall x {:trigger Amount(l1, x)} :: Amount(l1, x) == Amount(EscrowTokens(l, g).value, x);
      Ok(Book(b.trades[Address(a) := t], l1))
    else
      Ok(Book(b.trades[Address(a) := t], l1))
  }

  /** Creation keeps every record at its derived address. */
  lemma CreateKeepsDerivedAddresses(b: Book, reg: Registry, oracle: Oracle, now: I64, a: CreateTradeArgs)
    requires StoredAtDerivedAddress(b.trades)
    requires CreateTrade(b, reg, oracle, now, a).Ok?
    ensures StoredAtDerivedAddress(CreateTrade(b, reg, oracle, now, a).value.trades)
  {
  }

  /** A pair of parties can hold only one open trade per collection: a second
      offer fails whatever its terms, until the first is executed or cancelled. */
  lemma OneOpenTradePerPair(b: Book, reg: Registry, oracle: Oracle, now1: I64, now2: I64,
                            a1: CreateTradeArgs, a2: CreateTradeArgs)
    requires CreateTrade(b, reg, oracle, now1, a1).Ok?
    requires a2.partyOne == a1.partyOne && a2.partyTwo == a1.partyTwo && a2.collection == a1.collection
    ensures CreateTrade(CreateTrade(b, reg, oracle, now1, a1).value, reg, oracle, now2, a2)
            == Err(Framework(AccountAlreadyInUse))
  {
  }
}

=== FILE: errors.dfy ===
/** The failures an instruction can end with. */
module Errors {

  /** The program's own error codes (the `Errors` enum of the program crate),
      plus `TokenNotFound` and `TokenAlreadyExists`, which the staking and
      reward-token handlers return but the enum does not declare. */
  datatype ErrorCode =
    | NotCollectionNft
    | NotUpdateAuthority
    | TradeTimeExpired
    | TradeTimeNotExpired
    | ModuleAlreadyAdded
    | ModuleNotActive
    | TokenNotOne
    | CollectionNotVerified
    | CollectionNotSame
    | TokenAmountZero
    | AmountNotZero
    | InsufficientBalance
    | AccountNotProvided
    | AccountNotRequired
    | NotTradeParty
    | TradeAlreadyAccepted
    | TradeNotAccepted
    | MintNotExist
    | IncorrectTokenAccount
    | IncorrectOptionCount
    | StringLengthExceeds
    | BlankStringFound
    | VotingIsClosed
    | VotingIsActive
    | AccountNotInitialized
    | CollectionNotSet
    | AlreadyVoted
    | OptionNotExists
    | ZeroValue
    | InvalidQuorum
    | ProposalAlreadyExecuted
    | WrongMetadata
    | TokenNotFound
    | TokenAlreadyExists

  /** Errors raised by the Anchor framework while it loads and checks the
      instruction's accounts, before or after the handler runs. */
  datatype FrameworkError =
    | AccountAlreadyInUse       // `init` on an address that already holds an account
    | NotInitialized            // a typed account that does not exist (Anchor AccountNotInitialized)
    | ConstraintHasOne          // a `has_one` field differs
    | ConstraintRaw             // a `constraint = ...` without a custom error
    | ConstraintTokenMint       // `token::mint` differs
    | ConstraintTokenOwner      // `token::authority` differs
    | ConstraintMintDecimals    // `mint::decimals` differs
    | ConstraintAccountIsNone   // a constraint refers to an optional account that was not passed
    | AccountNotAssociated      // an `associated_token` account at a non-derived address
    | AccountDidNotSerialize    // the record does not fit in the space allocated for it

  /** Failures of the token and system programs the instructions call into. */
  datatype CustodyError =
    | InsufficientFunds
    | OwnerMismatch
    | MintMismatch
    | AccountMissing
    | NonZeroBalance

  datatype Error =
    | Program(code: ErrorCode)
    | Framework(framework: FrameworkError)
    | Custody(custody: CustodyError)
    | Panic    // unwrap of None, expect, assert_eq!, index out of bounds, checked overflow
}

=== FILE: execute_proposal.dfy ===
/** `execute_proposal`: once the vote window has closed, anyone closes the
    proposal, which passes when its votes reach the collection's quorum. */
module ProposalExecute {
  import opened Keys
  import opened Errors
  import opened Wrappers
  import opened Ints
  import opened Ledger
  import opened Metadata
  import opened Registry
  import opened ProposalState
  import ProposalCreate
  import ProposalVote

  datatype ExecuteProposalArgs = ExecuteProposalArgs(
    collection: Address,    // the collection record's address
    proposal: Address)      // the proposal account

  /** `votes.iter().sum()` on `u64`: a left fold whose every addition is
      checked, so the first partial sum that overflows panics. Since every
      partial sum is at most the total, the fold panics exactly when the
      total does not fit, and otherwise yields it. */
  function SumVotes(votes: seq<U64>): (r: Result<U64>)
    ensures r.Ok? <==> TotalVotes(votes) <= U64_MAX
    ensures r.Ok? ==> r.value == TotalVotes(votes)
    ensures r.Err? ==> r.error == Panic
  {
    if |votes| == 0 then Ok(0) else
    var partial :- SumVotes(votes[..|votes| - 1]);
    AddU64(partial, votes[|votes| - 1])
  }

  /** `execute_proposal_handler`: an open proposal whose window ended before
      `now` is closed, and marked passed when its votes reach the quorum;
      nothing else of the record changes. */
  function Handler(p: Proposal, c: Collection, now: I64): (r: Result<Proposal>)
    ensures !p.isActive ==> r == Err(Program(ProposalAlreadyExecuted))
    ensures p.isActive && AddI64(p.time, c.voteDuration).Err? ==> r == Err(Panic)
    ensures p.isActive && AddI64(p.time, c.voteDuration).Ok? && now <= p.time + c.voteDuration
            ==> r == Err(Program(VotingIsActive))
    ensures r.Ok? <==>
      && p.isActive && AddI64(p.time, c.voteDuration).Ok? && now > p.time + c.voteDuration
      && TotalVotes(p.votes) <= U64_MAX
    ensures r.Ok? ==> !r.value.isActive
    ensures r.Ok? ==> (r.value.isPassed <==> p.isPassed || TotalVotes(p.votes) >= c.quorum)
    ensures r.Ok? ==> r.value.(isActive := p.isActive, isPassed := p.isPassed) == p
  {
    if !p.isActive then Err(Program(ProposalAlreadyExecuted)) else
    var end :- AddI64(p.time, c.voteDuration);
    :- Need(now > end, Program(VotingIsActive));
    var total :- SumVotes(p.votes);
    var passed := if total >= c.quorum then true else p.isPassed;
    Ok(p.(isPassed := passed, isActive := false))
  }

  /** `execute_proposal`. Anyone may sign; the proposal must belong to the
      collection passed. */
  function ExecuteProposal(store: Proposals, reg: Registry, now: I64, a: ExecuteProposalArgs): (r: Result<Proposals>)
    ensures a.collection !in reg || a.proposal !in store ==> r == Err(Framework(NotInitialized))
    ensures a.collection in reg && a.proposal in store && store[a.proposal].collection != a.collection
            ==> r == Err(Framework(ConstraintHasOne))
    ensures r.Ok? <==>
      && a.collection in reg && a.proposal in store && store[a.proposal].collection == a.collection
      && Handler(store[a.proposal], reg[a.collection], now).Ok?
    ensures r.Ok? ==> r.value == store[a.proposal := Handler(store[a.proposal], reg[a.collection], now).value]
  {
    if a.collection !in reg then Err(Framework(NotInitialized)) else
    :- Need(a.proposal in store, Framework(NotInitialized));
    :- Need(store[a.proposal].collection == a.collection, Framework(ConstraintHasOne));
    var p :- Handler(store[a.proposal], reg[a.collection], now);
    Ok(store[a.proposal := p])
  }

  /** The two windows partition time: at every instant exactly one of voting
      (closed from `time + vote_duration + 1` on) and execution (refused up to
      `time + vote_duration`) is turned away by its window check. */
  lemma WindowsPartitionTime(p: Proposal, c: Collection, l: Ledger, oracle: Oracle, now: I64, a: ProposalVote.GiveVoteArgs)
    requires p.isActive && AddI64(p.time, c.voteDuration).Ok?
    ensures ProposalVote.Handler(p, c, l, oracle, now, a) == Err(Program(VotingIsClosed)) <==> now > p.time + c.voteDuration
    ensures Handler(p, c, now) == Err(Program(VotingIsActive)) <==> now <= p.time + c.voteDuration
  {
  }

  /** Execution is one-shot: whatever the time, a second execution fails. */
  lemma ExecuteOnce(store: Proposals, reg: Registry, now1: I64, now2: I64, a: ExecuteProposalArgs)
    requires ExecuteProposal(store, reg, now1, a).Ok?
    ensures ExecuteProposal(ExecuteProposal(store, reg, now1, a).value, reg, now2, a) == Err(Program(ProposalAlreadyExecuted))
  {
  }

  /** A proposal that never passed before passes exactly when its votes
      reach the quorum. */
  lemma QuorumDecides(p: Proposal, c: Collection, now: I64)
    requires !p.isPassed && Handler(p, c, now).Ok?
    ensures Handler(p, c, now).value.isPassed <==> TotalVotes(p.votes) >= c.quorum
  {
  }

  /** An open, consistent proposal whose bitmap has at most `U64_MAX` bits is
      executed by any call after its window. */
  lemma ExecutesAfterWindow(store: Proposals, reg: Registry, now: I64, a: ExecuteProposalArgs)
    requires a.collection in reg && a.proposal in store && store[a.proposal].collection == a.collection
    requires Consistent(store[a.proposal]) && store[a.proposal].isActive
    requires 8 * |store[a.proposal].voters| <= U64_MAX
    requires AddI64(store[a.proposal].time, reg[a.collection].voteDuration).Ok?
    requires now > store[a.proposal].time + reg[a.collection].voteDuration
    ensures ExecuteProposal(store, reg, now, a).Ok?
  {
    TalliedBound(store[a.proposal]);
  }

  // ---------------------------------------------------------------- engine invariants

  /** Every record keeps one counter per option and counters that agree with its bitmap. */
  predicate AllConsistent(store: Proposals) {
    forall k :: k in store ==> Consistent(store[k])
  }

  /** Each of the three voting instructions preserves the invariant. */
  lemma EngineKeepsConsistent(store: Proposals, reg: Registry, l: Ledger, oracle: Oracle, now: I64,
                              c: ProposalCreate.CreateProposalArgs, v: ProposalVote.GiveVoteArgs, e: ExecuteProposalArgs)
    requires AllConsistent(store)
    ensures ProposalCreate.CreateProposal(store, reg, l, oracle, now, c).Ok? ==>
            AllConsistent(ProposalCreate.CreateProposal(store, reg, l, oracle, now, c).value)
    ensures ProposalVote.GiveVote(store, reg, l, oracle, now, v).Ok? ==>
            AllConsistent(ProposalVote.GiveVote(store, reg, l, oracle, now, v).value)
    ensures ExecuteProposal(store, reg, now, e).Ok? ==> AllConsistent(ExecuteProposal(store, reg, now, e).value)
  {
    if ProposalVote.GiveVote(store, reg, l, oracle, now, v).Ok? {
      ProposalVote.VoteCountsEachBallotOnce(store, reg, l, oracle, now, v);
    }
    if ExecuteProposal(store, reg, now, e).Ok? {
      var p := store[e.proposal];
      var q := ExecuteProposal(store, reg, now, e).value[e.proposal];
      assert q.votes == p.votes && q.voters == p.voters && q.options == p.options;
    }
  }

  /** No record is open. */
  predicate Dormant(store: Proposals) {
    forall k :: k in store ==> !store[k].isActive
  }

  /** With proposals created as the source creates them, no proposal is ever
      open: creation and voting keep every record closed, and execution of a
      closed record always fails. */
  lemma AsWrittenNeverExecutes(store: Proposals, reg: Registry, l: Ledger, oracle: Oracle, now: I64,
                               c: ProposalCreate.CreateProposalArgs, v: ProposalVote.GiveVoteArgs, e: ExecuteProposalArgs)
    requires Dormant(store)
    ensures ProposalCreate.CreateProposalAsWritten(store, reg, l, oracle, now, c).Ok? ==>
            Dormant(ProposalCreate.CreateProposalAsWritten(store, reg, l, oracle, now, c).value)
    ensures ProposalVote.GiveVote(store, reg, l, oracle, now, v).Ok? ==>
            Dormant(ProposalVote.GiveVote(store, reg, l, oracle, now, v).value)
    ensures ExecuteProposal(store, reg, now, e).Err?
    ensures e.collection in reg && e.proposal in store && store[e.proposal].collection == e.collection ==>
            ExecuteProposal(store, reg, now, e) == Err(Program(ProposalAlreadyExecuted))
  {
    if ProposalVote.GiveVote(store, reg, l, oracle, now, v).Ok? {
      ProposalVote.VoteKeepsActivity(store, reg, l, oracle, now, v);
    }
  }

  /** With the corrected creation a new proposal can be executed once its
      window has passed, and it passes exactly when the quorum is zero: no
      vote has been cast yet. */
  lemma CreatedProposalExecutes(store: Proposals, reg: Registry, l: Ledger, oracle: Oracle, now: I64, later: I64,
                                c: ProposalCreate.CreateProposalArgs)
    requires ProposalCreate.CreateProposal(store, reg, l, oracle, now, c).Ok?
    requires AddI64(now, reg[c.collection].voteDuration).Ok? && later > now + reg[c.collection].voteDuration
    requires 8 * ProposalCreate.BitmapLength(reg[c.collection].count) <= U64_MAX
    ensures var s := ProposalCreate.CreateProposal(store, reg, l, oracle, now, c).value;
      && ExecuteProposal(s, reg, later, ExecuteProposalArgs(c.collection, c.account)).Ok?
      && (ExecuteProposal(s, reg, later, ExecuteProposalArgs(c.collection, c.account)).value[c.account].isPassed
          <==> reg[c.collection].quorum == 0)
  {
    var s := ProposalCreate.CreateProposal(store, reg, l, oracle, now, c).value;
    ExecutesAfterWindow(s, reg, later, ExecuteProposalArgs(c.collection, c.account));
    TotalVotesZero(s[c.account].votes);
  }
}

=== FILE: execute_trade.dfy ===
/** `execute_trade`: party one settles an accepted trade. The fee goes to the
    collection's treasury, each escrow pays the other party and is closed,
    the SOL legs are swapped and the trade record is closed. */
module TradeExecute {
  import opened Keys
  import opened Errors
  import opened Wrappers
  import opened Ints
  import opened Ledger
  import opened Registry
  import opened TradeState

  datatype ExecuteTradeArgs = ExecuteTradeArgs(
    trade: Address,
    partyOne: Address,                // the signer
    partyTwo: Address,
    collection: Address,
    treasury: Address,
    escrowOnePassed: bool,
    escrowTwoPassed: bool,
    oneReceive: Option<Address>,      // party one's receive account for party two's tokens, if passed
    twoReceive: Option<Address>,      // party two's receive account for party one's tokens, if passed
    twoMint: Option<Address>)         // the mint party two offers, if passed

  /** The instruction's account constraints, in field order. Returns the
      ledger with party one's receive account initialised when passed. */
  function CheckAccounts(b: Book, reg: Registry, a: ExecuteTradeArgs): (r: Result<Ledger>)
    ensures a.trade !in b.trades ==> r == Err(Framework(NotInitialized))
    ensures r.Ok? ==> a.trade in b.trades && a.collection in reg
    ensures r.Ok? ==> var t := b.trades[a.trade];
      t.partyOne == a.partyOne && t.partyTwo == a.partyTwo && t.collection == a.collection
    ensures r.Ok? ==> reg[a.collection].treasuryAddress == a.treasury
    ensures r.Ok? ==> Lamports(b.ledger, a.partyOne) >= reg[a.collection].tradeFees
    ensures r.Ok? ==> a.twoReceive.Some? ==> b.trades[a.trade].twoReceiveAddress == a.twoReceive
    ensures r.Ok? ==> a.twoMint.Some? ==> b.trades[a.trade].twoMint == a.twoMint
    ensures r.Ok? && a.oneReceive.Some? ==>
      a.twoMint.Some? && a.oneReceive.value == AssociatedToken(a.partyOne, a.twoMint.value)
    ensures r.Ok? ==> r.value.lamports == b.ledger.lamports && r.value.mints == b.ledger.mints
    ensures r.Ok? ==> forall x {:trigger Amount(r.value, x)} :: Amount(r.value, x) == Amount(b.ledger, x)
    ensures r.Ok? ==> forall m {:trigger Supply(r.value, m)} :: Supply(r.value, m) == Supply(b.ledger, m)
  {
    if a.trade !in b.trades then Err(Framework(NotInitialized)) else
    var t := b.trades[a.trade];
    :- Need(t.partyOne == a.partyOne, Framework(ConstraintHasOne));
    :- Need(t.partyTwo == a.partyTwo, Framework(ConstraintHasOne));
    :- Need(t.collection == a.collection, Framework(ConstraintHasOne));
    :- Need(a.escrowOnePassed ==> EscrowOne(t) in b.ledger.tokens, Framework(NotInitialized));
    :- Need(a.escrowTwoPassed ==> EscrowTwo(t) in b.ledger.tokens, Framework(NotInitialized));
    var l :- match a.oneReceive
             case None => Ok(b.ledger)
             case Some(x) =>
               if a.twoMint.None? then Err(Framework(ConstraintAccountIsNone))
               else if x != AssociatedToken(a.partyOne, a.twoMint.value) then Err(Framework(AccountNotAssociated))
               else InitTokenIfNeeded(b.ledger, x, a.twoMint.value, a.partyOne);
    :- CheckRecorded(a.twoReceive, t.twoReceiveAddress, Program(IncorrectTokenAccount));
    :- Need(a.collection in reg, Framework(NotInitialized));
    var c := reg[a.collection];
    :- Need(Lamports(l, a.partyOne) >= c.tradeFees, Program(InsufficientBalance));
    :- Need(c.treasuryAddress == a.treasury, Framework(ConstraintHasOne));
    :- CheckRecorded(a.twoMint, t.twoMint, Program(MintNotExist));
    Ok(l)
  }

  /** The trade fee, when positive, goes from party one to the treasury. */
  function PayFee(l: Ledger, from: Address, treasury: Address, fee: U64): (r: Result<Ledger>)
    ensures fee == 0 ==> r == Ok(l)
    ensures fee > 0 ==> r == TransferLamports(l, from, treasury, fee)
  {
    if fee > 0 then TransferLamports(l, from, treasury, fee) else Ok(l)
  }

  /** The part of the handler both versions share: the trade must be
      accepted, party one must be able to receive party two's tokens, the fee
      is paid and party one's tokens reach party two. */
  function Settle(l: Ledger, c: Collection, t: Trade, a: ExecuteTradeArgs): (r: Result<Ledger>)
    ensures !t.isConfirmed ==> r == Err(Program(TradeNotAccepted))
    ensures t.isConfirmed && t.twoMint.Some? && a.oneReceive.None? ==> r == Err(Program(AccountNotProvided))
    ensures r.Ok? ==> t.isConfirmed && (t.twoMint.Some? ==> a.oneReceive.Some?)
    ensures r.Ok? ==> PayFee(l, a.partyOne, a.treasury, c.tradeFees).Ok?
    ensures r.Ok? ==> r == PayOut(PayFee(l, a.partyOne, a.treasury, c.tradeFees).value,
                                  a.escrowOnePassed, EscrowOne(t), a.twoReceive, t.splAmount.one, a.partyOne)
  {
    if !t.isConfirmed then Err(Program(TradeNotAccepted)) else
    :- Need(t.twoMint.None? || a.oneReceive.Some?, Program(AccountNotProvided));
    var l1 :- PayFee(l, a.partyOne, a.treasury, c.tradeFees);
    PayOut(l1, a.escrowOnePassed, EscrowOne(t), a.twoReceive, t.splAmount.one, a.partyOne)
  }

  /** `execute_trade_handler` as the source writes it: the two SOL payouts
      sit inside the branch taken only when party two offered tokens. */
  function HandlerAsWritten(l: Ledger, c: Collection, t: Trade, a: ExecuteTradeArgs): (r: Result<Ledger>)
    ensures r.Ok? ==> Settle(l, c, t, a).Ok?
    ensures r.Ok? && t.splAmount.two == 0 ==> r == Settle(l, c, t, a)
  {
    var l2 :- Settle(l, c, t, a);
    if t.splAmount.two > 0 then
      var l3 :- PayOut(l2, a.escrowTwoPassed, EscrowTwo(t), a.oneReceive, t.splAmount.two, a.partyTwo);
      var l4 :- PaySol(l3, a.trade, a.partyTwo, t.solAmount.one);
      PaySol(l4, a.trade, a.partyOne, t.solAmount.two)
    else Ok(l2)
  }

  /** `execute_trade_handler` with the SOL payouts taken out of that branch,
      so each party receives the other's SOL leg whatever the token legs are.
      Over the ledger `Settle` leaves: party two gains party one's SOL leg
      (and its own escrow's rent when it offered tokens), party one gains
      party two's SOL leg, both legs leave the trade account, and party two's
      tokens reach party one's receive account. */
  function Handler(l: Ledger, c: Collection, t: Trade, a: ExecuteTradeArgs): (r: Result<Ledger>)
    ensures r.Ok? ==> Settle(l, c, t, a).Ok?
    ensures r.Ok? ==> PayOut(Settle(l, c, t, a).value, a.escrowTwoPassed, EscrowTwo(t), a.oneReceive, t.splAmount.two, a.partyTwo).Ok?
    ensures Settle(l, c, t, a).Ok? && t.splAmount.two > 0 && (!a.escrowTwoPassed || a.oneReceive.None?) ==> r == Err(Panic)
    ensures r.Ok? && IsWallet(a.partyOne) && IsWallet(a.partyTwo) && a.partyOne != a.partyTwo && a.trade == TradeAddress(t) ==>
      var s := Settle(l, c, t, a).value;
      && Lamports(r.value, a.partyTwo) == Lamports(s, a.partyTwo) + t.solAmount.one
           + (if t.splAmount.two > 0 then Lamports(s, EscrowTwo(t)) else 0)
      && Lamports(r.value, a.partyOne) == Lamports(s, a.partyOne) + t.solAmount.two
      && Lamports(r.value, a.trade) == Lamports(s, a.trade) - t.solAmount.one - t.solAmount.two
    ensures r.Ok? && t.splAmount.two > 0 ==>
      var s := Settle(l, c, t, a).value;
      && a.oneReceive.Some? && a.oneReceive.value != EscrowTwo(t) && EscrowTwo(t) !in r.value.tokens
      && Amount(r.value, a.oneReceive.value) == Amount(s, a.oneReceive.value) + t.splAmount.two
    ensures r.Ok? && t.splAmount.two == 0 ==> r.value.tokens == Settle(l, c, t, a).value.tokens
  {
    var l2 :- Settle(l, c, t, a);
    var l3 :- PayOut(l2, a.escrowTwoPassed, EscrowTwo(t), a.oneReceive, t.splAmount.two, a.partyTwo);
    var l4 :- PaySol(l3, a.trade, a.partyTwo, t.solAmount.one);
    var l5 :- PaySol(l4, a.trade, a.partyOne, t.solAmount.two);
    PaySecondLegLamports(l2, t, a);
    PaySecondLegTokens(l2, t, a);
    Ok(l5)
  }

  /** The lamports of the second half of settlement, on any ledger: party
      two's escrow rent returns to party two, then the two SOL legs leave the
      trade account for the other party. */
  lemma PaySecondLegLamports(l2: Ledger, t: Trade, a: ExecuteTradeArgs)
    requires PayOut(l2, a.escrowTwoPassed, EscrowTwo(t), a.oneReceive, t.splAmount.two, a.partyTwo).Ok?
    requires var l3 := PayOut(l2, a.escrowTwoPassed, EscrowTwo(t), a.oneReceive, t.splAmount.two, a.partyTwo).value;
      && PaySol(l3, a.trade, a.partyTwo, t.solAmount.one).Ok?
      && PaySol(PaySol(l3, a.trade, a.partyTwo, t.solAmount.one).value, a.trade, a.partyOne, t.solAmount.two).Ok?
    ensures IsWallet(a.partyOne) && IsWallet(a.partyTwo) && a.partyOne != a.partyTwo && a.trade == TradeAddress(t) ==>
      var l3 := PayOut(l2, a.escrowTwoPassed, EscrowTwo(t), a.oneReceive, t.splAmount.two, a.partyTwo).value;
      var r := PaySol(PaySol(l3, a.trade, a.partyTwo, t.solAmount.one).value, a.trade, a.partyOne, t.solAmount.two).value;
      && Lamports(r, a.partyTwo) == Lamports(l2, a.partyTwo) + t.solAmount.one
           + (if t.splAmount.two > 0 then Lamports(l2, EscrowTwo(t)) else 0)
      && Lamports(r, a.partyOne) == Lamports(l2, a.partyOne) + t.solAmount.two
      && Lamports(r, a.trade) == Lamports(l2, a.trade) - t.solAmount.one - t.solAmount.two
  {
    if IsWallet(a.partyOne) && IsWallet(a.partyTwo) && a.partyOne != a.partyTwo && a.trade == TradeAddress(t) {
      var l3 := PayOut(l2, a.escrowTwoPassed, EscrowTwo(t), a.oneReceive, t.splAmount.two, a.partyTwo).value;
      var l4 := PaySol(l3, a.trade, a.partyTwo, t.solAmount.one).value;
      PayOutLamports(l2, a.escrowTwoPassed, EscrowTwo(t), a.oneReceive, t.splAmount.two, a.partyTwo, a.partyOne);
      PayOutLamports(l2, a.escrowTwoPassed, EscrowTwo(t), a.oneReceive, t.splAmount.two, a.partyTwo, a.partyTwo);
      PayOutLamports(l2, a.escrowTwoPassed, EscrowTwo(t), a.oneReceive, t.splAmount.two, a.partyTwo, a.trade);
      assert Lamports(l4, a.partyTwo) == Lamports(l3, a.partyTwo) + t.solAmount.one;
      assert Lamports(l4, a.partyOne) == Lamports(l3, a.partyOne);
      assert Lamports(l4, a.trade) == Lamports(l3, a.trade) - t.solAmount.one;
    }
  }

  /** The tokens of the second half of settlement, on any ledger: party
      two's escrow pays party one's receive account and is closed; the SOL
      legs move no token. */
  lemma PaySecondLegTokens(l2: Ledger, t: Trade, a: ExecuteTradeArgs)
    requires PayOut(l2, a.escrowTwoPassed, EscrowTwo(t), a.oneReceive, t.splAmount.two, a.partyTwo).Ok?
    requires var l3 := PayOut(l2, a.escrowTwoPassed, EscrowTwo(t), a.oneReceive, t.splAmount.two, a.partyTwo).value;
      && PaySol(l3, a.trade, a.partyTwo, t.solAmount.one).Ok?
      && PaySol(PaySol(l3, a.trade, a.partyTwo, t.solAmount.one).value, a.trade, a.partyOne, t.solAmount.two).Ok?
    ensures var l3 := PayOut(l2, a.escrowTwoPassed, EscrowTwo(t), a.oneReceive, t.splAmount.two, a.partyTwo).value;
      var r := PaySol(PaySol(l3, a.trade, a.partyTwo, t.solAmount.one).value, a.trade, a.partyOne, t.solAmount.two).value;
      && (t.splAmount.two > 0 ==>
            && a.oneReceive.Some? && a.oneReceive.value != EscrowTwo(t) && EscrowTwo(t) !in r.tokens
            && Amount(r, a.oneReceive.value) == Amount(l2, a.oneReceive.value) + t.splAmount.two)
      && (t.splAmount.two == 0 ==> r.tokens == l2.tokens)
  {
    var l3 := PayOut(l2, a.escrowTwoPassed, EscrowTwo(t), a.oneReceive, t.splAmount.two, a.partyTwo).value;
    var l4 := PaySol(l3, a.trade, a.partyTwo, t.solAmount.one).value;
    var r := PaySol(l4, a.trade, a.partyOne, t.solAmount.two).value;
    assert r.tokens == l4.tokens == l3.tokens;
    if t.splAmount.two > 0 {
      PayOutAmount(l2, a.escrowTwoPassed, EscrowTwo(t), a.oneReceive, t.splAmount.two, a.partyTwo, a.oneReceive.value);
    }
  }

  /** `execute_trade` as the source writes it. */
  function ExecuteTradeAsWritten(b: Book, reg: Registry, a: ExecuteTradeArgs): (r: Result<Book>)
    ensures r.Ok? ==> CheckAccounts(b, reg, a).Ok? && b.trades[a.trade].isConfirmed
    ensures r.Ok? ==> r.value.trades == b.trades - {a.trade}
    ensures r.Ok? ==> var t := b.trades[a.trade];
      HandlerAsWritten(CheckAccounts(b, reg, a).value, reg[a.collection], t, a).Ok?
      && r.value.ledger == SweepLamports(HandlerAsWritten(CheckAccounts(b, reg, a).value, reg[a.collection], t, a).value, a.trade, a.partyOne)
  {
    var l :- CheckAccounts(b, reg, a);
    var l1 :- HandlerAsWritten(l, reg[a.collection], b.trades[a.trade], a);
    Ok(CloseTrade(Book(b.trades, l1), a.trade, a.partyOne))
  }

  /** `execute_trade` with the corrected handler. On success the record is
      gone and its account emptied, each escrow that held a leg is closed,
      and no lamport or token is created or destroyed. */
  function ExecuteTrade(b: Book, reg: Registry, a: ExecuteTradeArgs): (r: Result<Book>)
    ensures a.trade !in b.trades ==> r == Err(Framework(NotInitialized))
    ensures a.trade in b.trades && CheckAccounts(b, reg, a).Ok? && !b.trades[a.trade].isConfirmed
            ==> r == Err(Program(TradeNotAccepted))
    ensures r.Ok? ==> CheckAccounts(b, reg, a).Ok? && b.trades[a.trade].isConfirmed
    ensures r.Ok? ==> r.value.trades == b.trades - {a.trade}
    ensures r.Ok? ==> var t := b.trades[a.trade];
      Handler(CheckAccounts(b, reg, a).value, reg[a.collection], t, a).Ok?
      && r.value.ledger == SweepLamports(Handler(CheckAccounts(b, reg, a).value, reg[a.collection], t, a).value, a.trade, a.partyOne)
    ensures r.Ok? ==> Lamports(r.value.ledger, a.trade) == 0 || a.trade == a.partyOne
    ensures r.Ok? ==> TotalLamports(r.value.ledger) == TotalLamports(b.ledger)
    ensures r.Ok? ==> forall m {:trigger Supply(r.value.ledger, m)} :: Supply(r.value.ledger, m) == Supply(b.ledger, m)
  {
    var l :- CheckAccounts(b, reg, a);
    var t := b.trades[a.trade];
    var c := reg[a.collection];
    var l1 :- Handler(l, c, t, a);
    HandlerConserves(l, c, t, a);
    Ok(CloseTrade(Book(b.trades, l1), a.trade, a.partyOne))
  }

  /** The corrected handler moves lamports and tokens; it creates and
      destroys none. */
  lemma HandlerConserves(l: Ledger, c: Collection, t: Trade, a: ExecuteTradeArgs)
    requires Handler(l, c, t, a).Ok?
    ensures TotalLamports(Handler(l, c, t, a).value) == TotalLamports(l)
    ensures forall m {:trigger Supply(Handler(l, c, t, a).value, m)} :: Supply(Handler(l, c, t, a).value, m) == Supply(l, m)
  {
    var l1 := PayFee(l, a.partyOne, a.treasury, c.tradeFees).value;
    var l2 := Settle(l, c, t, a).value;
    PayOutConserves(l1, a.escrowOnePassed, EscrowOne(t), a.twoReceive, t.splAmount.one, a.partyOne);
    PayOutConserves(l2, a.escrowTwoPassed, EscrowTwo(t), a.oneReceive, t.splAmount.two, a.partyTwo);
  }

  /** Execution removes a record, so the others stay at their derived addresses. */
  lemma ExecuteKeepsDerivedAddresses(b: Book, reg: Registry, a: ExecuteTradeArgs)
    requires StoredAtDerivedAddress(b.trades)
    requires ExecuteTrade(b, reg, a).Ok?
    ensures StoredAtDerivedAddress(ExecuteTrade(b, reg, a).value.trades)
  {
    RemovalKeepsDerivedAddresses(b.trades, a.trade);
  }

  /** The accounts of a settlement are where they normally are: the parties
      and the treasury are distinct wallets, the record sits at its derived
      address and party two's receive account is one of its associated token
      accounts (as `accept_trade` requires). */
  predicate GenericPosition(b: Book, a: ExecuteTradeArgs) {
    && IsWallet(a.partyOne) && IsWallet(a.partyTwo) && IsWallet(a.treasury)
    && a.partyOne != a.partyTwo && a.treasury != a.partyOne && a.treasury != a.partyTwo
    && StoredAtDerivedAddress(b.trades)
    && (a.twoReceive.Some? ==> a.twoReceive.value.AssociatedToken? && a.twoReceive.value.wallet == a.partyTwo)
  }

  /** The lamport effects of settlement up to the SOL payouts: the fee, then
      each escrow's rent to its owner. */
  lemma SettleLamports(l: Ledger, c: Collection, t: Trade, a: ExecuteTradeArgs, b: Book)
    requires GenericPosition(b, a) && a.trade in b.trades && b.trades[a.trade] == t
    requires t.partyOne == a.partyOne && t.partyTwo == a.partyTwo
    requires Settle(l, c, t, a).Ok?
    requires PayOut(Settle(l, c, t, a).value, a.escrowTwoPassed, EscrowTwo(t), a.oneReceive, t.splAmount.two, a.partyTwo).Ok?
    ensures var l3 := PayOut(Settle(l, c, t, a).value, a.escrowTwoPassed, EscrowTwo(t), a.oneReceive, t.splAmount.two, a.partyTwo).value;
      && Lamports(l3, a.partyOne) == Lamports(l, a.partyOne) - c.tradeFees + (if t.splAmount.one > 0 then Lamports(l, EscrowOne(t)) else 0)
      && Lamports(l3, a.partyTwo) == Lamports(l, a.partyTwo) + (if t.splAmount.two > 0 then Lamports(l, EscrowTwo(t)) else 0)
      && Lamports(l3, a.treasury) == Lamports(l, a.treasury) + c.tradeFees
      && Lamports(l3, a.trade) == Lamports(l, a.trade)
    ensures Lamports(Settle(l, c, t, a).value, a.partyTwo) == Lamports(l, a.partyTwo)
    ensures Lamports(Settle(l, c, t, a).value, a.partyOne) == Lamports(l, a.partyOne) - c.tradeFees + (if t.splAmount.one > 0 then Lamports(l, EscrowOne(t)) else 0)
    ensures Lamports(Settle(l, c, t, a).value, a.trade) == Lamports(l, a.trade)
  {
    assert a.trade == TradeAddress(t);
    var l1 := PayFee(l, a.partyOne, a.treasury, c.tradeFees).value;
    assert Lamports(l1, EscrowOne(t)) == Lamports(l, EscrowOne(t));
    assert Lamports(l1, EscrowTwo(t)) == Lamports(l, EscrowTwo(t));
    assert Lamports(l1, a.partyOne) == Lamports(l, a.partyOne) - c.tradeFees;
    assert Lamports(l1, a.partyTwo) == Lamports(l, a.partyTwo);
    assert Lamports(l1, a.treasury) == Lamports(l, a.treasury) + c.tradeFees;
    assert Lamports(l1, a.trade) == Lamports(l, a.trade);
    var l2 := Settle(l, c, t, a).value;
    PayOutLamports(l1, a.escrowOnePassed, EscrowOne(t), a.twoReceive, t.splAmount.one, a.partyOne, a.partyOne);
    PayOutLamports(l1, a.escrowOnePassed, EscrowOne(t), a.twoReceive, t.splAmount.one, a.partyOne, a.partyTwo);
    PayOutLamports(l1, a.escrowOnePassed, EscrowOne(t), a.twoReceive, t.splAmount.one, a.partyOne, a.treasury);
    PayOutLamports(l1, a.escrowOnePassed, EscrowOne(t), a.twoReceive, t.splAmount.one, a.partyOne, a.trade);
    PayOutLamports(l1, a.escrowOnePassed, EscrowOne(t), a.twoReceive, t.splAmount.one, a.partyOne, EscrowTwo(t));
    PayOutLamports(l2, a.escrowTwoPassed, EscrowTwo(t), a.oneReceive, t.splAmount.two, a.partyTwo, a.partyOne);
    PayOutLamports(l2, a.escrowTwoPassed, EscrowTwo(t), a.oneReceive, t.splAmount.two, a.partyTwo, a.partyTwo);
    PayOutLamports(l2, a.escrowTwoPassed, EscrowTwo(t), a.oneReceive, t.splAmount.two, a.partyTwo, a.treasury);
    PayOutLamports(l2, a.escrowTwoPassed, EscrowTwo(t), a.oneReceive, t.splAmount.two, a.partyTwo, a.trade);
  }

  /** Settlement under the corrected handler: party two receives party one's
      SOL and tokens, party one receives party two's SOL and tokens plus what
      is left in the trade account, the treasury receives the fee, and each
      escrow's rent returns to the party that funded it. */
  lemma ExecuteSettles(b: Book, reg: Registry, a: ExecuteTradeArgs)
    requires ExecuteTrade(b, reg, a).Ok?
    requires GenericPosition(b, a)
    ensures var r := ExecuteTrade(b, reg, a).value.ledger;
      var t := b.trades[a.trade];
      var fee := reg[a.collection].tradeFees;
      && Lamports(r, a.partyTwo) == Lamports(b.ledger, a.partyTwo) + t.solAmount.one
           + (if t.splAmount.two > 0 then Lamports(b.ledger, EscrowTwo(t)) else 0)
      && Lamports(r, a.partyOne) == Lamports(b.ledger, a.partyOne) - fee + Lamports(b.ledger, a.trade) - t.solAmount.one
           + (if t.splAmount.one > 0 then Lamports(b.ledger, EscrowOne(t)) else 0)
      && Lamports(r, a.treasury) == Lamports(b.ledger, a.treasury) + fee
      && Lamports(r, a.trade) == 0
  {
    var l := CheckAccounts(b, reg, a).value;
    var t := b.trades[a.trade];
    var c := reg[a.collection];
    assert a.trade == TradeAddress(t);
    SettleLamports(l, c, t, a, b);
    var l3 := PayOut(Settle(l, c, t, a).value, a.escrowTwoPassed, EscrowTwo(t), a.oneReceive, t.splAmount.two, a.partyTwo).value;
    var l4 := PaySol(l3, a.trade, a.partyTwo, t.solAmount.one).value;
    var l5 := PaySol(l4, a.trade, a.partyOne, t.solAmount.two).value;
    assert Lamports(l4, a.treasury) == Lamports(l3, a.treasury);
    assert Lamports(l5, a.treasury) == Lamports(l4, a.treasury);
    assert Handler(l, c, t, a).value == l5;
  }

  /** The discrepancy: under the handler as written, when party two offered
      no tokens (a SOL-for-SOL trade, say) party two receives nothing at all,
      and party one takes back its own SOL leg together with party two's. */
  lemma ExecuteAsWrittenStrandsSol(b: Book, reg: Registry, a: ExecuteTradeArgs)
    requires ExecuteTradeAsWritten(b, reg, a).Ok?
    requires GenericPosition(b, a)
    requires b.trades[a.trade].splAmount.two == 0
    ensures var r := ExecuteTradeAsWritten(b, reg, a).value.ledger;
      var t := b.trades[a.trade];
      var fee := reg[a.collection].tradeFees;
      && Lamports(r, a.partyTwo) == Lamports(b.ledger, a.partyTwo)
      && Lamports(r, a.partyOne) == Lamports(b.ledger, a.partyOne) - fee + Lamports(b.ledger, a.trade)
           + (if t.splAmount.one > 0 then Lamports(b.ledger, EscrowOne(t)) else 0)
  {
    var l := CheckAccounts(b, reg, a).value;
    var t := b.trades[a.trade];
    var c := reg[a.collection];
    assert a.trade == TradeAddress(t);
    assert PayOut(Settle(l, c, t, a).value, a.escrowTwoPassed, EscrowTwo(t), a.oneReceive, t.splAmount.two, a.partyTwo).Ok?;
    SettleLamports(l, c, t, a, b);
  }

  /** On the same trade the corrected handler pays party two what party one offered. */
  lemma ExecutePaysPartyTwo(b: Book, reg: Registry, a: ExecuteTradeArgs)
    requires ExecuteTrade(b, reg, a).Ok?
    requires GenericPosition(b, a)
    requires b.trades[a.trade].splAmount.two == 0
    ensures Lamports(ExecuteTrade(b, reg, a).value.ledger, a.partyTwo)
         == Lamports(b.ledger, a.partyTwo) + b.trades[a.trade].solAmount.one
  {
    ExecuteSettles(b, reg, a);
  }

  /** The ledger the corrected handler leaves before the record is closed,
      step by step: after the fee, after each pay-out. */
  lemma HandlerTokens(l: Ledger, c: Collection, t: Trade, a: ExecuteTradeArgs)
    requires Handler(l, c, t, a).Ok?
    ensures PayFee(l, a.partyOne, a.treasury, c.tradeFees).Ok?
    ensures PayFee(l, a.partyOne, a.treasury, c.tradeFees).value.tokens == l.tokens
    ensures Settle(l, c, t, a).Ok?
    ensures PayOut(Settle(l, c, t, a).value, a.escrowTwoPassed, EscrowTwo(t), a.oneReceive, t.splAmount.two, a.partyTwo).Ok?
    ensures Handler(l, c, t, a).value.tokens
         == PayOut(Settle(l, c, t, a).value, a.escrowTwoPassed, EscrowTwo(t), a.oneReceive, t.splAmount.two, a.partyTwo).value.tokens
    ensures t.splAmount.one > 0 ==> a.escrowOnePassed && a.twoReceive.Some?
    ensures t.splAmount.two > 0 ==> a.escrowTwoPassed && a.oneReceive.Some?
  {
    var l2 := Settle(l, c, t, a).value;
    var l3 := PayOut(l2, a.escrowTwoPassed, EscrowTwo(t), a.oneReceive, t.splAmount.two, a.partyTwo).value;
    var l4 := PaySol(l3, a.trade, a.partyTwo, t.solAmount.one).value;
    assert Handler(l, c, t, a).value == PaySol(l4, a.trade, a.partyOne, t.solAmount.two).value;
  }

  /** On the ledger, the corrected handler delivers party one's token leg
      to party two's receive account and closes escrow one. */
  lemma HandlerDeliversLegOne(l: Ledger, c: Collection, t: Trade, a: ExecuteTradeArgs)
    requires Handler(l, c, t, a).Ok?
    requires t.splAmount.one > 0
    requires a.twoReceive.Some? ==> a.twoReceive.value != EscrowOne(t) && a.twoReceive.value != EscrowTwo(t)
    requires a.twoReceive.Some? && a.oneReceive.Some? ==> a.oneReceive.value != a.twoReceive.value
    ensures a.twoReceive.Some?
    ensures Amount(Handler(l, c, t, a).value, a.twoReceive.value) == Amount(l, a.twoReceive.value) + t.splAmount.one
    ensures EscrowOne(t) !in Handler(l, c, t, a).value.tokens
  {
    HandlerTokens(l, c, t, a);
    var l1 := PayFee(l, a.partyOne, a.treasury, c.tradeFees).value;
    var l2 := Settle(l, c, t, a).value;
    var x := a.twoReceive.value;
    assert Amount(l1, x) == Amount(l, x);
    PayOutAmount(l1, a.escrowOnePassed, EscrowOne(t), a.twoReceive, t.splAmount.one, a.partyOne, x);
    PayOutAmount(l1, a.escrowOnePassed, EscrowOne(t), a.twoReceive, t.splAmount.one, a.partyOne, EscrowOne(t));
    PayOutAmount(l2, a.escrowTwoPassed, EscrowTwo(t), a.oneReceive, t.splAmount.two, a.partyTwo, x);
  }

  /** On the ledger, the corrected handler delivers party two's token leg
      to party one's receive account and closes escrow two. */
  lemma HandlerDeliversLegTwo(l: Ledger, c: Collection, t: Trade, a: ExecuteTradeArgs)
    requires Handler(l, c, t, a).Ok?
    requires t.splAmount.two > 0
    requires a.oneReceive.Some? ==> a.oneReceive.value != EscrowOne(t) && a.oneReceive.value != EscrowTwo(t)
    requires a.twoReceive.Some? && a.oneReceive.Some? ==> a.oneReceive.value != a.twoReceive.value
    ensures a.oneReceive.Some?
    ensures Amount(Handler(l, c, t, a).value, a.oneReceive.value) == Amount(l, a.oneReceive.value) + t.splAmount.two
    ensures EscrowTwo(t) !in Handler(l, c, t, a).value.tokens
  {
    HandlerTokens(l, c, t, a);
    var l1 := PayFee(l, a.partyOne, a.treasury, c.tradeFees).value;
    var l2 := Settle(l, c, t, a).value;
    var x := a.oneReceive.value;
    assert Amount(l1, x) == Amount(l, x);
    PayOutAmount(l1, a.escrowOnePassed, EscrowOne(t), a.twoReceive, t.splAmount.one, a.partyOne, x);
    PayOutAmount(l2, a.escrowTwoPassed, EscrowTwo(t), a.oneReceive, t.splAmount.two, a.partyTwo, x);
    PayOutAmount(l2, a.escrowTwoPassed, EscrowTwo(t), a.oneReceive, t.splAmount.two, a.partyTwo, EscrowTwo(t));
  }

  /** Settlement delivers party one's token leg to party two's receive
      account and closes escrow one. */
  lemma ExecuteDeliversLegOne(b: Book, reg: Registry, a: ExecuteTradeArgs)
    requires ExecuteTrade(b, reg, a).Ok?
    requires GenericPosition(b, a)
    requires b.trades[a.trade].splAmount.one > 0
    ensures a.twoReceive.Some?
    ensures var r := ExecuteTrade(b, reg, a).value.ledger;
      && Amount(r, a.twoReceive.value) == Amount(b.ledger, a.twoReceive.value) + b.trades[a.trade].splAmount.one
      && EscrowOne(b.trades[a.trade]) !in r.tokens
  {
    var l := CheckAccounts(b, reg, a).value;
    var t := b.trades[a.trade];
    HandlerDeliversLegOne(l, reg[a.collection], t, a);
    var r := ExecuteTrade(b, reg, a).value.ledger;
    assert r == SweepLamports(Handler(l, reg[a.collection], t, a).value, a.trade, a.partyOne);
    assert Amount(l, a.twoReceive.value) == Amount(b.ledger, a.twoReceive.value);
  }

  /** Settlement delivers party two's token leg to party one's receive
      account and closes escrow two. */
  lemma ExecuteDeliversLegTwo(b: Book, reg: Registry, a: ExecuteTradeArgs)
    requires ExecuteTrade(b, reg, a).Ok?
    requires GenericPosition(b, a)
    requires b.trades[a.trade].splAmount.two > 0
    ensures a.oneReceive.Some?
    ensures var r := ExecuteTrade(b, reg, a).value.ledger;
      && Amount(r, a.oneReceive.value) == Amount(b.ledger, a.oneReceive.value) + b.trades[a.trade].splAmount.two
      && EscrowTwo(b.trades[a.trade]) !in r.tokens
  {
    var l := CheckAccounts(b, reg, a).value;
    var t := b.trades[a.trade];
    HandlerDeliversLegTwo(l, reg[a.collection], t, a);
    var r := ExecuteTrade(b, reg, a).value.ledger;
    assert r == SweepLamports(Handler(l, reg[a.collection], t, a).value, a.trade, a.partyOne);
    assert Amount(l, a.oneReceive.value) == Amount(b.ledger, a.oneReceive.value);
  }
}

=== FILE: give_vote.dfy ===
/** `give_vote`: a member casts one vote per NFT it holds, passing a
    (token account, metadata) pair for each; every NFT's ordinal is marked in
    the bitmap so that it can vote only once per proposal. */
module ProposalVote {
  import opened Keys
  import opened Errors
  import opened Wrappers
  import opened Ints
  import opened Ledger
  import opened Metadata
  import opened TokenCheck
  import opened Registry
  import opened ProposalState

  datatype GiveVoteArgs = GiveVoteArgs(
    collection: Address,         // the collection record's address
    proposal: Address,           // the proposal account
    signer: Address,             // the voter
    choice: U8,
    remaining: seq<Address>)     // the remaining accounts, read in pairs

  /** One NFT's vote: its token account and its metadata account. */
  datatype Ballot = Ballot(token: Address, metadata: Address)

  /** The pairs the handler's loop reads: `len / 2` of them, in order; an odd
      trailing account is never read. */
  function Ballots(remaining: seq<Address>): (bs: seq<Ballot>)
    ensures |bs| == |remaining| / 2
    ensures forall i :: 0 <= i < |bs| ==> bs[i] == Ballot(remaining[2 * i], remaining[2 * i + 1])
  {
    if |remaining| < 2 then []
    else
      var rest := Ballots(remaining[2..]);
      assert forall i :: 0 <= i < |rest| ==> remaining[2..][2 * i] == remaining[2 * (i + 1)];
      [Ballot(remaining[0], remaining[1])] + rest
  }

  /** The ordinal of the NFT a ballot presents: the token account must hold
      exactly one token of the signer's, and its metadata must be a verified
      member of the collection. */
  function Ordinal(l: Ledger, oracle: Oracle, signer: Address, key: Address, b: Ballot): (r: Result<U64>)
    ensures r.Ok? <==> ValidateToken(l, b.token, signer).Ok? &&
                       ValidateMetadata(oracle, l.tokens[b.token].mint, b.metadata, key).Ok?
    ensures r.Ok? ==> r == NameOrdinal(oracle[b.metadata].name)
  {
    var mint :- ValidateToken(l, b.token, signer);
    ValidateMetadata(oracle, mint, b.metadata, key)
  }

  /** The ordinals a sequence of ballot outcomes marks: one per valid ballot. */
  function MarksOf(os: seq<Result<U64>>): set<nat> {
    if |os| == 0 then {}
    else (if os[0].Ok? then {os[0].value as nat} else {}) + MarksOf(os[1..])
  }

  /** Each ballot's outcome, in order. */
  function Ordinals(l: Ledger, oracle: Oracle, signer: Address, key: Address, bs: seq<Ballot>): (os: seq<Result<U64>>)
    ensures |os| == |bs|
    ensures forall k :: 0 <= k < |bs| ==> os[k] == Ordinal(l, oracle, signer, key, bs[k])
  {
    seq(|bs|, k requires 0 <= k < |bs| => Ordinal(l, oracle, signer, key, bs[k]))
  }

  /** The ordinals a sequence of ballots marks. */
  function Marked(l: Ledger, oracle: Oracle, signer: Address, key: Address, bs: seq<Ballot>): set<nat> {
    MarksOf(Ordinals(l, oracle, signer, key, bs))
  }

  /** The first ballot marks its own ordinal, the rest mark theirs. */
  lemma MarkedCons(l: Ledger, oracle: Oracle, signer: Address, key: Address, bs: seq<Ballot>)
    requires |bs| > 0
    ensures var m := Ordinal(l, oracle, signer, key, bs[0]);
      Marked(l, oracle, signer, key, bs)
      == (if m.Ok? then {m.value as nat} else {}) + Marked(l, oracle, signer, key, bs[1..])
  {
    assert Ordinals(l, oracle, signer, key, bs)[1..] == Ordinals(l, oracle, signer, key, bs[1..]);
  }

  lemma {:induction false} MarksOfHas(os: seq<Result<U64>>, j: nat)
    requires j < |os| && os[j].Ok?
    ensures os[j].value as nat in MarksOf(os)
  {
    if j > 0 {
      assert os[1..][j - 1] == os[j];
      MarksOfHas(os[1..], j - 1);
    }
  }

  /** Every valid ballot's ordinal is among the marked ones. */
  lemma MarkedHas(l: Ledger, oracle: Oracle, signer: Address, key: Address, bs: seq<Ballot>, j: nat)
    requires j < |bs| && Ordinal(l, oracle, signer, key, bs[j]).Ok?
    ensures Ordinal(l, oracle, signer, key, bs[j]).value in Marked(l, oracle, signer, key, bs)
  {
    MarksOfHas(Ordinals(l, oracle, signer, key, bs), j);
  }

  /** One pass of the handler's loop: count the vote for `choice`, then mark
      the NFT's ordinal, which must not be marked yet. */
  function CastBallot(p: Proposal, l: Ledger, oracle: Oracle, signer: Address, key: Address, choice: nat, b: Ballot)
    : (r: Result<Proposal>)
    ensures r.Ok? <==>
      && Ordinal(l, oracle, signer, key, b).Ok?
      && choice < |p.votes| && p.votes[choice] < U64_MAX
      && Ordinal(l, oracle, signer, key, b).value / 8 < |p.voters|
      && Ordinal(l, oracle, signer, key, b).value !in VotedSet(p.voters)
    ensures (&& Ordinal(l, oracle, signer, key, b).Ok? && choice < |p.votes| && p.votes[choice] < U64_MAX
             && Ordinal(l, oracle, signer, key, b).value in VotedSet(p.voters)) ==> r == Err(Program(AlreadyVoted))
    ensures r.Ok? ==> VotedSet(r.value.voters) == VotedSet(p.voters) + {Ordinal(l, oracle, signer, key, b).value as nat}
    ensures r.Ok? ==> r.value.votes == p.votes[choice := p.votes[choice] + 1]
    ensures r.Ok? ==> |r.value.voters| == |p.voters| && r.value.(votes := p.votes, voters := p.voters) == p
    ensures r.Ok? ==> TotalVotes(r.value.votes) == TotalVotes(p.votes) + 1
    ensures r.Err? ==> r.error != Program(VotingIsClosed)
  {
    var m :- Ordinal(l, oracle, signer, key, b);
    var p1 :- IncreaseVote(p, choice);
    if m / 8 < |p1.voters| then
      RecordOrdinal(p1, m);
      RecordVoter(p1, m / 8, m % 8)
    else
      RecordVoter(p1, m / 8, m % 8)
  }

  /** The handler's loop over all ballots; a failing ballot aborts the whole
      call. On success `choice` gained one vote per ballot and nothing but
      the counters and the bitmap changed. */
  function CastBallots(p: Proposal, l: Ledger, oracle: Oracle, signer: Address, key: Address, choice: nat, bs: seq<Ballot>)
    : (r: Result<Proposal>)
    decreases |bs|
    ensures r.Ok? ==> |r.value.votes| == |p.votes|
    ensures r.Ok? ==> forall i :: 0 <= i < |p.votes| ==>
      r.value.votes[i] == p.votes[i] + (if i == choice then |bs| else 0)
    ensures r.Ok? ==> TotalVotes(r.value.votes) == TotalVotes(p.votes) + |bs|
    ensures r.Ok? ==> |r.value.voters| == |p.voters| && r.value.(votes := p.votes, voters := p.voters) == p
    ensures r.Err? ==> r.error != Program(VotingIsClosed)
  {
    if |bs| == 0 then Ok(p)
    else
      var p1 :- CastBallot(p, l, oracle, signer, key, choice, bs[0]);
      CastBallots(p1, l, oracle, signer, key, choice, bs[1..])
  }

  /** On success every ballot presented a valid NFT. */
  lemma {:induction false} CastBallotsValid(p: Proposal, l: Ledger, oracle: Oracle, signer: Address, key: Address,
                                            choice: nat, bs: seq<Ballot>)
    requires CastBallots(p, l, oracle, signer, key, choice, bs).Ok?
    ensures forall i :: 0 <= i < |bs| ==> Ordinal(l, oracle, signer, key, bs[i]).Ok?
    decreases |bs|
  {
    if |bs| > 0 {
      var p1 := CastBallot(p, l, oracle, signer, key, choice, bs[0]).value;
      var rest := bs[1..];
      CastBallotsValid(p1, l, oracle, signer, key, choice, rest);
      forall i | 0 <= i < |bs|
        ensures Ordinal(l, oracle, signer, key, bs[i]).Ok?
      {
        if i > 0 {
          assert rest[i - 1] == bs[i];
        }
      }
    }
  }

  /** On success no two ballots and no earlier vote share an ordinal, and
      the bitmap gained exactly the ballots' ordinals. */
  lemma {:induction false} CastBallotsMarks(p: Proposal, l: Ledger, oracle: Oracle, signer: Address, key: Address,
                                            choice: nat, bs: seq<Ballot>)
    requires CastBallots(p, l, oracle, signer, key, choice, bs).Ok?
    ensures VotedSet(CastBallots(p, l, oracle, signer, key, choice, bs).value.voters)
            == VotedSet(p.voters) + Marked(l, oracle, signer, key, bs)
    ensures VotedSet(p.voters) !! Marked(l, oracle, signer, key, bs)
    ensures |Marked(l, oracle, signer, key, bs)| == |bs|
    decreases |bs|
  {
    if |bs| > 0 {
      var b0 := CastBallot(p, l, oracle, signer, key, choice, bs[0]);
      var p1 := b0.value;
      var rest := bs[1..];
      assert CastBallots(p, l, oracle, signer, key, choice, bs) == CastBallots(p1, l, oracle, signer, key, choice, rest);
      CastBallotsMarks(p1, l, oracle, signer, key, choice, rest);
      var o := Ordinal(l, oracle, signer, key, bs[0]);
      var m := o.value as nat;
      assert VotedSet(p1.voters) == VotedSet(p.voters) + {m};
      MarkedCons(l, oracle, signer, key, bs);
    }
  }

  /** A ballot's ordinal, counted once in the same call, can never be counted
      again in it: the call fails. */
  lemma DuplicateBallotFails(p: Proposal, l: Ledger, oracle: Oracle, signer: Address, key: Address, choice: nat,
                             bs: seq<Ballot>, i: nat, j: nat)
    requires i < j < |bs|
    requires Ordinal(l, oracle, signer, key, bs[i]).Ok? && Ordinal(l, oracle, signer, key, bs[j]).Ok?
    requires Ordinal(l, oracle, signer, key, bs[i]).value == Ordinal(l, oracle, signer, key, bs[j]).value
    ensures CastBallots(p, l, oracle, signer, key, choice, bs).Err?
  {
    if CastBallots(p, l, oracle, signer, key, choice, bs).Ok? {
      CastBallotsMarks(p, l, oracle, signer, key, choice, bs);
      MarkedDistinct(l, oracle, signer, key, bs, i, j);
    }
  }

  /** When every outcome marks a distinct ordinal, so do all but the
      first, and the first outcome's ordinal is not among theirs. */
  lemma MarksOfHead(os: seq<Result<U64>>)
    requires |os| > 0
    requires |MarksOf(os)| == |os|
    ensures |MarksOf(os[1..])| == |os| - 1
    ensures os[0].Ok? ==> os[0].value as nat !in MarksOf(os[1..])
  {
    var marked := MarksOf(os[1..]);
    MarksOfSize(os[1..]);
    var head: set<nat> := if os[0].Ok? then {os[0].value as nat} else {};
    assert MarksOf(os) == head + marked;
    assert |head + marked| <= |head| + |marked|;
    if os[0].Ok? {
      AddElementSize(os[0].value as nat, marked);
    }
  }

  /** Outcomes that mark as many ordinals as there are outcomes mark
      pairwise distinct ones. */
  lemma {:induction false} MarksOfDistinct(os: seq<Result<U64>>, i: nat, j: nat)
    requires i < j < |os|
    requires os[i].Ok? && os[j].Ok?
    requires |MarksOf(os)| == |os|
    ensures os[i].value != os[j].value
  {
    var rest := os[1..];
    MarksOfHead(os);
    if i == 0 {
      assert os[j] == rest[j - 1];
      MarksOfHas(rest, j - 1);
    } else {
      assert os[i] == rest[i - 1] && os[j] == rest[j - 1];
      MarksOfDistinct(rest, i - 1, j - 1);
    }
  }

  /** Ballots that mark as many ordinals as there are ballots present
      pairwise distinct NFTs. */
  lemma MarkedDistinct(l: Ledger, oracle: Oracle, signer: Address, key: Address,
                       bs: seq<Ballot>, i: nat, j: nat)
    requires i < j < |bs|
    requires Ordinal(l, oracle, signer, key, bs[i]).Ok? && Ordinal(l, oracle, signer, key, bs[j]).Ok?
    requires |Marked(l, oracle, signer, key, bs)| == |bs|
    ensures Ordinal(l, oracle, signer, key, bs[i]).value != Ordinal(l, oracle, signer, key, bs[j]).value
  {
    MarksOfDistinct(Ordinals(l, oracle, signer, key, bs), i, j);
  }

  /** Adding an element grows a set by one exactly when it is new. */
  lemma AddElementSize(x: nat, s: set<nat>)
    ensures x in s ==> |{x} + s| == |s|
    ensures x !in s ==> |{x} + s| == |s| + 1
  {
    if x in s {
      assert {x} + s == s;
    }
  }

  /** Each outcome marks at most one ordinal. */
  lemma {:induction false} MarksOfSize(os: seq<Result<U64>>)
    ensures |MarksOf(os)| <= |os|
  {
    if |os| > 0 {
      MarksOfSize(os[1..]);
    }
  }

  /** `give_vote_handler`: the window is still open at `now` (its last
      instant included), the choice is an option, at least two accounts are
      passed; then every pair is a ballot. */
  function Handler(p: Proposal, c: Collection, l: Ledger, oracle: Oracle, now: I64, a: GiveVoteArgs): (r: Result<Proposal>)
    ensures AddI64(p.time, c.voteDuration).Err? ==> r == Err(Panic)
    ensures AddI64(p.time, c.voteDuration).Ok? && now > p.time + c.voteDuration ==> r == Err(Program(VotingIsClosed))
    ensures AddI64(p.time, c.voteDuration).Ok? && now <= p.time + c.voteDuration && a.choice >= |p.options|
            ==> r == Err(Program(OptionNotExists))
    ensures AddI64(p.time, c.voteDuration).Ok? && now <= p.time + c.voteDuration && a.choice < |p.options| && |a.remaining| <= 1
            ==> r == Err(Program(AccountNotProvided))
    ensures r.Ok? ==> now <= p.time + c.voteDuration && a.choice < |p.options| && |a.remaining| > 1
    ensures r.Ok? ==> r == CastBallots(p, l, oracle, a.signer, c.verifiedCollectionKey, a.choice, Ballots(a.remaining))
  {
    var end :- AddI64(p.time, c.voteDuration);
    :- Need(end >= now, Program(VotingIsClosed));
    :- Need(|p.options| > a.choice, Program(OptionNotExists));
    :- Need(|a.remaining| > 1, Program(AccountNotProvided));
    CastBallots(p, l, oracle, a.signer, c.verifiedCollectionKey, a.choice, Ballots(a.remaining))
  }

  /** `give_vote`. Neither the proposal's `is_active` flag nor the collection's
      voting flag is consulted. */
  function GiveVote(store: Proposals, reg: Registry, l: Ledger, oracle: Oracle, now: I64, a: GiveVoteArgs): (r: Result<Proposals>)
    ensures a.collection !in reg || a.proposal !in store ==> r == Err(Framework(NotInitialized))
    ensures a.collection in reg && a.proposal in store && store[a.proposal].collection != a.collection
            ==> r == Err(Framework(ConstraintHasOne))
    ensures r.Ok? ==> a.collection in reg && a.proposal in store && store[a.proposal].collection == a.collection
    ensures r.Ok? ==> Handler(store[a.proposal], reg[a.collection], l, oracle, now, a).Ok?
    ensures r.Ok? ==> r.value == store[a.proposal := Handler(store[a.proposal], reg[a.collection], l, oracle, now, a).value]
  {
    if a.collection !in reg then Err(Framework(NotInitialized)) else
    :- Need(a.proposal in store, Framework(NotInitialized));
    :- Need(store[a.proposal].collection == a.collection, Framework(ConstraintHasOne));
    var p :- Handler(store[a.proposal], reg[a.collection], l, oracle, now, a);
    Ok(store[a.proposal := p])
  }

  /** A successful vote adds one vote per ballot to the chosen option, marks
      one new ordinal per ballot, keeps the counters in agreement with the
      bitmap and changes nothing else. */
  lemma VoteCountsEachBallotOnce(store: Proposals, reg: Registry, l: Ledger, oracle: Oracle, now: I64, a: GiveVoteArgs)
    requires GiveVote(store, reg, l, oracle, now, a).Ok?
    requires Consistent(store[a.proposal])
    ensures var p := store[a.proposal];
            var q := GiveVote(store, reg, l, oracle, now, a).value[a.proposal];
      && Consistent(q)
      && q.votes[a.choice] == p.votes[a.choice] + |a.remaining| / 2
      && (forall i :: 0 <= i < |p.votes| && i != a.choice ==> q.votes[i] == p.votes[i])
      && VotedSet(p.voters) <= VotedSet(q.voters)
      && |VotedSet(q.voters)| == |VotedSet(p.voters)| + |a.remaining| / 2
      && q.(votes := p.votes, voters := p.voters) == p
    ensures forall k :: k in store && k != a.proposal ==> GiveVote(store, reg, l, oracle, now, a).value[k] == store[k]
  {
    var p := store[a.proposal];
    var c := reg[a.collection];
    CastBallotsMarks(p, l, oracle, a.signer, c.verifiedCollectionKey, a.choice, Ballots(a.remaining));
  }

  /** Repeating a successful vote with the same accounts fails: the first
      NFT is already marked. */
  lemma RepeatVoteFails(store: Proposals, reg: Registry, l: Ledger, oracle: Oracle, now1: I64, now2: I64, a: GiveVoteArgs)
    requires GiveVote(store, reg, l, oracle, now1, a).Ok?
    ensures GiveVote(GiveVote(store, reg, l, oracle, now1, a).value, reg, l, oracle, now2, a).Err?
  {
    var p := store[a.proposal];
    var c := reg[a.collection];
    var key := c.verifiedCollectionKey;
    var bs := Ballots(a.remaining);
    var q := Handler(p, c, l, oracle, now1, a).value;
    assert q == CastBallots(p, l, oracle, a.signer, key, a.choice, bs).value;
    CastBallotsValid(p, l, oracle, a.signer, key, a.choice, bs);
    CastBallotsMarks(p, l, oracle, a.signer, key, a.choice, bs);
    MarkedHas(l, oracle, a.signer, key, bs, 0);
    var m := Ordinal(l, oracle, a.signer, key, bs[0]).value;
    assert m in VotedSet(q.voters);
    var store' := GiveVote(store, reg, l, oracle, now1, a).value;
    assert store'[a.proposal] == q;
    var second := Handler(q, c, l, oracle, now2, a);
    if second.Ok? {
      CastBallotsMarks(q, l, oracle, a.signer, key, a.choice, bs);
      assert false;
    }
  }

  /** Giving a vote leaves `is_active` alone. */
  lemma VoteKeepsActivity(store: Proposals, reg: Registry, l: Ledger, oracle: Oracle, now: I64, a: GiveVoteArgs)
    requires GiveVote(store, reg, l, oracle, now, a).Ok?
    ensures forall k :: k in store ==>
      (k in GiveVote(store, reg, l, oracle, now, a).value && GiveVote(store, reg, l, oracle, now, a).value[k].isActive == store[k].isActive)
    ensures GiveVote(store, reg, l, oracle, now, a).value.Keys == store.Keys
  {
  }
}

=== FILE: ints.dfy ===
/** The machine integer types of the program, on top of Dafny's unbounded `int`. */
module Ints {
  import opened Errors
  import opened Wrappers

  const U64_MAX: int := 0xFFFF_FFFF_FFFF_FFFF
  const I64_MIN: int := -0x8000_0000_0000_0000
  const I64_MAX: int := 0x7FFF_FFFF_FFFF_FFFF
  const U8_MAX: int := 0xFF

  type U64 = x: int | 0 <= x <= U64_MAX
  type I64 = x: int | I64_MIN <= x <= I64_MAX
  type U8 = x: int | 0 <= x <= U8_MAX

  /** Rust's `x as i64` for a `u64`: two's-complement reinterpretation. */
  function U64AsI64(x: U64): (r: I64)
    ensures x <= I64_MAX ==> r == x
    ensures x > I64_MAX ==> r < 0 && r + U64_MAX + 1 == x
  {
    if x <= I64_MAX then x else x - (U64_MAX + 1)
  }

  /** Rust's `x as u64` for an `i64`: two's-complement reinterpretation. */
  function I64AsU64(x: I64): (r: U64)
    ensures x >= 0 ==> r == x
    ensures x < 0 ==> r > I64_MAX && r == x + U64_MAX + 1
  {
    if x >= 0 then x else x + U64_MAX + 1
  }

  /** `a + b` on `i64` in a build with overflow checks: overflow panics. */
  function AddI64(a: I64, b: I64): (r: Result<I64>)
    ensures r.Ok? <==> I64_MIN <= a + b <= I64_MAX
    ensures r.Ok? ==> r.value == a + b
    ensures r.Err? ==> r.error == Panic
  {
    if I64_MIN <= a + b <= I64_MAX then Ok(a + b) else Err(Panic)
  }

  /** `a - b` on `i64` in a build with overflow checks: overflow panics. */
  function SubI64(a: I64, b: I64): (r: Result<I64>)
    ensures r.Ok? <==> I64_MIN <= a - b <= I64_MAX
    ensures r.Ok? ==> r.value == a - b
    ensures r.Err? ==> r.error == Panic
  {
    if I64_MIN <= a - b <= I64_MAX then Ok(a - b) else Err(Panic)
  }

  /** `a + b` on `u64` in a build with overflow checks: overflow panics. */
  function AddU64(a: U64, b: U64): (r: Result<U64>)
    ensures r.Ok? <==> a + b <= U64_MAX
    ensures r.Ok? ==> r.value == a + b
    ensures r.Err? ==> r.error == Panic
  {
    if a + b <= U64_MAX then Ok(a + b) else Err(Panic)
  }

  /** `a * b` on `u64` in a build with overflow checks: overflow panics. */
  function MulU64(a: U64, b: U64): (r: Result<U64>)
    ensures r.Ok? <==> a * b <= U64_MAX
    ensures r.Ok? ==> r.value == a * b
    ensures r.Err? ==> r.error == Panic
  {
    if a * b <= U64_MAX then Ok(a * b) else Err(Panic)
  }
}

=== FILE: keys.dfy ===
/** Account addresses. A program-derived address is a constructor applied to
    its seeds, so derivation is injective by construction: two addresses are
    equal only when they come from the same seed family and the same seeds. */
module Keys {

  datatype Address =
    | Key(id: nat)                                                     // a wallet or an account created outside the program
    | CollectionPda(metadata: Address)                                 // seeds [b"collection", verified collection metadata]
    | TradePda(partyOne: Address, partyTwo: Address, collection: Address)      // seeds [b"trade", one, two, collection]
    | EscrowOnePda(partyOne: Address, partyTwo: Address, collection: Address)  // seeds [b"escrow-one", one, two, collection]
    | EscrowTwoPda(partyOne: Address, partyTwo: Address, collection: Address)  // seeds [b"escrow-two", one, two, collection]
    | StakePda(mint: Address)                                          // seeds [b"stake", mint]
    | NftEscrowPda(mint: Address)                                      // seeds [b"nft-escrow", mint]
    | MetadataPda(mint: Address)                                       // the token-metadata program's [b"metadata", program, mint]
    | AssociatedToken(wallet: Address, mint: Address)                  // the associated token account of a wallet for a mint
    | EscrowAuthority                                                  // seeds [b"escrow"]
    | NftAuthority                                                     // seeds [b"nft-authority"]
    | TokenAuthority                                                   // seeds [b"token-authority"]

  /** A key that can sign a transaction: program-derived addresses cannot. */
  predicate IsWallet(a: Address) {
    a.Key?
  }
}

=== FILE: ledger.dfy ===
/** The custody layer the instructions call into (system program transfers,
    token transfers, owner changes, account closes, minting), as pure updates
    of an abstract ledger. Every failure aborts the calling instruction. */
module Ledger {
  import opened Keys
  import opened Errors
  import opened Wrappers
  import opened Sums

  datatype TokenAccount = TokenAccount(mint: Address, owner: Address, amount: nat)

  datatype Mint = Mint(decimals: nat, authority: Option<Address>)

  datatype Ledger = Ledger(
    lamports: map<Address, nat>,
    tokens: map<Address, TokenAccount>,
    mints: map<Address, Mint>)

  function Lamports(l: Ledger, a: Address): nat {
    Get(l.lamports, a)
  }

  /** The token balance held at `a`, 0 when there is no token account there. */
  function Amount(l: Ledger, a: Address): nat {
    if a in l.tokens then l.tokens[a].amount else 0
  }

  ghost function TotalLamports(l: Ledger): nat {
    Sum(l.lamports)
  }

  /** The balance of every token account, counted only when it holds mint `m`. */
  function AmountsOf(tokens: map<Address, TokenAccount>, m: Address): map<Address, nat> {
    map a | a in tokens :: if tokens[a].mint == m then tokens[a].amount else 0
  }

  /** The amount of mint `m` held across all token accounts. */
  ghost function Supply(l: Ledger, m: Address): nat {
    Sum(AmountsOf(l.tokens, m))
  }

  /** Token accounts keep their addresses, mints and owners. */
  ghost predicate SameAccounts(t: map<Address, TokenAccount>, u: map<Address, TokenAccount>) {
    && t.Keys == u.Keys
    && forall a :: a in t ==> u[a].mint == t[a].mint && u[a].owner == t[a].owner
  }

  lemma AmountsOfUpdate(t: map<Address, TokenAccount>, a: Address, acct: TokenAccount, m: Address)
    ensures AmountsOf(t[a := acct], m) == AmountsOf(t, m)[a := if acct.mint == m then acct.amount else 0]
  {
  }

  lemma AmountsOfDelete(t: map<Address, TokenAccount>, a: Address, m: Address)
    ensures AmountsOf(t - {a}, m) == AmountsOf(t, m) - {a}
  {
  }

  /** Replacing one token account changes the supply of its mint by the
      difference of the amounts and leaves every other supply alone. */
  lemma SupplyAfterUpdate(l: Ledger, a: Address, acct: TokenAccount, m: Address)
    requires a in l.tokens && l.tokens[a].mint == acct.mint
    ensures Supply(l.(tokens := l.tokens[a := acct]), m)
         == Supply(l, m) - (if acct.mint == m then l.tokens[a].amount else 0)
                         + (if acct.mint == m then acct.amount else 0)
  {
    AmountsOfUpdate(l.tokens, a, acct, m);
    SumUpdate(AmountsOf(l.tokens, m), a, if acct.mint == m then acct.amount else 0);
  }

  /** `system_program::transfer` (and the direct lamport moves of the trade
      handlers): fails when the payer holds less than `amount`. */
  function TransferLamports(l: Ledger, from: Address, to: Address, amount: nat): (r: Result<Ledger>)
    ensures r.Ok? <==> Lamports(l, from) >= amount
    ensures r.Err? ==> r.error == Custody(InsufficientFunds)
    ensures r.Ok? ==> forall a {:trigger Lamports(r.value, a)} ::
      Lamports(r.value, a) == Lamports(l, a) - (if a == from then amount else 0) + (if a == to then amount else 0)
    ensures r.Ok? ==> r.value.tokens == l.tokens && r.value.mints == l.mints
    ensures r.Ok? ==> TotalLamports(r.value) == TotalLamports(l)
    ensures r.Ok? ==> forall m {:trigger Supply(r.value, m)} :: Supply(r.value, m) == Supply(l, m)
  {
    if Lamports(l, from) < amount then Err(Custody(InsufficientFunds))
    else
      var l1 := l.(lamports := l.lamports[from := Lamports(l, from) - amount]);
      var l2 := l1.(lamports := l1.lamports[to := Lamports(l1, to) + amount]);
      SumUpdate(l.lamports, from, Lamports(l, from) - amount);
      SumUpdate(l1.lamports, to, Lamports(l1, to) + amount);
      Ok(l2)
  }

  /** Moves every lamport of `acct` to `dest`, as closing an account does. */
  function SweepLamports(l: Ledger, acct: Address, dest: Address): (r: Ledger)
    ensures Lamports(r, acct) == (if acct == dest then Lamports(l, acct) else 0)
    ensures Lamports(r, dest) == Lamports(l, dest) + (if acct == dest then 0 else Lamports(l, acct))
    ensures forall a {:trigger Lamports(r, a)} :: a != acct && a != dest ==> Lamports(r, a) == Lamports(l, a)
    ensures r.tokens == l.tokens && r.mints == l.mints
    ensures TotalLamports(r) == TotalLamports(l)
  {
    var r := TransferLamports(l, acct, dest, Lamports(l, acct));
    r.value
  }

  /** `token::transfer`, checked in the token program's order: both accounts
      exist, enough balance, same mint, signed by the source's owner. */
  function TransferTokens(l: Ledger, from: Address, to: Address, amount: nat, authority: Address): (r: Result<Ledger>)
    ensures r.Ok? <==>
      && from in l.tokens && to in l.tokens
      && l.tokens[from].amount >= amount
      && l.tokens[from].mint == l.tokens[to].mint
      && l.tokens[from].owner == authority
    ensures r.Ok? ==> forall a {:trigger Amount(r.value, a)} ::
      Amount(r.value, a) == Amount(l, a) - (if a == from then amount else 0) + (if a == to then amount else 0)
    ensures r.Ok? ==> SameAccounts(l.tokens, r.value.tokens)
    ensures r.Ok? ==> r.value.lamports == l.lamports && r.value.mints == l.mints
    ensures r.Ok? ==> forall m {:trigger Supply(r.value, m)} :: Supply(r.value, m) == Supply(l, m)
  {
    if from !in l.tokens || to !in l.tokens then Err(Custody(AccountMissing))
    else if l.tokens[from].amount < amount then Err(Custody(InsufficientFunds))
    else if l.tokens[from].mint != l.tokens[to].mint then Err(Custody(MintMismatch))
    else if l.tokens[from].owner != authority then Err(Custody(OwnerMismatch))
    else if from == to then Ok(l)
    else
      var f := l.tokens[from];
      var l1 := l.(tokens := l.tokens[from := f.(amount := f.amount - amount)]);
      var t := l1.tokens[to];
      var l2 := l1.(tokens := l1.tokens[to := t.(amount := t.amount + amount)]);
      forall m ensures Supply(l2, m) == Supply(l, m) {
          SupplyAfterUpdate(l, from, f.(amount := f.amount - amount), m);
          SupplyAfterUpdate(l1, to, t.(amount := t.amount + amount), m);
      }
      Ok(l2)
  }

  /** `token::set_authority(AccountOwner)`: the current owner hands the account over. */
  function SetOwner(l: Ledger, acct: Address, current: Address, newOwner: Address): (r: Result<Ledger>)
    ensures r.Ok? <==> acct in l.tokens && l.tokens[acct].owner == current
    ensures r.Ok? ==> r.value.tokens == l.tokens[acct := l.tokens[acct].(owner := newOwner)]
    ensures r.Ok? ==> r.value.lamports == l.lamports && r.value.mints == l.mints
    ensures r.Ok? ==> forall m {:trigger Supply(r.value, m)} :: Supply(r.value, m) == Supply(l, m)
  {
    if acct !in l.tokens then Err(Custody(AccountMissing))
    else if l.tokens[acct].owner != current then Err(Custody(OwnerMismatch))
    else
      var a := l.tokens[acct];
      var r := l.(tokens := l.tokens[acct := a.(owner := newOwner)]);
      assert forall m :: Supply(r, m) == Supply(l, m) by {
        forall m { SupplyAfterUpdate(l, acct, a.(owner := newOwner), m); }
      }
      Ok(r)
  }

  /** `token::close_account`: an empty account disappears and its lamports go to `dest`. */
  function CloseTokenAccount(l: Ledger, acct: Address, dest: Address, authority: Address): (r: Result<Ledger>)
    ensures r.Ok? <==> acct in l.tokens && l.tokens[acct].amount == 0 && l.tokens[acct].owner == authority && acct != dest
    ensures r.Ok? ==> r.value.tokens == l.tokens - {acct}
    ensures r.Ok? ==> r.value == SweepLamports(l, acct, dest).(tokens := l.tokens - {acct})
    ensures r.Ok? ==> TotalLamports(r.value) == TotalLamports(l)
    ensures r.Ok? ==> forall m {:trigger Supply(r.value, m)} :: Supply(r.value, m) == Supply(l, m)
  {
    if acct !in l.tokens then Err(Custody(AccountMissing))
    else if acct == dest then Err(Custody(AccountMissing))
    else if l.tokens[acct].amount != 0 then Err(Custody(NonZeroBalance))
    else if l.tokens[acct].owner != authority then Err(Custody(OwnerMismatch))
    else
      var s := SweepLamports(l, acct, dest);
      var r := s.(tokens := l.tokens - {acct});
      forall m ensures Supply(r, m) == Supply(l, m) {
        AmountsOfDelete(l.tokens, acct, m);
        SumDelete(AmountsOf(l.tokens, m), acct);
      }
      Ok(r)
  }

  /** `token::mint_to`: new units of `mint` appear in `to`, signed by the mint authority. */
  function MintTo(l: Ledger, mint: Address, to: Address, amount: nat, authority: Address): (r: Result<Ledger>)
    ensures r.Ok? <==>
      && mint in l.mints && to in l.tokens
      && l.tokens[to].mint == mint
      && l.mints[mint].authority == Some(authority)
    ensures r.Ok? ==> forall a {:trigger Amount(r.value, a)} ::
      Amount(r.value, a) == Amount(l, a) + (if a == to then amount else 0)
    ensures r.Ok? ==> SameAccounts(l.tokens, r.value.tokens)
    ensures r.Ok? ==> r.value.lamports == l.lamports && r.value.mints == l.mints
    ensures r.Ok? ==> Supply(r.value, mint) == Supply(l, mint) + amount
    ensures r.Ok? ==> forall m {:trigger Supply(r.value, m)} :: m != mint ==> Supply(r.value, m) == Supply(l, m)
  {
    if mint !in l.mints || to !in l.tokens then Err(Custody(AccountMissing))
    else if l.tokens[to].mint != mint then Err(Custody(MintMismatch))
    else if l.mints[mint].authority != Some(authority) then Err(Custody(OwnerMismatch))
    else
      var t := l.tokens[to];
      var r := l.(tokens := l.tokens[to := t.(amount := t.amount + amount)]);
      assert forall m :: Supply(r, m) == Supply(l, m) + (if m == mint then amount else 0) by {
        forall m { SupplyAfterUpdate(l, to, t.(amount := t.amount + amount), m); }
      }
      Ok(r)
  }

  /** A fresh, empty token account at `addr`. */
  function CreateTokenAccount(l: Ledger, addr: Address, mint: Address, owner: Address): (r: Ledger)
    requires addr !in l.tokens
    ensures r.tokens == l.tokens[addr := TokenAccount(mint, owner, 0)]
    ensures r.lamports == l.lamports && r.mints == l.mints
    ensures forall m {:trigger Supply(r, m)} :: Supply(r, m) == Supply(l, m)
  {
    var r := l.(tokens := l.tokens[addr := TokenAccount(mint, owner, 0)]);
    forall m ensures Supply(r, m) == Supply(l, m) {
      AmountsOfUpdate(l.tokens, addr, TokenAccount(mint, owner, 0), m);
      SumUpdate(AmountsOf(l.tokens, m), addr, 0);
    }
    r
  }

  /** Anchor's `init_if_needed` for a token account: create it, or accept an
      existing one only when its mint and owner are the declared ones. */
  function InitTokenIfNeeded(l: Ledger, addr: Address, mint: Address, owner: Address): (r: Result<Ledger>)
    ensures r.Ok? <==> addr !in l.tokens || (l.tokens[addr].mint == mint && l.tokens[addr].owner == owner)
    ensures r.Ok? ==> addr in r.value.tokens && r.value.tokens[addr].mint == mint && r.value.tokens[addr].owner == owner
    ensures r.Ok? ==> r.value.tokens == l.tokens[addr := r.value.tokens[addr]]
    ensures r.Ok? && addr in l.tokens ==> r.value == l
    ensures r.Ok? ==> Amount(r.value, addr) == Amount(l, addr)
    ensures r.Ok? ==> forall a {:trigger Amount(r.value, a)} :: Amount(r.value, a) == Amount(l, a)
    ensures r.Ok? ==> r.value.lamports == l.lamports && r.value.mints == l.mints
    ensures r.Ok? ==> forall m {:trigger Supply(r.value, m)} :: Supply(r.value, m) == Supply(l, m)
  {
    if addr !in l.tokens then Ok(CreateTokenAccount(l, addr, mint, owner))
    else if l.tokens[addr].mint != mint then Err(Framework(ConstraintTokenMint))
    else if l.tokens[addr].owner != owner then Err(Framework(ConstraintTokenOwner))
    else Ok(l)
  }
}

=== FILE: metadata.dfy ===
/** The collection-membership oracle: token-metadata accounts, the checks the
    program makes on them, and the parser that reads an NFT's ordinal out of
    its name ("Ape #42" is ordinal 42). */
module Metadata {
  import opened Keys
  import opened Errors
  import opened Wrappers
  import opened Ints
  import opened Ledger

  /** The `collection` field of a metadata account. */
  datatype CollectionRef = CollectionRef(verified: bool, key: Address)

  /** The parts of a token-metadata account the program reads. */
  datatype MetadataAccount = MetadataAccount(
    updateAuthority: Address,
    collection: Option<CollectionRef>,
    name: string)

  /** Metadata accounts by address; an absent address holds no data. */
  type Oracle = map<Address, MetadataAccount>

  predicate IsDigit(c: char) {
    '0' <= c <= '9'
  }

  predicate AllDigits(s: string) {
    forall i :: 0 <= i < |s| ==> IsDigit(s[i])
  }

  /** The value of a string of decimal digits, most significant first. */
  function DigitsValue(s: string): nat
    requires AllDigits(s)
  {
    if |s| == 0 then 0
    else 10 * DigitsValue(s[..|s| - 1]) + (s[|s| - 1] as int - '0' as int)
  }

  /** The shortest decimal rendering of `n`. */
  function Decimal(n: nat): (s: string)
    ensures |s| > 0 && AllDigits(s)
  {
    if n < 10 then [('0' as int + n) as char]
    else Decimal(n / 10) + [('0' as int + n % 10) as char]
  }

  lemma {:induction false} DecimalValue(n: nat)
    ensures DigitsValue(Decimal(n)) == n
  {
    var s := Decimal(n);
    if n >= 10 {
      DecimalValue(n / 10);
      assert s[..|s| - 1] == Decimal(n / 10);
    }
  }

  /** `str::parse::<u64>`: an optional `+`, then at least one decimal digit,
      with a value that fits in 64 bits; anything else is an error. */
  function ParseU64(s: string): (r: Option<U64>)
    ensures r.Some? ==> |s| > 0
  {
    var digits := if |s| > 0 && s[0] == '+' then s[1..] else s;
    if |digits| == 0 || !AllDigits(digits) then None
    else if DigitsValue(digits) > U64_MAX then None
    else Some(DigitsValue(digits))
  }

  /** `s.replace("\x00", "")`. */
  function StripNul(s: string): (r: string)
    ensures '\0' !in r
    ensures |r| <= |s|
    ensures forall c :: c != '\0' ==> multiset(r)[c] == multiset(s)[c]
  {
    if |s| == 0 then ""
    else
      assert s == [s[0]] + s[1..];
      if s[0] == '\0' then StripNul(s[1..]) else [s[0]] + StripNul(s[1..])
  }

  lemma {:induction false} StripNulConcat(a: string, b: string)
    ensures StripNul(a + b) == StripNul(a) + StripNul(b)
  {
    if |a| > 0 {
      assert (a + b)[1..] == a[1..] + b;
      StripNulConcat(a[1..], b);
    } else {
      assert a + b == b;
    }
  }

  lemma {:induction false} StripNulNoop(a: string)
    requires '\0' !in a
    ensures StripNul(a) == a
  {
    if |a| > 0 {
      assert a == [a[0]] + a[1..];
      StripNulNoop(a[1..]);
    }
  }

  /** The text after the first `#` of `s`; empty when `s` has no `#`. */
  function AfterFirstHash(s: string): (r: string)
    ensures '#' !in s ==> r == ""
    ensures |r| <= |s|
  {
    if |s| == 0 then ""
    else if s[0] == '#' then s[1..]
    else AfterFirstHash(s[1..])
  }

  lemma {:induction false} AfterFirstHashSplit(prefix: string, rest: string)
    requires '#' !in prefix
    ensures AfterFirstHash(prefix + "#" + rest) == rest
  {
    if |prefix| > 0 {
      assert (prefix + "#" + rest)[1..] == prefix[1..] + "#" + rest;
      AfterFirstHashSplit(prefix[1..], rest);
    }
  }

  /** The ordinal encoded in an NFT name: NUL padding removed, the text after
      the first `#` parsed as a `u64`. A name that does not parse panics
      (the source unwraps the parse result). */
  function NameOrdinal(name: string): (r: Result<U64>)
    ensures r.Err? ==> r.error == Panic
    ensures r.Ok? ==> '#' in StripNul(name)
  {
    match ParseU64(AfterFirstHash(StripNul(name)))
    case Some(n) => Ok(n)
    case None => Err(Panic)
  }

  /** `validate_metadata_account`: the account at `metadataAddress` must be
      the metadata of `mint`, verified as a member of `verifiedKey`'s
      collection; the result is the NFT's ordinal. */
  function ValidateMetadata(oracle: Oracle, mint: Address, metadataAddress: Address, verifiedKey: Address): (r: Result<U64>)
    ensures metadataAddress !in oracle ==> r == Err(Program(AccountNotInitialized))
    ensures metadataAddress in oracle && metadataAddress != MetadataPda(mint) ==> r == Err(Program(WrongMetadata))
    ensures r.Ok? <==>
      && metadataAddress in oracle && metadataAddress == MetadataPda(mint)
      && oracle[metadataAddress].collection.Some?
      && oracle[metadataAddress].collection.value == CollectionRef(true, verifiedKey)
      && NameOrdinal(oracle[metadataAddress].name).Ok?
    ensures r.Ok? ==> r == NameOrdinal(oracle[metadataAddress].name)
    ensures metadataAddress in oracle && metadataAddress == MetadataPda(mint) ==>
      var collection := oracle[metadataAddress].collection;
      && (collection.None? ==> r == Err(Program(CollectionNotSet)))
      && (collection.Some? && !collection.value.verified ==> r == Err(Program(CollectionNotVerified)))
      && (collection.Some? && collection.value.verified && collection.value.key != verifiedKey ==>
            r == Err(Program(CollectionNotSame)))
      && (collection == Some(CollectionRef(true, verifiedKey)) && NameOrdinal(oracle[metadataAddress].name).Err? ==>
            r == Err(Panic))
  {
    if metadataAddress !in oracle then Err(Program(AccountNotInitialized))
    else if metadataAddress != MetadataPda(mint) then Err(Program(WrongMetadata))
    else
      var md := oracle[metadataAddress];
      match md.collection
      case None => Err(Program(CollectionNotSet))
      case Some(c) =>
        if !c.verified then Err(Program(CollectionNotVerified))
        else if c.key != verifiedKey then Err(Program(CollectionNotSame))
        else NameOrdinal(md.name)
  }

  /** The Anchor account constraints the trade, proposal and stake instructions
      put on a holder's membership NFT: a token account owned by `holder`
      (of `mint`, when the instruction names one) holding exactly one token,
      whose metadata is a verified member of the collection. Returns the mint. */
  function CheckMember(l: Ledger, oracle: Oracle, tokenAccount: Address, holder: Address,
                       mint: Option<Address>, verifiedKey: Address): (r: Result<Address>)
    ensures r.Ok? <==>
      && tokenAccount in l.tokens
      && l.tokens[tokenAccount].owner == holder
      && (mint.Some? ==> l.tokens[tokenAccount].mint == mint.value)
      && l.tokens[tokenAccount].amount == 1
      && MetadataPda(l.tokens[tokenAccount].mint) in oracle
      && oracle[MetadataPda(l.tokens[tokenAccount].mint)].collection == Some(CollectionRef(true, verifiedKey))
    ensures r.Ok? ==> r.value == l.tokens[tokenAccount].mint
    ensures (&& tokenAccount in l.tokens && l.tokens[tokenAccount].owner == holder
             && (mint.Some? ==> l.tokens[tokenAccount].mint == mint.value)
             && l.tokens[tokenAccount].amount != 1) ==> r == Err(Program(TokenNotOne))
    ensures tokenAccount !in l.tokens ==> r == Err(Framework(NotInitialized))
    ensures (&& tokenAccount in l.tokens && l.tokens[tokenAccount].owner == holder
             && (mint.Some? ==> l.tokens[tokenAccount].mint == mint.value)
             && l.tokens[tokenAccount].amount == 1
             && MetadataPda(l.tokens[tokenAccount].mint) in oracle) ==>
      var collection := oracle[MetadataPda(l.tokens[tokenAccount].mint)].collection;
      && (collection.None? ==> r == Err(Panic))
      && (collection.Some? && !collection.value.verified ==> r == Err(Program(CollectionNotVerified)))
      && (collection.Some? && collection.value.verified && collection.value.key != verifiedKey ==>
            r == Err(Program(CollectionNotSame)))
  {
    if tokenAccount !in l.tokens then Err(Framework(NotInitialized))
    else
      var t := l.tokens[tokenAccount];
      if t.owner != holder then Err(Framework(ConstraintTokenOwner))
      else if mint.Some? && t.mint != mint.value then Err(Framework(ConstraintTokenMint))
      else if t.amount != 1 then Err(Program(TokenNotOne))
      else if MetadataPda(t.mint) !in oracle then Err(Framework(NotInitialized))
      else
        var md := oracle[MetadataPda(t.mint)];
        match md.collection
        case None => Err(Panic)
        case Some(c) =>
          if !c.verified then Err(Program(CollectionNotVerified))
          else if c.key != verifiedKey then Err(Program(CollectionNotSame))
          else Ok(t.mint)
  }

  lemma {:induction false} StripNulPadding(padding: string)
    requires forall i :: 0 <= i < |padding| ==> padding[i] == '\0'
    ensures StripNul(padding) == ""
  {
    if |padding| > 0 {
      StripNulPadding(padding[1..]);
    }
  }

  /** Rendering an ordinal in decimal and parsing it back gives the ordinal. */
  lemma ParseDecimal(n: U64)
    ensures ParseU64(Decimal(n)) == Some(n)
  {
    DecimalValue(n);
    assert IsDigit(Decimal(n)[0]);
  }

  /** A name made of a `#`-free prefix, `#`, the decimal ordinal and any NUL
      padding yields that ordinal. */
  lemma OrdinalOfName(prefix: string, n: U64, padding: string)
    requires '#' !in prefix && '\0' !in prefix
    requires forall i :: 0 <= i < |padding| ==> padding[i] == '\0'
    ensures NameOrdinal(prefix + "#" + Decimal(n) + padding) == Ok(n)
  {
    var d := Decimal(n);
    var body := prefix + "#" + d;
    assert '\0' !in d by { assert forall i :: 0 <= i < |d| ==> IsDigit(d[i]); }
    assert '\0' !in body;
    StripNulConcat(body, padding);
    StripNulPadding(padding);
    StripNulNoop(body);
    assert StripNul(body + padding) == body;
    AfterFirstHashSplit(prefix, d);
    ParseDecimal(n);
  }

  /** Only the first `#` counts: everything after it, later `#`s included,
      is the text that must parse. */
  lemma OrdinalUsesFirstHash(prefix: string, rest: string)
    requires '#' !in prefix && '\0' !in prefix && '\0' !in rest
    ensures NameOrdinal(prefix + "#" + rest) == (match ParseU64(rest) case Some(n) => Ok(n) case None => Err(Panic))
  {
    StripNulConcat(prefix + "#", rest);
    StripNulConcat(prefix, "#");
    StripNulNoop(prefix);
    StripNulNoop("#");
    StripNulNoop(rest);
    AfterFirstHashSplit(prefix, rest);
  }

  /** A name without `#` panics: the empty suffix is not a number. */
  lemma NoHashPanics(name: string)
    requires '#' !in StripNul(name)
    ensures NameOrdinal(name) == Err(Panic)
  {
  }
}

=== FILE: proposal.dfy ===
/** The proposal record of the voting engine: its size budget, its creation,
    the vote counters and the voter bitmap, one bit per NFT ordinal. */
module ProposalState {
  import opened Keys
  import opened Errors
  import opened Wrappers
  import opened Ints

  datatype Proposal = Proposal(
    collection: Address,      // the collection record the proposal belongs to
    proposal: string,         // the title
    options: seq<string>,
    votes: seq<U64>,          // one counter per option
    voters: seq<U8>,          // bitmap: ordinal m is bit 7 - m % 8 of byte m / 8
    isActive: bool,
    isPassed: bool,
    time: I64,                // creation time, the start of the vote window
    creator: Address)

  /** Proposal records by account address. */
  type Proposals = map<Address, Proposal>

  // ---------------------------------------------------------------- size

  /** `Proposal::len(nft_count, title_size, option_count)` as the source
      computes it: 25 bytes per option and the title's bytes, but no 4-byte
      length prefix for the title or for each option. */
  function LenAsWritten(nftCount: nat, titleSize: nat, optionCount: nat): nat {
    8 + 32 + titleSize + 4 + 25 * optionCount + 4 + 8 * optionCount + 4 + 1 + nftCount + 2 + 8 + 32
  }

  /** The space the record needs at its largest: each string carries its
      4-byte length prefix, each option up to 25 bytes. */
  function Len(nftCount: nat, titleSize: nat, optionCount: nat): nat {
    8 + 32 + (4 + titleSize) + 4 + (4 + 25) * optionCount + 4 + 8 * optionCount + 4 + (nftCount + 1) + 2 + 8 + 32
  }

  /** The bytes of all option strings together. */
  function OptionChars(options: seq<string>): nat {
    if |options| == 0 then 0 else OptionChars(options[..|options| - 1]) + |options[|options| - 1]|
  }

  /** Borsh size of a vector of strings: the vector's length prefix, then a
      length prefix and the bytes of each string. */
  function StringsSize(options: seq<string>): nat {
    if |options| == 0 then 4 else StringsSize(options[..|options| - 1]) + 4 + |options[|options| - 1]|
  }

  lemma {:induction false} StringsSizeIsPrefixed(options: seq<string>)
    ensures StringsSize(options) == 4 + 4 * |options| + OptionChars(options)
  {
    if |options| > 0 {
      StringsSizeIsPrefixed(options[..|options| - 1]);
    }
  }

  lemma {:induction false} OptionCharsBound(options: seq<string>)
    requires forall i :: 0 <= i < |options| ==> |options[i]| <= 25
    ensures OptionChars(options) <= 25 * |options|
    ensures OptionChars(options) == 25 * |options| <==> forall i :: 0 <= i < |options| ==> |options[i]| == 25
  {
    if |options| > 0 {
      var init := options[..|options| - 1];
      assert forall i :: 0 <= i < |init| ==> init[i] == options[i];
      OptionCharsBound(init);
    }
  }

  /** Discriminator plus the Borsh encoding of every field. */
  function EncodedSize(p: Proposal): nat {
    8 + 32 + (4 + |p.proposal|) + StringsSize(p.options) + (4 + 8 * |p.votes|) + (4 + |p.voters|) + 1 + 1 + 8 + 32
  }

  /** The source's budget fits a record exactly when the options' bytes, plus
      4, are at most 21 per option: the 4-byte prefixes it leaves out are paid
      for only by options shorter than 25 bytes. */
  lemma LenAsWrittenFitsIff(p: Proposal, nftCount: nat)
    requires |p.voters| == nftCount + 1 && |p.votes| == |p.options|
    ensures EncodedSize(p) <= LenAsWritten(nftCount, |p.proposal|, |p.options|)
            <==> OptionChars(p.options) + 4 <= 21 * |p.options|
  {
    StringsSizeIsPrefixed(p.options);
  }

  /** The corrected budget fits every record whose options are at most 25
      bytes, with no byte to spare when all of them are 25 bytes long. */
  lemma LenFits(p: Proposal, nftCount: nat)
    requires |p.voters| == nftCount + 1 && |p.votes| == |p.options|
    requires forall i :: 0 <= i < |p.options| ==> |p.options[i]| <= 25
    ensures EncodedSize(p) <= Len(nftCount, |p.proposal|, |p.options|)
    ensures EncodedSize(p) == Len(nftCount, |p.proposal|, |p.options|)
            <==> forall i :: 0 <= i < |p.options| ==> |p.options[i]| == 25
  {
    StringsSizeIsPrefixed(p.options);
    OptionCharsBound(p.options);
  }

  // ---------------------------------------------------------------- creation

  /** `Proposal::new` as the source writes it: the proposal starts inactive. */
  function NewAsWritten(collection: Address, proposal: string, votes: seq<U64>, voters: seq<U8>,
                        options: seq<string>, creator: Address, now: I64): (p: Proposal)
    ensures !p.isActive && !p.isPassed && p.time == now
    ensures p.collection == collection && p.proposal == proposal && p.options == options
    ensures p.votes == votes && p.voters == voters && p.creator == creator
  {
    Proposal(collection, proposal, options, votes, voters, false, false, now, creator)
  }

  /** `Proposal::new` with the proposal open, as execution expects it. */
  function New(collection: Address, proposal: string, votes: seq<U64>, voters: seq<U8>,
               options: seq<string>, creator: Address, now: I64): (p: Proposal)
    ensures p.isActive && !p.isPassed && p.time == now
    ensures p.collection == collection && p.proposal == proposal && p.options == options
    ensures p.votes == votes && p.voters == voters && p.creator == creator
    ensures p == NewAsWritten(collection, proposal, votes, voters, options, creator, now).(isActive := true)
  {
    Proposal(collection, proposal, options, votes, voters, true, false, now, creator)
  }

  // ---------------------------------------------------------------- votes

  /** The sum of the vote counters, as an unbounded integer. */
  function TotalVotes(votes: seq<U64>): nat {
    if |votes| == 0 then 0 else TotalVotes(votes[..|votes| - 1]) + votes[|votes| - 1]
  }

  lemma {:induction false} TotalVotesZero(votes: seq<U64>)
    requires forall i :: 0 <= i < |votes| ==> votes[i] == 0
    ensures TotalVotes(votes) == 0
  {
    if |votes| > 0 {
      TotalVotesZero(votes[..|votes| - 1]);
    }
  }

  lemma {:induction false} TotalVotesIncrement(votes: seq<U64>, c: nat)
    requires c < |votes| && votes[c] < U64_MAX
    ensures TotalVotes(votes[c := votes[c] + 1]) == TotalVotes(votes) + 1
  {
    var n := |votes|;
    var w := votes[c := votes[c] + 1];
    if c < n - 1 {
      assert w[..n - 1] == votes[..n - 1][c := votes[c] + 1];
      TotalVotesIncrement(votes[..n - 1], c);
    } else {
      assert w[..n - 1] == votes[..n - 1];
    }
  }

  /** `increase_vote`: one more vote for `choice`; an index past the counters
      or a counter at its maximum panics. */
  function IncreaseVote(p: Proposal, choice: nat): (r: Result<Proposal>)
    ensures r.Ok? <==> choice < |p.votes| && p.votes[choice] < U64_MAX
    ensures r.Err? ==> r.error == Panic
    ensures r.Ok? ==> |r.value.votes| == |p.votes| && r.value.votes[choice] == p.votes[choice] + 1
    ensures r.Ok? ==> forall i :: 0 <= i < |p.votes| && i != choice ==> r.value.votes[i] == p.votes[i]
    ensures r.Ok? ==> r.value.(votes := p.votes) == p
    ensures r.Ok? ==> TotalVotes(r.value.votes) == TotalVotes(p.votes) + 1
  {
    if choice >= |p.votes| || p.votes[choice] == U64_MAX then Err(Panic)
    else
      TotalVotesIncrement(p.votes, choice);
      Ok(p.(votes := p.votes[choice := p.votes[choice] + 1]))
  }

  // ---------------------------------------------------------------- bits

  function Pow2(i: nat): (r: nat)
    ensures r >= 1
  {
    if i == 0 then 1 else 2 * Pow2(i - 1)
  }

  /** Bit `i` of `v`, counting from the least significant bit. */
  predicate Bit(v: nat, i: nat) {
    if i == 0 then v % 2 == 1 else Bit(v / 2, i - 1)
  }

  predicate IsBinary(s: string) {
    forall j :: 0 <= j < |s| ==> s[j] == '0' || s[j] == '1'
  }

  /** The `w` low bits of `v`, most significant first, zero-padded: the
      `format!("{:08b}", v)` rendering when `w` is 8. */
  function ToBinary(v: nat, w: nat): (s: string)
    ensures |s| == w && IsBinary(s)
    ensures forall j :: 0 <= j < w ==> (s[j] == '1' <==> Bit(v, w - 1 - j))
  {
    if w == 0 then ""
    else ToBinary(v / 2, w - 1) + [if v % 2 == 1 then '1' else '0']
  }

  /** `u8::from_str_radix(s, 2)` on a string of binary digits. */
  function FromBinary(s: string): nat {
    if |s| == 0 then 0
    else 2 * FromBinary(s[..|s| - 1]) + (if s[|s| - 1] == '1' then 1 else 0)
  }

  lemma {:induction false} FromToBinary(v: nat, w: nat)
    requires v < Pow2(w)
    ensures FromBinary(ToBinary(v, w)) == v
  {
    if w > 0 {
      var s := ToBinary(v, w);
      assert s[..w - 1] == ToBinary(v / 2, w - 1);
      FromToBinary(v / 2, w - 1);
    }
  }

  lemma {:induction false} ToFromBinary(s: string)
    requires IsBinary(s)
    ensures FromBinary(s) < Pow2(|s|)
    ensures ToBinary(FromBinary(s), |s|) == s
  {
    if |s| > 0 {
      var init := s[..|s| - 1];
      ToFromBinary(init);
      var v := FromBinary(s);
      assert v / 2 == FromBinary(init);
      assert s == init + [s[|s| - 1]];
    }
  }

  /** Turning a `0` digit into `1` adds the weight of its position. */
  lemma {:induction false} FromBinarySet(s: string, j: nat)
    requires IsBinary(s) && j < |s| && s[j] == '0'
    ensures FromBinary(s[j := '1']) == FromBinary(s) + Pow2(|s| - 1 - j)
  {
    var n := |s|;
    var t := s[j := '1'];
    if j < n - 1 {
      assert t[..n - 1] == s[..n - 1][j := '1'];
      FromBinarySet(s[..n - 1], j);
    } else {
      assert t[..n - 1] == s[..n - 1];
    }
  }

  /** Adding the weight of a clear bit sets that bit and no other. */
  lemma {:induction false} SetClearBit(v: nat, w: nat, j: nat)
    requires v < Pow2(w) && j < w && !Bit(v, w - 1 - j)
    ensures v + Pow2(w - 1 - j) < Pow2(w)
    ensures forall i :: 0 <= i < w ==> (Bit(v + Pow2(w - 1 - j), i) <==> i == w - 1 - j || Bit(v, i))
  {
    var s := ToBinary(v, w);
    var t := s[j := '1'];
    var u := v + Pow2(w - 1 - j);
    assert IsBinary(t);
    assert FromBinary(t) == u by {
      FromToBinary(v, w);
      FromBinarySet(s, j);
    }
    ToFromBinary(t);
    assert ToBinary(u, w) == t;
    forall i | 0 <= i < w
      ensures Bit(u, i) <==> i == w - 1 - j || Bit(v, i)
    {
      BitOfRendering(u, w, w - 1 - i);
      BitOfRendering(v, w, w - 1 - i);
    }
  }

  lemma BitOfRendering(v: nat, w: nat, k: nat)
    requires k < w
    ensures ToBinary(v, w)[k] == '1' <==> Bit(v, w - 1 - k)
  {
  }

  lemma BytePow()
    ensures Pow2(8) == U8_MAX + 1
  {
  }

  /** Writing `1` over a `0` digit of a byte's rendering and parsing it back
      adds that digit's weight, and the result is still a byte. */
  lemma {:induction false} RenderedSet(v: U8, pos: nat)
    requires pos < 8 && !Bit(v, 7 - pos)
    ensures FromBinary(ToBinary(v, 8)[pos := '1']) == v + Pow2(7 - pos)
    ensures v + Pow2(7 - pos) <= U8_MAX
  {
    BytePow();
    FromToBinary(v, 8);
    FromBinarySet(ToBinary(v, 8), pos);
    SetClearBit(v, 8, pos);
  }

  /** `record_voter(index, pos)`: renders byte `index` of the bitmap MSB-first,
      requires the digit at `pos` to be `0`, writes `1` there and parses the
      string back. Digit `pos` is bit `7 - pos`, so on success the byte grows
      by that bit's weight. An index past the bitmap or a position past the
      string panics. */
  function RecordVoter(p: Proposal, index: nat, pos: nat): (r: Result<Proposal>)
    ensures index >= |p.voters| || pos >= 8 ==> r == Err(Panic)
    ensures index < |p.voters| && pos < 8 && Bit(p.voters[index], 7 - pos) ==> r == Err(Program(AlreadyVoted))
    ensures r.Ok? <==> index < |p.voters| && pos < 8 && !Bit(p.voters[index], 7 - pos)
    ensures r.Ok? ==> |r.value.voters| == |p.voters| && r.value.voters[index] == p.voters[index] + Pow2(7 - pos)
    ensures r.Ok? ==> r.value == p.(voters := p.voters[index := r.value.voters[index]])
  {
    if index >= |p.voters| then Err(Panic)
    else
      var v := p.voters[index];
      var s := ToBinary(v, 8);
      if pos + 1 > |s| then Err(Panic)
      else if s[pos..pos + 1] != "0" then
        assert s[pos..pos + 1][0] == s[pos];
        Err(Program(AlreadyVoted))
      else
        assert s[pos] == '0' by { assert s[pos..pos + 1][0] == s[pos]; }
        var b := FromBinary(s[pos := '1']);
        RenderedSet(v, pos);
        if b > U8_MAX then Err(Panic)
        else Ok(p.(voters := p.voters[index := b]))
  }

  /** On success `record_voter` sets bit `7 - pos` of byte `index` and moves
      no other bit of the bitmap. */
  lemma RecordVoterSetsOneBit(p: Proposal, index: nat, pos: nat)
    requires RecordVoter(p, index, pos).Ok?
    ensures var w := RecordVoter(p, index, pos).value.voters;
      && |w| == |p.voters|
      && (forall i :: 0 <= i < 8 ==> (Bit(w[index], i) <==> i == 7 - pos || Bit(p.voters[index], i)))
      && (forall j :: 0 <= j < |w| && j != index ==> w[j] == p.voters[j])
  {
    BytePow();
    SetClearBit(p.voters[index], 8, pos);
  }

  // ---------------------------------------------------------------- ordinals

  /** Whether ordinal `m` is marked in the bitmap. */
  predicate HasVoted(voters: seq<U8>, m: nat) {
    m / 8 < |voters| && Bit(voters[m / 8], 7 - m % 8)
  }

  /** The ordinals below `n`. */
  function Below(n: nat): (r: set<nat>)
    ensures forall m: nat :: m in r <==> m < n
    ensures |r| == n
  {
    if n == 0 then {} else Below(n - 1) + {n - 1}
  }

  /** The ordinals marked in the bitmap. */
  function VotedSet(voters: seq<U8>): set<nat> {
    set m | m in Below(8 * |voters|) && HasVoted(voters, m)
  }

  /** Recording ordinal `m` fails with `AlreadyVoted` exactly when `m` is
      marked, and otherwise marks `m` and nothing else. */
  lemma RecordOrdinal(p: Proposal, m: nat)
    requires m / 8 < |p.voters|
    ensures RecordVoter(p, m / 8, m % 8).Err? <==> m in VotedSet(p.voters)
    ensures RecordVoter(p, m / 8, m % 8).Err? ==> RecordVoter(p, m / 8, m % 8).error == Program(AlreadyVoted)
    ensures RecordVoter(p, m / 8, m % 8).Ok? ==>
      VotedSet(RecordVoter(p, m / 8, m % 8).value.voters) == VotedSet(p.voters) + {m}
  {
    var r := RecordVoter(p, m / 8, m % 8);
    if r.Ok? {
      var w := r.value.voters;
      RecordVoterSetsOneBit(p, m / 8, m % 8);
      forall k: nat | k < 8 * |w|
        ensures HasVoted(w, k) <==> k == m || HasVoted(p.voters, k)
      {
        if k / 8 == m / 8 {
          assert Bit(w[k / 8], 7 - k % 8) <==> 7 - k % 8 == 7 - m % 8 || Bit(p.voters[k / 8], 7 - k % 8);
        }
      }
    }
  }

  lemma {:induction false} ZeroHasNoBits(i: nat)
    ensures !Bit(0, i)
  {
    if i > 0 {
      ZeroHasNoBits(i - 1);
    }
  }

  /** A zeroed bitmap marks no ordinal. */
  lemma ZeroBitmapIsEmpty(voters: seq<U8>)
    requires forall i :: 0 <= i < |voters| ==> voters[i] == 0
    ensures VotedSet(voters) == {}
  {
    forall m: nat | m < 8 * |voters|
      ensures !HasVoted(voters, m)
    {
      ZeroHasNoBits(7 - m % 8);
    }
  }

  /** The bitmap holds at most eight ordinals per byte. */
  lemma VotedSetBound(voters: seq<U8>)
    ensures |VotedSet(voters)| <= 8 * |voters|
  {
    SubsetSize(VotedSet(voters), Below(8 * |voters|));
  }

  lemma {:induction false} SubsetSize(a: set<nat>, b: set<nat>)
    requires a <= b
    ensures |a| <= |b|
    decreases |b|
  {
    if a != {} {
      var x :| x in a;
      SubsetSize(a - {x}, b - {x});
    }
  }

  /** The vote counters add up to the number of ordinals marked in the bitmap. */
  predicate Tallied(p: Proposal) {
    TotalVotes(p.votes) == |VotedSet(p.voters)|
  }

  /** The record invariant: one counter per option, and the counters agree
      with the bitmap. */
  predicate Consistent(p: Proposal) {
    |p.votes| == |p.options| && Tallied(p)
  }

  /** Under the tally, no more votes than the bitmap has bits. */
  lemma TalliedBound(p: Proposal)
    requires Tallied(p)
    ensures TotalVotes(p.votes) <= 8 * |p.voters|
  {
    VotedSetBound(p.voters);
  }
}

=== FILE: stake.dfy ===
/** The stake engine's state: one `Stake` record per staked NFT, the escrow
    that holds the NFT while it is staked, and the hourly reward formula. */
module StakeState {
  import opened Keys
  import opened Errors
  import opened Wrappers
  import opened Ints
  import opened Ledger
  import opened Registry

  datatype Stake = Stake(
    owner: Address,            // the staker
    time: I64,                 // when the NFT was staked, or its rewards last withdrawn
    nftSendAddress: Address,   // the token account the NFT came from
    collection: Address)       // the collection record's address

  /** Stake records by address (the record of mint `m` lives at
      `StakePda(m)`), and the ledger they refer to. */
  datatype Vault = Vault(stakes: map<Address, Stake>, ledger: Ledger)

  /** `Stake::LEN`: discriminator, two keys, a timestamp and a key. */
  const LEN: nat := 8 + 32 + 8 + 32 + 32

  /** Borsh size of a record: every field has a fixed width. */
  function EncodedSize(s: Stake): nat {
    32 + 8 + 32 + 32
  }

  lemma LenIsExact(s: Stake)
    ensures 8 + EncodedSize(s) == LEN == 112
  {
  }

  /** `Stake::new`, with the clock reading passed in as `now`. */
  function New(owner: Address, nftSendAddress: Address, collection: Address, now: I64): (s: Stake)
    ensures s.owner == owner && s.nftSendAddress == nftSendAddress && s.collection == collection
    ensures s.time == now
  {
    Stake(owner, now, nftSendAddress, collection)
  }

  // ---------------------------------------------------------------- rewards

  /** Base units per reward token: the reward mint has nine decimals. */
  const NANOS: nat := 1_000_000_000

  const SECONDS_PER_HOUR: nat := 3600

  /** The reward for `elapsed` seconds at `emission` tokens per hour, in
      base units of the nine-decimal mint, rounded down. */
  function Reward(elapsed: nat, emission: nat): nat {
    elapsed * emission * NANOS / SECONDS_PER_HOUR
  }

  /** `calc_emission`, with the clock reading passed in as `now`: the
      elapsed time is an `i64` difference (overflow panics) cast to `u64`
      (a negative difference wraps), and both products are checked. */
  function CalcEmission(stakeTime: I64, emission: U64, now: I64): (r: Result<U64>)
    ensures r.Err? ==> r.error == Panic
    ensures now >= stakeTime && now - stakeTime <= I64_MAX ==>
            (r.Ok? <==> (now - stakeTime) * emission * NANOS <= U64_MAX)
    ensures r.Ok? && now >= stakeTime ==> r.value == Reward(now - stakeTime, emission)
    ensures now < stakeTime && emission > 0 ==> r == Err(Panic)
    ensures now < stakeTime && emission == 0 && now - stakeTime >= I64_MIN ==> r == Ok(0)
  {
    var diff :- SubI64(now, stakeTime);
    var rewardTime := I64AsU64(diff);
    var perHour :- MulU64(rewardTime, emission);
    assert perHour * NANOS >= perHour;
    assert now < stakeTime && emission > 0 ==> perHour * NANOS > U64_MAX by {
      if now < stakeTime && emission > 0 { MulAtLeast(rewardTime, emission); }
    }
    var reward :- MulU64(perHour, NANOS);
    Ok(reward / SECONDS_PER_HOUR)
  }

  lemma MulAtLeast(a: nat, b: nat)
    requires b > 0
    ensures a * b >= a
  {
  }

  lemma MulMonotone(a: nat, b: nat, c: nat)
    requires a <= b
    ensures a * c <= b * c
  {
  }

  /** Nothing accrues at the moment of staking, and each further hour adds
      exactly `emission` whole tokens. */
  lemma RewardPerHour(elapsed: nat, emission: nat)
    ensures Reward(0, emission) == 0
    ensures Reward(elapsed + SECONDS_PER_HOUR, emission) == Reward(elapsed, emission) + emission * NANOS
  {
    var x := elapsed * emission * NANOS;
    assert (elapsed + SECONDS_PER_HOUR) * emission * NANOS == x + SECONDS_PER_HOUR * (emission * NANOS);
    DivAddMultiple(x, emission * NANOS, SECONDS_PER_HOUR);
  }

  lemma DivAddMultiple(x: nat, k: nat, q: nat)
    requires q > 0
    ensures (x + q * k) / q == x / q + k
  {
    var d := x / q;
    assert x == q * d + x % q;
    assert x + q * k == q * (d + k) + x % q;
    DivUnique(x + q * k, q, d + k, x % q);
  }

  /** Euclidean division has one quotient and one remainder. */
  lemma DivUnique(n: int, q: int, d: int, m: int)
    requires q > 0 && 0 <= m < q && n == q * d + m
    ensures n / q == d && n % q == m
  {
    var d' := n / q;
    var m' := n % q;
    assert n == q * d' + m';
    assert q * (d - d') == m' - m;
    if d > d' {
      MulMonotone(1, d - d', q);
      assert false;
    } else if d < d' {
      MulMonotone(1, d' - d, q);
      assert false;
    }
  }

  /** The reward never decreases with time, nor with the emission rate. */
  lemma RewardMonotone(a: nat, b: nat, e: nat, f: nat)
    requires a <= b && e <= f
    ensures Reward(a, e) <= Reward(b, f)
  {
    MulMonotone(a, b, e);
    MulMonotone(e, f, b);
    assert b * e == e * b && b * f == f * b;
    MulMonotone(a * e, b * f, NANOS);
    DivMonotone(a * e * NANOS, b * f * NANOS, SECONDS_PER_HOUR);
  }

  lemma DivMonotone(x: nat, y: nat, q: nat)
    requires x <= y && q > 0
    ensures x / q <= y / q
  {
    var dx := x / q;
    var dy := y / q;
    assert q * dx + x % q == x && q * dy + y % q == y;
    if dx > dy {
      MulMonotone(dy + 1, dx, q);
      assert false;
    }
  }

  /** Withdrawing at an intermediate instant splits the accrual in two:
      the two payouts together fall short of one payout over the whole
      span by at most one base unit, lost to rounding. */
  lemma RewardSplit(a: nat, b: nat, e: nat)
    ensures Reward(a, e) + Reward(b, e) <= Reward(a + b, e) <= Reward(a, e) + Reward(b, e) + 1
  {
    var x := a * e * NANOS;
    var y := b * e * NANOS;
    assert (a + b) * e * NANOS == x + y;
    var q := SECONDS_PER_HOUR;
    assert x == q * (x / q) + x % q;
    assert y == q * (y / q) + y % q;
    var s := x / q + y / q;
    assert x + y == q * s + (x % q + y % q);
    assert 0 <= x % q + y % q < 2 * q;
    if x % q + y % q < q {
      DivAddMultiple(x % q + y % q, s, q);
    } else {
      DivAddMultiple(x % q + y % q - q, s + 1, q);
    }
  }

  /** A payout that does not panic at `later` does not panic at any
      earlier instant since the stake time either. */
  lemma EmissionFitsEarlier(stakeTime: I64, emission: U64, now: I64, later: I64)
    requires stakeTime <= now <= later
    requires CalcEmission(stakeTime, emission, later).Ok?
    ensures CalcEmission(stakeTime, emission, now).Ok?
    ensures CalcEmission(stakeTime, emission, now).value <= CalcEmission(stakeTime, emission, later).value
  {
    var a := now - stakeTime;
    var b := later - stakeTime;
    MulMonotone(a, b, emission);
    MulMonotone(a * emission, b * emission, NANOS);
    RewardMonotone(a, b, emission, emission);
  }

  /** `mint` is the reward mint the collection attached. */
  predicate IsRewardMint(c: Collection, mint: Address) {
    c.tokenMint == Some(mint)
  }

  // ---------------------------------------------------------------- custody invariant

  /** The escrow of `mint` exists, holds exactly that NFT and is owned by
      the program's NFT authority. */
  predicate Escrowed(l: Ledger, mint: Address) {
    && NftEscrowPda(mint) in l.tokens
    && l.tokens[NftEscrowPda(mint)] == TokenAccount(mint, NftAuthority, 1)
  }

  /** Stake records and escrows correspond one to one: every record sits at
      the stake address of a mint whose NFT is held in escrow and names a
      wallet as its owner, and every escrow account belongs to a record. */
  predicate Backed(v: Vault) {
    && (forall k :: k in v.stakes ==> k.StakePda? && Escrowed(v.ledger, k.mint) && IsWallet(v.stakes[k].owner))
    && (forall e :: e in v.ledger.tokens && e.NftEscrowPda? ==> StakePda(e.mint) in v.stakes)
  }
}

=== FILE: stake_nft.dfy ===
/** `stake_nft`: a holder of a member NFT locks it in a program escrow and
    starts accruing the collection's reward token. */
module StakeDeposit {
  import opened Keys
  import opened Errors
  import opened Wrappers
  import opened Ints
  import opened Ledger
  import opened Metadata
  import opened Registry
  import opened StakeState

  datatype StakeNftArgs = StakeNftArgs(
    collection: Address,    // the collection record's address
    sendAccount: Address,   // the signer's token account holding the NFT
    mint: Address,          // the NFT's mint
    signer: Address)

  /** The instruction's account constraints, in field order. On success,
      the ledger with the new escrow, still owned by the signer. */
  function CheckAccounts(v: Vault, reg: Registry, oracle: Oracle, a: StakeNftArgs): (r: Result<Ledger>)
    ensures StakePda(a.mint) in v.stakes ==> r == Err(Framework(AccountAlreadyInUse))
    ensures NftEscrowPda(a.mint) in v.ledger.tokens ==> r == Err(Framework(AccountAlreadyInUse))
    ensures r.Ok? <==>
      && StakePda(a.mint) !in v.stakes
      && NftEscrowPda(a.mint) !in v.ledger.tokens
      && a.mint in v.ledger.mints && v.ledger.mints[a.mint].decimals == 0
      && a.collection in reg
      && CheckMember(v.ledger, oracle, a.sendAccount, a.signer, Some(a.mint), reg[a.collection].verifiedCollectionKey).Ok?
    ensures r.Ok? ==> r.value.tokens == v.ledger.tokens[NftEscrowPda(a.mint) := TokenAccount(a.mint, a.signer, 0)]
    ensures r.Ok? ==> r.value.lamports == v.ledger.lamports && r.value.mints == v.ledger.mints
  {
    var l := v.ledger;
    :- Need(StakePda(a.mint) !in v.stakes, Framework(AccountAlreadyInUse));
    :- Need(NftEscrowPda(a.mint) !in l.tokens, Framework(AccountAlreadyInUse));
    :- Need(a.mint in l.mints, Framework(NotInitialized));
    var l1 := CreateTokenAccount(l, NftEscrowPda(a.mint), a.mint, a.signer);
    :- Need(a.collection in reg, Framework(NotInitialized));
    :- Need(a.sendAccount in l.tokens, Framework(NotInitialized));
    :- Need(l.tokens[a.sendAccount].owner == a.signer, Framework(ConstraintTokenOwner));
    :- Need(l.tokens[a.sendAccount].mint == a.mint, Framework(ConstraintTokenMint));
    :- Need(l.tokens[a.sendAccount].amount == 1, Program(TokenNotOne));
    :- Need(l.mints[a.mint].decimals == 0, Framework(ConstraintMintDecimals));
    var _ :- CheckMember(l, oracle, a.sendAccount, a.signer, Some(a.mint), reg[a.collection].verifiedCollectionKey);
    Ok(l1)
  }

  /** `stake_nft_handler`: with the staking module on, one token moves from
      the send account into the escrow, and the escrow is handed to the
      program's NFT authority. */
  function Handler(l: Ledger, c: Collection, a: StakeNftArgs): (r: Result<Ledger>)
    ensures !c.isStaking ==> r == Err(Program(ModuleNotActive))
    ensures r.Ok? ==> c.isStaking
    ensures r.Ok? <==>
      && c.isStaking
      && TransferTokens(l, a.sendAccount, NftEscrowPda(a.mint), 1, a.signer).Ok?
      && l.tokens[NftEscrowPda(a.mint)].owner == a.signer
    ensures r.Ok? && a.sendAccount != NftEscrowPda(a.mint) ==>
      var e := l.tokens[NftEscrowPda(a.mint)];
      r.value.tokens == l.tokens[a.sendAccount := l.tokens[a.sendAccount].(amount := l.tokens[a.sendAccount].amount - 1)]
                                [NftEscrowPda(a.mint) := e.(amount := e.amount + 1, owner := NftAuthority)]
    ensures r.Ok? ==> r.value.lamports == l.lamports && r.value.mints == l.mints
  {
    if !c.isStaking then Err(Program(ModuleNotActive)) else
    var l2 :- TransferTokens(l, a.sendAccount, NftEscrowPda(a.mint), 1, a.signer);
    var l3 :- SetOwner(l2, NftEscrowPda(a.mint), a.signer, NftAuthority);
    Ok(l3)
  }

  /** `stake_nft`. Exactly the admissible calls succeed. The send account
      is emptied, the escrow appears holding the NFT under the program's
      NFT authority, and a record of the signer, the send account, the
      collection and `now` is written at the mint's stake address; nothing
      else changes. */
  function StakeNft(v: Vault, reg: Registry, oracle: Oracle, now: I64, a: StakeNftArgs): (r: Result<Vault>)
    ensures StakePda(a.mint) in v.stakes ==> r == Err(Framework(AccountAlreadyInUse))
    ensures r.Ok? <==> CheckAccounts(v, reg, oracle, a).Ok? && reg[a.collection].isStaking
    ensures CheckAccounts(v, reg, oracle, a).Ok? && !reg[a.collection].isStaking ==> r == Err(Program(ModuleNotActive))
    ensures r.Ok? ==> r.value.stakes == v.stakes[StakePda(a.mint) := Stake(a.signer, now, a.sendAccount, a.collection)]
    ensures r.Ok? ==> (r.value.ledger.tokens ==
      v.ledger.tokens[a.sendAccount := v.ledger.tokens[a.sendAccount].(amount := 0)]
                     [NftEscrowPda(a.mint) := TokenAccount(a.mint, NftAuthority, 1)])
    ensures r.Ok? ==> r.value.ledger.lamports == v.ledger.lamports && r.value.ledger.mints == v.ledger.mints
  {
    var l1 :- CheckAccounts(v, reg, oracle, a);
    var l3 :- Handler(l1, reg[a.collection], a);
    Ok(Vault(v.stakes[StakePda(a.mint) := StakeState.New(a.signer, a.sendAccount, a.collection, now)], l3))
  }

  /** A mint is staked at most once at a time: a second stake of the same
      mint fails, whoever signs it. */
  lemma StakeTwiceFails(v: Vault, reg: Registry, oracle: Oracle, now1: I64, now2: I64, a: StakeNftArgs, b: StakeNftArgs)
    requires StakeNft(v, reg, oracle, now1, a).Ok? && b.mint == a.mint
    ensures StakeNft(StakeNft(v, reg, oracle, now1, a).value, reg, oracle, now2, b) == Err(Framework(AccountAlreadyInUse))
  {
  }

  /** Staking moves a token, it neither mints nor burns. */
  lemma StakeKeepsSupply(v: Vault, reg: Registry, oracle: Oracle, now: I64, a: StakeNftArgs, m: Address)
    requires StakeNft(v, reg, oracle, now, a).Ok?
    ensures Supply(StakeNft(v, reg, oracle, now, a).value.ledger, m) == Supply(v.ledger, m)
  {
    var l1 := CheckAccounts(v, reg, oracle, a).value;
    var l2 := TransferTokens(l1, a.sendAccount, NftEscrowPda(a.mint), 1, a.signer).value;
    assert l1 == CreateTokenAccount(v.ledger, NftEscrowPda(a.mint), a.mint, a.signer);
    assert Supply(l2, m) == Supply(l1, m);
  }

  /** Staking keeps records and escrows in correspondence. */
  lemma StakeKeepsBacked(v: Vault, reg: Registry, oracle: Oracle, now: I64, a: StakeNftArgs)
    requires Backed(v) && IsWallet(a.signer)
    requires StakeNft(v, reg, oracle, now, a).Ok?
    ensures Backed(StakeNft(v, reg, oracle, now, a).value)
  {
    var w := StakeNft(v, reg, oracle, now, a).value;
    var send := a.sendAccount;
    assert send != NftEscrowPda(a.mint);
    forall k | k in w.stakes
      ensures k.StakePda? && Escrowed(w.ledger, k.mint) && IsWallet(w.stakes[k].owner)
    {
      if k != StakePda(a.mint) {
        assert k in v.stakes && Escrowed(v.ledger, k.mint);
        // the send account is owned by the signer, a wallet, so it is no escrow
        assert send != NftEscrowPda(k.mint);
      }
    }
  }
}

=== FILE: sums.dfy ===
/** Totals over maps, used to state conservation of lamports and tokens. */
module Sums {

  /** The sum of all values of `m`. */
  ghost function Sum<K>(m: map<K, nat>): nat
    decreases |m|
  {
    if |m| == 0 then 0 else var k := Pick(m); m[k] + Sum(m - {k})
  }

  /** Some key of a non-empty map. */
  ghost function Pick<K>(m: map<K, nat>): (k: K)
    requires |m| != 0
    ensures k in m
  {
    assert m.Keys != {};
    var k :| k in m; k
  }

  /** The value stored under `k`, or 0 when `k` is absent. */
  function Get<K>(m: map<K, nat>, k: K): nat {
    if k in m then m[k] else 0
  }

  /** Any key can be taken out first: the choice made by `Sum` does not matter. */
  lemma {:induction false} SumRemove<K>(m: map<K, nat>, k: K)
    requires k in m
    ensures Sum(m) == m[k] + Sum(m - {k})
    decreases |m|
  {
    var j := Pick(m);
    if j != k {
      var mj := m - {j};
      var mk := m - {k};
      assert k in mj && j in mk;
      assert mj.Keys == m.Keys - {j};
      assert mk.Keys == m.Keys - {k};
      SumRemove(mj, k);
      SumRemove(mk, j);
      assert mj - {k} == mk - {j};
    }
  }

  /** Overwriting (or adding) one entry changes the sum by the difference. */
  lemma SumUpdate<K>(m: map<K, nat>, k: K, v: nat)
    ensures Sum(m[k := v]) == Sum(m) - Get(m, k) + v
  {
    var u := m[k := v];
    SumRemove(u, k);
    assert u - {k} == m - {k};
    if k in m {
      SumRemove(m, k);
    } else {
      assert m - {k} == m;
    }
  }

  /** Removing one entry lowers the sum by its value. */
  lemma SumDelete<K>(m: map<K, nat>, k: K)
    ensures Sum(m - {k}) == Sum(m) - Get(m, k)
  {
    if k in m {
      SumRemove(m, k);
    } else {
      assert m - {k} == m;
    }
  }
}

=== FILE: trade_state.dfy ===
/** The trade record and what the four trade instructions share: the escrow
    addresses, the amount rules of each trade type and the checks on a
    party's token send account. */
module TradeState {
  import opened Keys
  import opened Errors
  import opened Wrappers
  import opened Ints
  import opened Ledger

  datatype TradeType = Sol | Spl | Both

  /** The two legs of a `[u64; 2]` amount: `one` is what party one puts in
      (index 0), `two` what party two puts in (index 1). */
  datatype Slots = Slots(one: U64, two: U64)

  datatype Trade = Trade(
    partyOne: Address,
    partyTwo: Address,
    solAmount: Slots,
    splAmount: Slots,
    oneSendAddress: Option<Address>,
    oneMint: Option<Address>,
    twoSendAddress: Option<Address>,
    twoReceiveAddress: Option<Address>,
    twoMint: Option<Address>,
    time: I64,              // creation time
    isConfirmed: bool,      // accepted by party two
    collection: Address)

  /** Trade records and the ledger they hold custody in. */
  datatype Book = Book(trades: map<Address, Trade>, ledger: Ledger)

  /** `Trade::LEN`. */
  const LEN: nat := 8 + 32 + 32 + 16 + 16 + 1 + 32 + 1 + 32 + 1 + 32 + 8 + 1 + 32 + 2 + 64

  function OptionSize(o: Option<Address>): nat {
    if o.Some? then 1 + 32 else 1
  }

  /** Borsh size of a trade record. */
  function EncodedSize(t: Trade): nat {
    32 + 32 + 2 * 8 + 2 * 8
    + OptionSize(t.oneSendAddress) + OptionSize(t.oneMint) + OptionSize(t.twoSendAddress)
    + OptionSize(t.twoReceiveAddress) + OptionSize(t.twoMint)
    + 8 + 1 + 32
  }

  /** The space budget fits every trade record, and is exactly the size of
      one whose five optional keys are all present. */
  lemma LenIsMaximalEncoding(t: Trade)
    ensures 8 + EncodedSize(t) <= LEN
    ensures 8 + EncodedSize(t) == LEN <==>
      t.oneSendAddress.Some? && t.oneMint.Some? && t.twoSendAddress.Some? && t.twoReceiveAddress.Some? && t.twoMint.Some?
    ensures LEN == 310
  {
  }

  /** `Trade::new`: party one's offer, not yet accepted. */
  function New(partyOne: Address, partyTwo: Address, solAmount: U64, splAmount: U64,
               oneSendAddress: Option<Address>, time: I64, collection: Address, oneMint: Option<Address>): (t: Trade)
    ensures t.partyOne == partyOne && t.partyTwo == partyTwo && t.collection == collection
    ensures t.solAmount == Slots(solAmount, 0) && t.splAmount == Slots(splAmount, 0)
    ensures t.oneSendAddress == oneSendAddress && t.oneMint == oneMint
    ensures t.twoSendAddress.None? && t.twoReceiveAddress.None? && t.twoMint.None?
    ensures t.time == time && !t.isConfirmed
  {
    Trade(partyOne, partyTwo, Slots(solAmount, 0), Slots(splAmount, 0), oneSendAddress, oneMint,
          None, None, None, time, false, collection)
  }

  /** Where a trade between these parties in this collection is stored. */
  function TradeAddress(t: Trade): Address {
    TradePda(t.partyOne, t.partyTwo, t.collection)
  }

  function EscrowOne(t: Trade): Address {
    EscrowOnePda(t.partyOne, t.partyTwo, t.collection)
  }

  function EscrowTwo(t: Trade): Address {
    EscrowTwoPda(t.partyOne, t.partyTwo, t.collection)
  }

  /** Every record sits at the address derived from its own parties and
      collection, so there is at most one open trade per such triple. */
  predicate StoredAtDerivedAddress(trades: map<Address, Trade>) {
    forall a :: a in trades ==> a == TradeAddress(trades[a])
  }

  /** The amounts a trade type admits for one party's leg. */
  predicate FitsType(tradeType: TradeType, sol: U64, spl: U64) {
    match tradeType
    case Sol => sol > 0 && spl == 0
    case Spl => sol == 0 && spl > 0
    case Both => sol > 0 && spl > 0
  }

  /** The mint a party's leg records: the mint account passed, but only when
      tokens are actually offered. */
  function RecordedMint(mint: Option<Address>, splAmount: U64): (r: Option<Address>)
    ensures r.Some? <==> mint.Some? && splAmount > 0
    ensures r.Some? ==> r == mint
  {
    if mint.Some? && splAmount > 0 then mint else None
  }

  /** The Anchor constraints on an optional token send account: when passed,
      it holds `mint`, belongs to `owner` and covers `splAmount`. */
  function CheckSendAccount(l: Ledger, send: Option<Address>, mint: Option<Address>, owner: Address, splAmount: U64): (o: Outcome)
    ensures o.Pass? <==>
      send.Some? ==>
        && send.value in l.tokens && mint.Some?
        && l.tokens[send.value].mint == mint.value
        && l.tokens[send.value].owner == owner
        && l.tokens[send.value].amount >= splAmount
    ensures (&& send.Some? && send.value in l.tokens && mint.Some?
             && l.tokens[send.value].mint == mint.value && l.tokens[send.value].owner == owner
             && l.tokens[send.value].amount < splAmount) ==> o == Fail(Program(InsufficientBalance))
  {
    match send
    case None => Pass
    case Some(a) =>
      if a !in l.tokens then Fail(Framework(NotInitialized))
      else if mint.None? then Fail(Framework(ConstraintAccountIsNone))
      else if l.tokens[a].mint != mint.value then Fail(Framework(ConstraintTokenMint))
      else if l.tokens[a].owner != owner then Fail(Framework(ConstraintTokenOwner))
      else if l.tokens[a].amount < splAmount then Fail(Program(InsufficientBalance))
      else Pass
  }

  /** An optional account the instruction constrains to equal a key recorded
      in the trade: a recorded `None` is unwrapped (a panic), a different key
      is rejected with `mismatch`. */
  function CheckRecorded(passed: Option<Address>, recorded: Option<Address>, mismatch: Error): (o: Outcome)
    ensures o.Pass? <==> passed.Some? ==> recorded == passed
    ensures passed.Some? && recorded.None? ==> o == Fail(Panic)
    ensures passed.Some? && recorded.Some? && recorded != passed ==> o == Fail(mismatch)
  {
    match passed
    case None => Pass
    case Some(p) =>
      if recorded.None? then Fail(Panic)
      else if recorded.value != p then Fail(mismatch)
      else Pass
  }

  /** An escrow pays `amount` out to `to` under the program's escrow
      authority and is then closed, its rent going to `rentTo`. */
  function ReleaseEscrow(l: Ledger, escrow: Address, to: Address, amount: U64, rentTo: Address): (r: Result<Ledger>)
    requires amount > 0
    ensures r.Ok? <==>
      && TransferTokens(l, escrow, to, amount, EscrowAuthority).Ok?
      && CloseTokenAccount(TransferTokens(l, escrow, to, amount, EscrowAuthority).value, escrow, rentTo, EscrowAuthority).Ok?
    ensures r.Ok? ==> escrow != to && escrow != rentTo
    ensures r.Ok? ==> Amount(l, escrow) == amount && l.tokens[escrow].owner == EscrowAuthority
    ensures r.Ok? ==> escrow !in r.value.tokens && r.value.tokens.Keys == l.tokens.Keys - {escrow}
    ensures r.Ok? ==> forall x {:trigger Amount(r.value, x)} :: x != escrow ==>
      Amount(r.value, x) == Amount(l, x) + (if x == to then amount else 0)
    ensures r.Ok? ==> forall x {:trigger r.value.tokens[x]} :: x in r.value.tokens ==>
      r.value.tokens[x].mint == l.tokens[x].mint && r.value.tokens[x].owner == l.tokens[x].owner
    ensures r.Ok? ==> Lamports(r.value, escrow) == 0
    ensures r.Ok? ==> Lamports(r.value, rentTo) == Lamports(l, rentTo) + Lamports(l, escrow)
    ensures r.Ok? ==> forall a {:trigger Lamports(r.value, a)} :: a != escrow && a != rentTo ==> Lamports(r.value, a) == Lamports(l, a)
    ensures r.Ok? ==> r.value.mints == l.mints
    ensures r.Ok? ==> TotalLamports(r.value) == TotalLamports(l)
    ensures r.Ok? ==> forall m {:trigger Supply(r.value, m)} :: Supply(r.value, m) == Supply(l, m)
  {
    var l1 :- TransferTokens(l, escrow, to, amount, EscrowAuthority);
    assert Amount(l1, escrow) == Amount(l, escrow) - amount + (if escrow == to then amount else 0);
    var l2 :- CloseTokenAccount(l1, escrow, rentTo, EscrowAuthority);
    assert forall x {:trigger Amount(l2, x)} :: x != escrow ==> Amount(l2, x) == Amount(l1, x);
    Ok(l2)
  }

  /** One party's contribution as an offering instruction sees it: who pays,
      the trade account the SOL goes to, that party's escrow and whether it
      was passed, the send account, the amounts and the declared type. */
  datatype Leg = Leg(
    party: Address,
    tradeAccount: Address,
    escrow: Address,
    escrowPassed: bool,
    send: Option<Address>,
    solAmount: U64,
    splAmount: U64,
    tradeType: TradeType)

  /** `transfer_spl` of the offering instructions: the tokens move from the
      send account into the escrow, whose owner then becomes the escrow authority. */
  function EscrowTokens(l: Ledger, g: Leg): (r: Result<Ledger>)
    ensures g.splAmount == 0 ==> r == Err(Program(TokenAmountZero))
    ensures g.splAmount > 0 && g.send.None? ==> r == Err(Program(AccountNotProvided))
    ensures g.splAmount > 0 && g.send.Some? && !g.escrowPassed ==> r == Err(Panic)
    ensures r.Ok? ==> g.splAmount > 0 && g.send.Some? && g.escrowPassed
    ensures r.Ok? ==> forall x {:trigger Amount(r.value, x)} ::
      Amount(r.value, x) == Amount(l, x) - (if x == g.send.value then g.splAmount else 0)
                                         + (if x == g.escrow then g.splAmount else 0)
    ensures r.Ok? ==> g.send.value in l.tokens && g.escrow in l.tokens
    ensures r.Ok? ==> g.send.value in r.value.tokens && g.escrow in r.value.tokens
    ensures r.Ok? ==> r.value.tokens == l.tokens[g.send.value := r.value.tokens[g.send.value]]
                                                [g.escrow := r.value.tokens[g.escrow]]
    ensures r.Ok? ==> r.value.tokens[g.escrow].owner == EscrowAuthority
    ensures r.Ok? ==> r.value.tokens[g.escrow].mint == l.tokens[g.escrow].mint == l.tokens[g.send.value].mint
    ensures r.Ok? ==> r.value.lamports == l.lamports && r.value.mints == l.mints
    ensures r.Ok? ==> forall m {:trigger Supply(r.value, m)} :: Supply(r.value, m) == Supply(l, m)
  {
    if g.splAmount == 0 then Err(Program(TokenAmountZero)) else
    match g.send
    case None => Err(Program(AccountNotProvided))
    case Some(send) =>
      :- Need(g.escrowPassed, Panic);
      var l1 :- TransferTokens(l, send, g.escrow, g.splAmount, g.party);
      assert l1.tokens == l.tokens[send := l1.tokens[send]][g.escrow := l1.tokens[g.escrow]] by {
        forall x | x in l.tokens && x != send && x != g.escrow
          ensures l1.tokens[x] == l.tokens[x]
        {
          assert Amount(l1, x) == Amount(l, x);
        }
      }
      SetOwner(l1, g.escrow, g.party, EscrowAuthority)
  }

  /** The trade-type dispatch shared by `create_trade_handler` and
      `accept_trade_handler`: the amounts must fit the type, a SOL-only leg
      must not pass an escrow, and the leg moves into custody (tokens first,
      then SOL to the trade account). */
  function LockLeg(l: Ledger, g: Leg): (r: Result<Ledger>)
    ensures g.tradeType == Sol && g.solAmount == 0 ==> r == Err(Program(TokenAmountZero))
    ensures g.tradeType == Sol && g.solAmount > 0 && g.splAmount > 0 ==> r == Err(Program(AmountNotZero))
    ensures g.tradeType == Sol && g.solAmount > 0 && g.splAmount == 0 && g.escrowPassed
            ==> r == Err(Program(AccountNotRequired))
    ensures g.tradeType == Spl && g.solAmount > 0 ==> r == Err(Program(AmountNotZero))
    ensures g.tradeType == Spl && g.solAmount == 0 && g.splAmount == 0 ==> r == Err(Program(TokenAmountZero))
    ensures g.tradeType == Both && g.solAmount == 0 ==> r == Err(Program(TokenAmountZero))
    ensures g.tradeType == Both && g.solAmount > 0 && g.splAmount == 0 ==> r == Err(Program(TokenAmountZero))
    ensures r.Ok? ==> FitsType(g.tradeType, g.solAmount, g.splAmount)
    ensures r.Ok? && g.tradeType == Sol ==> !g.escrowPassed && r.value.tokens == l.tokens
    ensures r.Ok? && g.tradeType != Sol ==>
      EscrowTokens(l, g).Ok? && r.value.tokens == EscrowTokens(l, g).value.tokens
    ensures r.Ok? ==> forall x {:trigger Lamports(r.value, x)} ::
      Lamports(r.value, x) == Lamports(l, x) - (if x == g.party then g.solAmount else 0)
                                             + (if x == g.tradeAccount then g.solAmount else 0)
    ensures r.Ok? ==> r.value.mints == l.mints
    ensures r.Ok? ==> TotalLamports(r.value) == TotalLamports(l)
    ensures r.Ok? ==> forall m {:trigger Supply(r.value, m)} :: Supply(r.value, m) == Supply(l, m)
  {
    match g.tradeType
    case Sol =>
      :- Need(g.solAmount > 0, Program(TokenAmountZero));
      :- Need(g.splAmount == 0, Program(AmountNotZero));
      :- Need(!g.escrowPassed, Program(AccountNotRequired));
      TransferLamports(l, g.party, g.tradeAccount, g.solAmount)
    case Spl =>
      :- Need(g.solAmount == 0, Program(AmountNotZero));
      EscrowTokens(l, g)
    case Both =>
      :- Need(g.solAmount > 0, Program(TokenAmountZero));
      var l1 :- EscrowTokens(l, g);
      TransferLamports(l1, g.party, g.tradeAccount, g.solAmount)
  }

  /** The direct lamport moves of the settling instructions, which subtract
      from the trade account's balance: an underflow aborts. */
  function MoveLamports(l: Ledger, from: Address, to: Address, amount: U64): (r: Result<Ledger>)
    ensures r.Ok? <==> Lamports(l, from) >= amount
    ensures r.Err? ==> r.error == Panic
    ensures r.Ok? ==> forall a {:trigger Lamports(r.value, a)} ::
      Lamports(r.value, a) == Lamports(l, a) - (if a == from then amount else 0) + (if a == to then amount else 0)
    ensures r.Ok? ==> r.value.tokens == l.tokens && r.value.mints == l.mints
    ensures r.Ok? ==> TotalLamports(r.value) == TotalLamports(l)
    ensures r.Ok? ==> forall m {:trigger Supply(r.value, m)} :: Supply(r.value, m) == Supply(l, m)
  {
    if Lamports(l, from) < amount then Err(Panic) else TransferLamports(l, from, to, amount)
  }

  /** `close = party_one` on the trade record: the record is removed and its
      lamports (rent plus whatever SOL is left) go to party one. */
  function CloseTrade(b: Book, trade: Address, rentTo: Address): (r: Book)
    ensures r.trades == b.trades - {trade}
    ensures r.ledger == SweepLamports(b.ledger, trade, rentTo)
    ensures TotalLamports(r.ledger) == TotalLamports(b.ledger)
    ensures forall m {:trigger Supply(r.ledger, m)} :: Supply(r.ledger, m) == Supply(b.ledger, m)
  {
    Book(b.trades - {trade}, SweepLamports(b.ledger, trade, rentTo))
  }

  /** Removing a record keeps every other record at its derived address. */
  lemma RemovalKeepsDerivedAddresses(trades: map<Address, Trade>, a: Address)
    requires StoredAtDerivedAddress(trades)
    ensures StoredAtDerivedAddress(trades - {a})
  {
  }
  /** `transfer_spl` of the settling instructions: an escrow that holds a
      leg pays it to `to` and is closed to `rentTo`; a missing escrow or
      destination account is unwrapped (a panic). */
  function PayOut(l: Ledger, escrowPassed: bool, escrow: Address, to: Option<Address>, amount: U64, rentTo: Address): (r: Result<Ledger>)
    ensures amount == 0 ==> r == Ok(l)
    ensures amount > 0 && (!escrowPassed || to.None?) ==> r == Err(Panic)
    ensures amount > 0 && escrowPassed && to.Some? ==> r == ReleaseEscrow(l, escrow, to.value, amount, rentTo)
  {
    if amount == 0 then Ok(l)
    else if !escrowPassed || to.None? then Err(Panic)
    else ReleaseEscrow(l, escrow, to.value, amount, rentTo)
  }

  /** `transfer_sol`: a positive SOL leg leaves the trade account. */
  function PaySol(l: Ledger, trade: Address, to: Address, amount: U64): (r: Result<Ledger>)
    ensures amount == 0 ==> r == Ok(l)
    ensures amount > 0 ==> r == MoveLamports(l, trade, to, amount)
  {
    if amount > 0 then MoveLamports(l, trade, to, amount) else Ok(l)
  }

  /** The lamports a pay-out leaves at `x`: the escrow is emptied into `rentTo`. */
  lemma PayOutLamports(l: Ledger, escrowPassed: bool, escrow: Address, to: Option<Address>, amount: U64, rentTo: Address, x: Address)
    requires PayOut(l, escrowPassed, escrow, to, amount, rentTo).Ok?
    ensures Lamports(PayOut(l, escrowPassed, escrow, to, amount, rentTo).value, x) ==
      if amount == 0 then Lamports(l, x)
      else if x == escrow then 0
      else if x == rentTo then Lamports(l, rentTo) + Lamports(l, escrow)
      else Lamports(l, x)
  {
  }

  /** The balance a pay-out leaves at `x`: the escrow's leg reaches `to` and the escrow is gone. */
  lemma PayOutAmount(l: Ledger, escrowPassed: bool, escrow: Address, to: Option<Address>, amount: U64, rentTo: Address, x: Address)
    requires PayOut(l, escrowPassed, escrow, to, amount, rentTo).Ok?
    ensures var r := PayOut(l, escrowPassed, escrow, to, amount, rentTo).value;
      && Amount(r, x) == (if amount == 0 then Amount(l, x)
                          else if x == escrow then 0
                          else Amount(l, x) + (if x == to.value then amount else 0))
      && r.tokens.Keys == (if amount == 0 then l.tokens.Keys else l.tokens.Keys - {escrow})
  {
  }

  /** Each step of settlement conserves lamports and every mint's supply. */
  lemma PayOutConserves(l: Ledger, escrowPassed: bool, escrow: Address, to: Option<Address>, amount: U64, rentTo: Address)
    requires PayOut(l, escrowPassed, escrow, to, amount, rentTo).Ok?
    ensures TotalLamports(PayOut(l, escrowPassed, escrow, to, amount, rentTo).value) == TotalLamports(l)
    ensures forall m {:trigger Supply(PayOut(l, escrowPassed, escrow, to, amount, rentTo).value, m)} ::
      Supply(PayOut(l, escrowPassed, escrow, to, amount, rentTo).value, m) == Supply(l, m)
  {
  }

}

=== FILE: unstake_nft.dfy ===
/** `unstake_nft`: the staker takes the NFT back out of escrow, collects the
    reward accrued since the record's time, and the escrow and the record
    are closed. */
module StakeRelease {
  import opened Keys
  import opened Errors
  import opened Wrappers
  import opened Ints
  import opened Ledger
  import opened Registry
  import opened StakeState

  datatype UnstakeNftArgs = UnstakeNftArgs(
    collection: Address,    // the collection record's address
    sendAccount: Address,   // the account to return the NFT to
    nftMint: Address,       // the staked NFT's mint
    tokenMint: Address,     // the mint to pay the reward in
    owner: Address)         // the signer

  function Escrow(a: UnstakeNftArgs): Address {
    NftEscrowPda(a.nftMint)
  }

  /** The reward is paid into the owner's associated token account. */
  function Receive(a: UnstakeNftArgs): Address {
    AssociatedToken(a.owner, a.tokenMint)
  }

  /** The constraints on the record, the escrow and the collection: the
      record names the collection, the send account and the signer, and
      the escrow holds the staked mint. Returns the record. */
  function CheckRecord(v: Vault, reg: Registry, a: UnstakeNftArgs): (r: Result<Stake>)
    ensures StakePda(a.nftMint) !in v.stakes ==> r == Err(Framework(NotInitialized))
    ensures r.Ok? <==>
      && StakePda(a.nftMint) in v.stakes
      && v.stakes[StakePda(a.nftMint)] == Stake(a.owner, v.stakes[StakePda(a.nftMint)].time, a.sendAccount, a.collection)
      && Escrow(a) in v.ledger.tokens && v.ledger.tokens[Escrow(a)].mint == a.nftMint
      && a.collection in reg
      && a.nftMint in v.ledger.mints
    ensures r.Ok? ==> r.value == v.stakes[StakePda(a.nftMint)]
  {
    var l := v.ledger;
    :- Need(StakePda(a.nftMint) in v.stakes, Framework(NotInitialized));
    var s := v.stakes[StakePda(a.nftMint)];
    :- Need(s.collection == a.collection, Framework(ConstraintHasOne));
    :- Need(s.nftSendAddress == a.sendAccount, Framework(ConstraintHasOne));
    :- Need(s.owner == a.owner, Framework(ConstraintHasOne));
    :- Need(Escrow(a) in l.tokens, Framework(NotInitialized));
    :- Need(l.tokens[Escrow(a)].mint == a.nftMint, Framework(ConstraintTokenMint));
    :- Need(a.collection in reg, Framework(NotInitialized));
    :- Need(a.nftMint in l.mints, Framework(NotInitialized));
    Ok(s)
  }

  /** The source's constraint on the send account: it must be the owner's
      associated token account for the NFT, created if missing. */
  function SendAccountAsWritten(l: Ledger, a: UnstakeNftArgs): (r: Result<Ledger>)
    ensures a.sendAccount != AssociatedToken(a.owner, a.nftMint) ==> r == Err(Framework(AccountNotAssociated))
    ensures r.Ok? <==>
      && a.sendAccount == AssociatedToken(a.owner, a.nftMint)
      && InitTokenIfNeeded(l, a.sendAccount, a.nftMint, a.owner).Ok?
    ensures r.Ok? ==> r == InitTokenIfNeeded(l, a.sendAccount, a.nftMint, a.owner)
  {
    if a.sendAccount != AssociatedToken(a.owner, a.nftMint) then Err(Framework(AccountNotAssociated)) else
    InitTokenIfNeeded(l, a.sendAccount, a.nftMint, a.owner)
  }

  /** The corrected constraint: the recorded send account must hold the NFT's
      mint under the signer, wherever it lives. The owner's associated account
      is still created when missing, as the source does; any other recorded
      account must still exist. */
  function SendAccount(l: Ledger, a: UnstakeNftArgs): (r: Result<Ledger>)
    ensures r.Ok? <==>
      if a.sendAccount in l.tokens then
        l.tokens[a.sendAccount].mint == a.nftMint && l.tokens[a.sendAccount].owner == a.owner
      else a.sendAccount == AssociatedToken(a.owner, a.nftMint)
    ensures a.sendAccount !in l.tokens && a.sendAccount != AssociatedToken(a.owner, a.nftMint) ==>
            r == Err(Framework(NotInitialized))
    ensures r.Ok? ==>
      && a.sendAccount in r.value.tokens
      && r.value.tokens[a.sendAccount].mint == a.nftMint && r.value.tokens[a.sendAccount].owner == a.owner
    ensures r.Ok? ==> r.value.tokens == l.tokens[a.sendAccount := r.value.tokens[a.sendAccount]]
    ensures r.Ok? && a.sendAccount in l.tokens ==> r.value == l
    ensures r.Ok? ==> r.value.lamports == l.lamports && r.value.mints == l.mints
    ensures r.Ok? ==> forall x {:trigger Amount(r.value, x)} :: Amount(r.value, x) == Amount(l, x)
    ensures r.Ok? ==> forall m {:trigger Supply(r.value, m)} :: Supply(r.value, m) == Supply(l, m)
  {
    if a.sendAccount == AssociatedToken(a.owner, a.nftMint) then InitTokenIfNeeded(l, a.sendAccount, a.nftMint, a.owner)
    else if a.sendAccount !in l.tokens then Err(Framework(NotInitialized))
    else if l.tokens[a.sendAccount].mint != a.nftMint then Err(Framework(ConstraintTokenMint))
    else if l.tokens[a.sendAccount].owner != a.owner then Err(Framework(ConstraintTokenOwner))
    else Ok(l)
  }

  /** On the owner's associated account the two constraints are the same. */
  lemma SendAccountAgreesOnAssociated(l: Ledger, a: UnstakeNftArgs)
    requires a.sendAccount == AssociatedToken(a.owner, a.nftMint)
    ensures SendAccount(l, a) == SendAccountAsWritten(l, a)
    ensures a.sendAccount !in l.tokens ==> SendAccount(l, a).Ok?
  {
  }

  /** The remaining constraints: the receive account (created if missing),
      the NFT mint's decimals and the reward mint. */
  function CheckRest(l: Ledger, a: UnstakeNftArgs): (r: Result<Ledger>)
    ensures r.Ok? <==>
      && a.tokenMint in l.mints
      && InitTokenIfNeeded(l, Receive(a), a.tokenMint, a.owner).Ok?
      && a.nftMint in l.mints && l.mints[a.nftMint].decimals == 0
    ensures r.Ok? ==> r == InitTokenIfNeeded(l, Receive(a), a.tokenMint, a.owner)
  {
    if a.tokenMint !in l.mints then Err(Framework(NotInitialized)) else
    var l1 :- InitTokenIfNeeded(l, Receive(a), a.tokenMint, a.owner);
    :- Need(a.nftMint in l.mints, Framework(NotInitialized));
    :- Need(l.mints[a.nftMint].decimals == 0, Framework(ConstraintMintDecimals));
    Ok(l1)
  }

  /** The handler's three token-program calls: the NFT moves from the
      escrow back to the send account, the reward is minted into the receive
      account, and the emptied escrow is closed to the owner. */
  function Release(l: Ledger, a: UnstakeNftArgs, reward: nat): (r: Result<Ledger>)
    ensures r.Ok? ==> Escrow(a) in l.tokens && Escrow(a) !in r.value.tokens
    ensures r.Ok? ==> r.value.mints == l.mints
  {
    var l2 :- TransferTokens(l, Escrow(a), a.sendAccount, 1, NftAuthority);
    var l3 :- MintTo(l2, a.tokenMint, Receive(a), reward, TokenAuthority);
    CloseTokenAccount(l3, Escrow(a), a.owner, NftAuthority)
  }

  /** A release goes through when the escrow holds the NFT under the NFT
      authority, the send account takes that mint, the receive account takes
      the reward mint and the token authority controls the reward mint. */
  lemma ReleaseSucceeds(l: Ledger, a: UnstakeNftArgs, reward: nat)
    requires Escrow(a) in l.tokens && l.tokens[Escrow(a)] == TokenAccount(a.nftMint, NftAuthority, 1)
    requires a.sendAccount in l.tokens && l.tokens[a.sendAccount].mint == a.nftMint && a.sendAccount != Escrow(a)
    requires Receive(a) in l.tokens && l.tokens[Receive(a)].mint == a.tokenMint
    requires a.tokenMint in l.mints && l.mints[a.tokenMint].authority == Some(TokenAuthority)
    requires a.owner != Escrow(a)
    ensures Release(l, a, reward).Ok?
  {
    var l2 := TransferTokens(l, Escrow(a), a.sendAccount, 1, NftAuthority);
    assert l2.Ok?;
    assert Amount(l2.value, Escrow(a)) == 0;
    var l3 := MintTo(l2.value, a.tokenMint, Receive(a), reward, TokenAuthority);
    assert l3.Ok?;
    assert Amount(l3.value, Escrow(a)) == 0;
  }

  /** Balances after a release: the send account gained the NFT, the receive
      account the reward, and every other account but the escrow is as before. */
  lemma ReleaseAmounts(l: Ledger, a: UnstakeNftArgs, reward: nat, x: Address)
    requires Release(l, a, reward).Ok? && x != Escrow(a)
    ensures Amount(Release(l, a, reward).value, x)
            == Amount(l, x) + (if x == a.sendAccount then 1 else 0) + (if x == Receive(a) then reward else 0)
  {
    var l2 := TransferTokens(l, Escrow(a), a.sendAccount, 1, NftAuthority).value;
    var l3 := MintTo(l2, a.tokenMint, Receive(a), reward, TokenAuthority).value;
    var l4 := CloseTokenAccount(l3, Escrow(a), a.owner, NftAuthority).value;
    assert Release(l, a, reward).value == l4;
    assert Amount(l4, x) == Amount(l3, x) by { ClosedAmount(l3, Escrow(a), a.owner, NftAuthority, x); }
    assert Amount(l3, x) == Amount(l2, x) + (if x == Receive(a) then reward else 0);
    assert Amount(l2, x) == Amount(l, x) + (if x == a.sendAccount then 1 else 0);
  }

  lemma ClosedAmount(l: Ledger, acct: Address, dest: Address, authority: Address, x: Address)
    requires CloseTokenAccount(l, acct, dest, authority).Ok? && x != acct
    ensures Amount(CloseTokenAccount(l, acct, dest, authority).value, x) == Amount(l, x)
  {
  }

  /** Lamports after a release: the escrow's go to the owner, the rest stay. */
  lemma ReleaseLamports(l: Ledger, a: UnstakeNftArgs, reward: nat)
    requires Release(l, a, reward).Ok?
    ensures a.owner != Escrow(a)
    ensures Lamports(Release(l, a, reward).value, Escrow(a)) == 0
    ensures Lamports(Release(l, a, reward).value, a.owner) == Lamports(l, a.owner) + Lamports(l, Escrow(a))
    ensures forall x {:trigger Lamports(Release(l, a, reward).value, x)} :: x != Escrow(a) && x != a.owner ==>
      Lamports(Release(l, a, reward).value, x) == Lamports(l, x)
  {
    var l2 := TransferTokens(l, Escrow(a), a.sendAccount, 1, NftAuthority).value;
    var l3 := MintTo(l2, a.tokenMint, Receive(a), reward, TokenAuthority).value;
    assert l3.lamports == l.lamports;
    var l4 := CloseTokenAccount(l3, Escrow(a), a.owner, NftAuthority).value;
    assert Release(l, a, reward).value == l4;
    var sw := SweepLamports(l3, Escrow(a), a.owner);
    assert l4.lamports == sw.lamports;
    forall x ensures Lamports(l4, x) == Lamports(sw, x) && Lamports(l3, x) == Lamports(l, x) {
    }
  }

  /** Accounts after a release: only the escrow is gone, and the others keep
      their mints and owners. */
  lemma ReleaseAccounts(l: Ledger, a: UnstakeNftArgs, reward: nat)
    requires Release(l, a, reward).Ok?
    ensures var w := Release(l, a, reward).value;
      && w.tokens.Keys == l.tokens.Keys - {Escrow(a)}
      && forall x :: x in w.tokens ==> w.tokens[x].mint == l.tokens[x].mint && w.tokens[x].owner == l.tokens[x].owner
  {
    var l2 := TransferTokens(l, Escrow(a), a.sendAccount, 1, NftAuthority).value;
    var l3 := MintTo(l2, a.tokenMint, Receive(a), reward, TokenAuthority).value;
    assert SameAccounts(l.tokens, l2.tokens) && SameAccounts(l2.tokens, l3.tokens);
  }

  /** Supply after a release: only the reward mint grows, by the reward. */
  lemma ReleaseSupply(l: Ledger, a: UnstakeNftArgs, reward: nat, m: Address)
    requires Release(l, a, reward).Ok?
    ensures Supply(Release(l, a, reward).value, m) == Supply(l, m) + (if m == a.tokenMint then reward else 0)
  {
    var l2 := TransferTokens(l, Escrow(a), a.sendAccount, 1, NftAuthority).value;
    var l3 := MintTo(l2, a.tokenMint, Receive(a), reward, TokenAuthority).value;
    assert Supply(l2, m) == Supply(l, m);
    assert Supply(l3, m) == Supply(l2, m) + (if m == a.tokenMint then reward else 0);
  }

  /** `unstake_nft_handler`: the reward is computed and the release runs;
      then `close = owner` removes the record and pays its lamports to the
      owner. */
  function Handler(v: Vault, s: Stake, l: Ledger, c: Collection, now: I64, a: UnstakeNftArgs): (r: Result<Vault>)
    ensures CalcEmission(s.time, c.emission, now).Err? ==> r == Err(Panic)
    ensures r.Ok? <==>
      CalcEmission(s.time, c.emission, now).Ok? && Release(l, a, CalcEmission(s.time, c.emission, now).value).Ok?
    ensures r.Ok? ==> r.value == Vault(v.stakes - {StakePda(a.nftMint)},
      SweepLamports(Release(l, a, CalcEmission(s.time, c.emission, now).value).value, StakePda(a.nftMint), a.owner))
  {
    var reward :- CalcEmission(s.time, c.emission, now);
    var l4 :- Release(l, a, reward);
    Ok(Vault(v.stakes - {StakePda(a.nftMint)}, SweepLamports(l4, StakePda(a.nftMint), a.owner)))
  }

  /** What a completed unstake leaves behind, against the vault before it:
      the record is gone and the tokens, supplies and lamports have moved as
      the three predicates below say. */
  ghost predicate Unstaked(v: Vault, w: Vault, a: UnstakeNftArgs, reward: nat) {
    && w.stakes == v.stakes - {StakePda(a.nftMint)}
    && UnstakedTokens(v.ledger, w.ledger, a, reward)
    && UnstakedSupply(v.ledger, w.ledger, a, reward)
    && UnstakedLamports(v.ledger, w.ledger, a)
  }

  /** The NFT is back in the send account and the reward in the receive
      account, the escrow is closed, and no other balance or mint changes. */
  ghost predicate UnstakedTokens(l: Ledger, w: Ledger, a: UnstakeNftArgs, reward: nat) {
    && Escrow(a) !in w.tokens
    && (forall x {:trigger Amount(w, x)} :: x != Escrow(a) ==>
          Amount(w, x) == Amount(l, x) + (if x == a.sendAccount then 1 else 0)
                          + (if x == Receive(a) then reward else 0))
    && w.mints == l.mints
  }

  /** Only the reward mint's supply grows, by the reward. */
  ghost predicate UnstakedSupply(l: Ledger, w: Ledger, a: UnstakeNftArgs, reward: nat) {
    forall m {:trigger Supply(w, m)} :: Supply(w, m) == Supply(l, m) + (if m == a.tokenMint then reward else 0)
  }

  /** The escrow is emptied; when the signer is a wallet (as a signer is),
      the escrow's and the record's lamports have gone to it and every other
      balance is unchanged. */
  ghost predicate UnstakedLamports(l: Ledger, w: Ledger, a: UnstakeNftArgs) {
    && Lamports(w, Escrow(a)) == 0
    && (IsWallet(a.owner) ==>
          && Lamports(w, StakePda(a.nftMint)) == 0
          && Lamports(w, a.owner) == Lamports(l, a.owner) + Lamports(l, Escrow(a)) + Lamports(l, StakePda(a.nftMint))
          && forall x {:trigger Lamports(w, x)} :: x != a.owner && x != Escrow(a) && x != StakePda(a.nftMint) ==>
               Lamports(w, x) == Lamports(l, x))
  }

  /** A successful handler run on a ledger that differs from the vault's only
      by accounts the checks created completes an unstake. */
  lemma HandlerUnstakes(v: Vault, s: Stake, l: Ledger, c: Collection, now: I64, a: UnstakeNftArgs)
    requires Handler(v, s, l, c, now, a).Ok?
    requires forall x {:trigger Amount(l, x)} :: Amount(l, x) == Amount(v.ledger, x)
    requires forall m {:trigger Supply(l, m)} :: Supply(l, m) == Supply(v.ledger, m)
    requires l.lamports == v.ledger.lamports && l.mints == v.ledger.mints
    ensures Unstaked(v, Handler(v, s, l, c, now, a).value, a, CalcEmission(s.time, c.emission, now).value)
  {
    var reward := CalcEmission(s.time, c.emission, now).value;
    var l4 := Release(l, a, reward).value;
    var w := Handler(v, s, l, c, now, a).value;
    assert w.ledger == SweepLamports(l4, StakePda(a.nftMint), a.owner);
    ReleaseTokens(v.ledger, l, a, reward, w.ledger);
    ReleaseSupplies(v.ledger, l, a, reward, w.ledger);
    SweptLamports(v.ledger, l, a, reward);
  }

  lemma ReleaseTokens(v: Ledger, l: Ledger, a: UnstakeNftArgs, reward: nat, w: Ledger)
    requires Release(l, a, reward).Ok?
    requires forall x {:trigger Amount(l, x)} :: Amount(l, x) == Amount(v, x)
    requires l.mints == v.mints
    requires w.tokens == Release(l, a, reward).value.tokens && w.mints == Release(l, a, reward).value.mints
    ensures UnstakedTokens(v, w, a, reward)
  {
    forall x | x != Escrow(a)
      ensures Amount(w, x) == Amount(v, x) + (if x == a.sendAccount then 1 else 0) + (if x == Receive(a) then reward else 0)
    {
      ReleaseAmounts(l, a, reward, x);
      assert Amount(w, x) == Amount(Release(l, a, reward).value, x);
    }
  }

  lemma ReleaseSupplies(v: Ledger, l: Ledger, a: UnstakeNftArgs, reward: nat, w: Ledger)
    requires Release(l, a, reward).Ok?
    requires forall m {:trigger Supply(l, m)} :: Supply(l, m) == Supply(v, m)
    requires w.tokens == Release(l, a, reward).value.tokens
    ensures UnstakedSupply(v, w, a, reward)
  {
    forall m ensures Supply(w, m) == Supply(v, m) + (if m == a.tokenMint then reward else 0) {
      ReleaseSupply(l, a, reward, m);
      assert Supply(w, m) == Supply(Release(l, a, reward).value, m);
    }
  }

  /** The release and the record's close together pay the escrow's and the
      record's lamports to the owner. */
  lemma SweptLamports(v: Ledger, l: Ledger, a: UnstakeNftArgs, reward: nat)
    requires Release(l, a, reward).Ok?
    requires l.lamports == v.lamports
    ensures UnstakedLamports(v, SweepLamports(Release(l, a, reward).value, StakePda(a.nftMint), a.owner), a)
  {
    var l4 := Release(l, a, reward).value;
    var w := SweepLamports(l4, StakePda(a.nftMint), a.owner);
    ReleaseLamports(l, a, reward);
    forall x ensures Lamports(l, x) == Lamports(v, x) {
    }
    if IsWallet(a.owner) {
      assert Lamports(l4, StakePda(a.nftMint)) == Lamports(l, StakePda(a.nftMint));
    }
  }

  /** `unstake_nft` as the source writes it: the NFT can only go back to the
      owner's associated account, and the reward is paid in whatever mint is
      passed. */
  function UnstakeNftAsWritten(v: Vault, reg: Registry, now: I64, a: UnstakeNftArgs): (r: Result<Vault>)
    ensures StakePda(a.nftMint) !in v.stakes ==> r == Err(Framework(NotInitialized))
    ensures r.Ok? ==> CheckRecord(v, reg, a).Ok? && a.sendAccount == AssociatedToken(a.owner, a.nftMint)
    ensures r.Ok? ==> CalcEmission(v.stakes[StakePda(a.nftMint)].time, reg[a.collection].emission, now).Ok?
    ensures r.Ok? ==> Unstaked(v, r.value, a,
      CalcEmission(v.stakes[StakePda(a.nftMint)].time, reg[a.collection].emission, now).value)
  {
    var s :- CheckRecord(v, reg, a);
    var l1 :- SendAccountAsWritten(v.ledger, a);
    var l2 :- CheckRest(l1, a);
    var r := Handler(v, s, l2, reg[a.collection], now, a);
    if r.Ok? then HandlerUnstakes(v, s, l2, reg[a.collection], now, a); r else r
  }

  /** `unstake_nft` with the NFT returned to the account it was staked from,
      wherever that account lives, and with the reward mint tied to the
      collection. */
  function UnstakeNft(v: Vault, reg: Registry, now: I64, a: UnstakeNftArgs): (r: Result<Vault>)
    ensures StakePda(a.nftMint) !in v.stakes ==> r == Err(Framework(NotInitialized))
    ensures r.Ok? ==>
      && CheckRecord(v, reg, a).Ok? && SendAccount(v.ledger, a).Ok?
      && IsRewardMint(reg[a.collection], a.tokenMint)
    ensures (&& CheckRecord(v, reg, a).Ok? && SendAccount(v.ledger, a).Ok?
             && CheckRest(SendAccount(v.ledger, a).value, a).Ok?
             && !IsRewardMint(reg[a.collection], a.tokenMint)) ==> r == Err(Framework(ConstraintRaw))
    ensures r.Ok? ==> CalcEmission(v.stakes[StakePda(a.nftMint)].time, reg[a.collection].emission, now).Ok?
    ensures r.Ok? ==> Unstaked(v, r.value, a,
      CalcEmission(v.stakes[StakePda(a.nftMint)].time, reg[a.collection].emission, now).value)
  {
    var s :- CheckRecord(v, reg, a);
    var l1 :- SendAccount(v.ledger, a);
    var l2 :- CheckRest(l1, a);
    :- Need(IsRewardMint(reg[a.collection], a.tokenMint), Framework(ConstraintRaw));
    var r := Handler(v, s, l2, reg[a.collection], now, a);
    if r.Ok? then HandlerUnstakes(v, s, l2, reg[a.collection], now, a); r else r
  }

  /** The two versions agree whenever the NFT was staked from the owner's
      associated account and the reward mint passed is the collection's. */
  lemma AsWrittenAgreesOnAssociated(v: Vault, reg: Registry, now: I64, a: UnstakeNftArgs)
    requires a.sendAccount == AssociatedToken(a.owner, a.nftMint)
    requires CheckRecord(v, reg, a).Ok? ==> IsRewardMint(reg[a.collection], a.tokenMint)
    ensures UnstakeNftAsWritten(v, reg, now, a) == UnstakeNft(v, reg, now, a)
  {
    SendAccountAgreesOnAssociated(v.ledger, a);
  }

  /** The source's version can never return an NFT that was staked from an
      account other than the owner's associated token account: the record
      pins the send account, and the constraint demands the associated one. */
  lemma AsWrittenNeverReleases(v: Vault, reg: Registry, now: I64, a: UnstakeNftArgs)
    requires StakePda(a.nftMint) in v.stakes
    requires var s := v.stakes[StakePda(a.nftMint)]; s.nftSendAddress != AssociatedToken(s.owner, a.nftMint)
    ensures UnstakeNftAsWritten(v, reg, now, a).Err?
  {
  }

  /** The discrepancy: as written, nothing ties the mint the reward is paid
      in to the collection, so an unstake pays out in any mint the token
      authority controls, another collection's reward token included. */
  lemma AsWrittenUnstakePaysForeignReward(v: Vault, reg: Registry, now: I64, a: UnstakeNftArgs)
    requires Backed(v)
    requires CheckRecord(v, reg, a).Ok? && a.sendAccount == AssociatedToken(a.owner, a.nftMint)
    requires SendAccountAsWritten(v.ledger, a).Ok? && CheckRest(SendAccountAsWritten(v.ledger, a).value, a).Ok?
    requires v.ledger.mints[a.tokenMint].authority == Some(TokenAuthority)
    requires !IsRewardMint(reg[a.collection], a.tokenMint)
    requires CalcEmission(v.stakes[StakePda(a.nftMint)].time, reg[a.collection].emission, now).Ok?
    ensures UnstakeNftAsWritten(v, reg, now, a).Ok?
    ensures Supply(UnstakeNftAsWritten(v, reg, now, a).value.ledger, a.tokenMint)
         == Supply(v.ledger, a.tokenMint) + CalcEmission(v.stakes[StakePda(a.nftMint)].time, reg[a.collection].emission, now).value
  {
    var l1 := SendAccountAsWritten(v.ledger, a).value;
    ChecksKeepEscrow(v, l1, a);
    var reward := CalcEmission(v.stakes[StakePda(a.nftMint)].time, reg[a.collection].emission, now).value;
    ReleaseSucceeds(CheckRest(l1, a).value, a, reward);
  }

  /** With the correction, the staker can always take a backed NFT back
      while the send account (or the owner's associated account, which is
      created) takes its mint under the staker's ownership, the collection's
      reward mint is controlled by the token authority, and the reward fits
      in 64 bits. */
  lemma UnstakeAvailable(v: Vault, reg: Registry, now: I64, a: UnstakeNftArgs)
    requires Backed(v)
    requires CheckRecord(v, reg, a).Ok? && SendAccount(v.ledger, a).Ok? && CheckRest(SendAccount(v.ledger, a).value, a).Ok?
    requires IsRewardMint(reg[a.collection], a.tokenMint)
    requires v.ledger.mints[a.tokenMint].authority == Some(TokenAuthority)
    requires CalcEmission(v.stakes[StakePda(a.nftMint)].time, reg[a.collection].emission, now).Ok?
    ensures UnstakeNft(v, reg, now, a).Ok?
  {
    var l1 := SendAccount(v.ledger, a).value;
    ChecksKeepEscrow(v, l1, a);
    var reward := CalcEmission(v.stakes[StakePda(a.nftMint)].time, reg[a.collection].emission, now).value;
    ReleaseSucceeds(CheckRest(l1, a).value, a, reward);
  }

  /** After the send-account and remaining checks, the escrow of a backed
      record still holds its NFT, and the send and receive accounts take the
      right mints. */
  lemma ChecksKeepEscrow(v: Vault, l1: Ledger, a: UnstakeNftArgs)
    requires StakePda(a.nftMint) in v.stakes && v.stakes[StakePda(a.nftMint)].owner == a.owner && Backed(v)
    requires v.ledger.tokens.Keys <= l1.tokens.Keys
    requires forall x :: x in v.ledger.tokens ==> l1.tokens[x] == v.ledger.tokens[x]
    requires a.sendAccount in l1.tokens && l1.tokens[a.sendAccount].mint == a.nftMint && l1.tokens[a.sendAccount].owner == a.owner
    requires l1.mints == v.ledger.mints
    requires CheckRest(l1, a).Ok?
    ensures var l2 := CheckRest(l1, a).value;
      && Escrow(a) in l2.tokens && l2.tokens[Escrow(a)] == TokenAccount(a.nftMint, NftAuthority, 1)
      && a.sendAccount in l2.tokens && l2.tokens[a.sendAccount].mint == a.nftMint && a.sendAccount != Escrow(a)
      && Receive(a) in l2.tokens && l2.tokens[Receive(a)].mint == a.tokenMint
      && l2.mints == v.ledger.mints
      && a.owner != Escrow(a)
  {
  }

  /** Unstaking keeps records and escrows in correspondence: the record and
      its escrow disappear together and no other escrow is touched. */
  lemma UnstakeKeepsBacked(v: Vault, reg: Registry, now: I64, a: UnstakeNftArgs)
    requires Backed(v)
    requires UnstakeNft(v, reg, now, a).Ok?
    ensures Backed(UnstakeNft(v, reg, now, a).value)
  {
    var l2, reward := UnstakeShape(v, reg, now, a);
    ReleaseKeepsBacked(v, l2, a, reward, UnstakeNft(v, reg, now, a).value);
  }

  /** A successful unstake is the release run on the checked ledger, with
      the record removed; the checks add only the send and receive accounts,
      neither of them an escrow. */
  lemma UnstakeShape(v: Vault, reg: Registry, now: I64, a: UnstakeNftArgs) returns (l2: Ledger, reward: nat)
    requires UnstakeNft(v, reg, now, a).Ok?
    ensures StakePda(a.nftMint) in v.stakes && v.stakes[StakePda(a.nftMint)].owner == a.owner
    ensures v.ledger.tokens.Keys <= l2.tokens.Keys
    ensures forall x :: x in v.ledger.tokens && x != Receive(a) ==> l2.tokens[x] == v.ledger.tokens[x]
    ensures forall x :: x in l2.tokens && x.NftEscrowPda? ==> x in v.ledger.tokens
    ensures a.sendAccount in l2.tokens && l2.tokens[a.sendAccount].owner == a.owner
    ensures Release(l2, a, reward).Ok?
    ensures UnstakeNft(v, reg, now, a).value.stakes == v.stakes - {StakePda(a.nftMint)}
    ensures UnstakeNft(v, reg, now, a).value.ledger.tokens == Release(l2, a, reward).value.tokens
  {
    var s := CheckRecord(v, reg, a).value;
    var l1 := SendAccount(v.ledger, a).value;
    l2 := CheckRest(l1, a).value;
    var c := reg[a.collection];
    assert UnstakeNft(v, reg, now, a) == Handler(v, s, l2, c, now, a);
    reward := CalcEmission(s.time, c.emission, now).value;
    SendAccountFrame(v.ledger, a);
    CheckRestFrame(l1, a);
    assert Release(l2, a, reward).Ok?;
  }

  /** The send-account check adds at most the owner's associated account,
      and changes no account that exists. */
  lemma SendAccountFrame(l: Ledger, a: UnstakeNftArgs)
    requires SendAccount(l, a).Ok?
    ensures l.tokens.Keys <= SendAccount(l, a).value.tokens.Keys
    ensures forall x :: x in l.tokens ==> SendAccount(l, a).value.tokens[x] == l.tokens[x]
    ensures forall x :: x in SendAccount(l, a).value.tokens && x.NftEscrowPda? ==> x in l.tokens
  {
    if a.sendAccount !in l.tokens {
      assert a.sendAccount == AssociatedToken(a.owner, a.nftMint);
    }
  }

  /** The checks only add the receive account. */
  lemma CheckRestFrame(l: Ledger, a: UnstakeNftArgs)
    requires CheckRest(l, a).Ok?
    ensures CheckRest(l, a).value.tokens.Keys == l.tokens.Keys + {Receive(a)}
    ensures forall x :: x in l.tokens && x != Receive(a) ==> CheckRest(l, a).value.tokens[x] == l.tokens[x]
  {
    var l2 := InitTokenIfNeeded(l, Receive(a), a.tokenMint, a.owner).value;
    assert l2.tokens == l.tokens[Receive(a) := l2.tokens[Receive(a)]];
  }

  /** Releasing a backed record's NFT and dropping the record keeps the
      vault backed. */
  lemma ReleaseKeepsBacked(v: Vault, l2: Ledger, a: UnstakeNftArgs, reward: nat, w: Vault)
    requires Backed(v)
    requires StakePda(a.nftMint) in v.stakes && v.stakes[StakePda(a.nftMint)].owner == a.owner
    requires v.ledger.tokens.Keys <= l2.tokens.Keys
    requires forall x :: x in v.ledger.tokens && x != Receive(a) ==> l2.tokens[x] == v.ledger.tokens[x]
    requires forall x :: x in l2.tokens && x.NftEscrowPda? ==> x in v.ledger.tokens
    requires a.sendAccount in l2.tokens && l2.tokens[a.sendAccount].owner == a.owner
    requires Release(l2, a, reward).Ok?
    requires w.stakes == v.stakes - {StakePda(a.nftMint)} && w.ledger.tokens == Release(l2, a, reward).value.tokens
    ensures Backed(w)
  {
    ReleaseKeepsRecords(v, l2, a, reward);
    ReleaseAccounts(l2, a, reward);
    assert w.ledger.tokens.Keys == l2.tokens.Keys - {Escrow(a)};
    forall k | k in w.stakes
      ensures k.StakePda? && Escrowed(w.ledger, k.mint) && IsWallet(w.stakes[k].owner)
    {
      assert Escrowed(Release(l2, a, reward).value, k.mint);
    }
    forall e | e in w.ledger.tokens && e.NftEscrowPda?
      ensures StakePda(e.mint) in w.stakes
    {
      assert e in v.ledger.tokens && e != Escrow(a);
    }
  }

  /** Every remaining record keeps its escrow through a release. */
  lemma ReleaseKeepsRecords(v: Vault, l2: Ledger, a: UnstakeNftArgs, reward: nat)
    requires Backed(v)
    requires StakePda(a.nftMint) in v.stakes && v.stakes[StakePda(a.nftMint)].owner == a.owner
    requires v.ledger.tokens.Keys <= l2.tokens.Keys
    requires forall x :: x in v.ledger.tokens && x != Receive(a) ==> l2.tokens[x] == v.ledger.tokens[x]
    requires a.sendAccount in l2.tokens && l2.tokens[a.sendAccount].owner == a.owner
    requires Release(l2, a, reward).Ok?
    ensures forall k :: k in v.stakes - {StakePda(a.nftMint)} ==>
      k.StakePda? && Escrowed(Release(l2, a, reward).value, k.mint) && IsWallet(v.stakes[k].owner)
  {
    assert IsWallet(a.owner);
    forall k | k in v.stakes - {StakePda(a.nftMint)}
      ensures k.StakePda? && Escrowed(Release(l2, a, reward).value, k.mint) && IsWallet(v.stakes[k].owner)
    {
      assert k in v.stakes && k.StakePda? && Escrowed(v.ledger, k.mint);
      EscrowSurvives(v.ledger, l2, a, reward, k.mint);
    }
  }

  /** Every other record's escrow comes out of the release untouched. */
  lemma EscrowSurvives(l: Ledger, l2: Ledger, a: UnstakeNftArgs, reward: nat, m: Address)
    requires Escrowed(l, m) && m != a.nftMint && IsWallet(a.owner)
    requires l.tokens.Keys <= l2.tokens.Keys
    requires forall x :: x in l.tokens && x != Receive(a) ==> l2.tokens[x] == l.tokens[x]
    requires a.sendAccount in l2.tokens && l2.tokens[a.sendAccount].owner == a.owner
    requires Release(l2, a, reward).Ok?
    ensures Escrowed(Release(l2, a, reward).value, m)
  {
    var e := NftEscrowPda(m);
    assert l2.tokens[e] == l.tokens[e];
    // the send account belongs to the staker, a wallet, so it is no escrow
    assert a.sendAccount != e;
    ReleaseKeeps(l2, a, reward, e);
  }

  /** An account other than the escrow, the send account and the receive
      account comes out of a release exactly as it went in. */
  lemma ReleaseKeeps(l: Ledger, a: UnstakeNftArgs, reward: nat, x: Address)
    requires Release(l, a, reward).Ok? && x in l.tokens
    requires x != Escrow(a) && x != a.sendAccount && x != Receive(a)
    ensures x in Release(l, a, reward).value.tokens
    ensures Release(l, a, reward).value.tokens[x] == l.tokens[x]
  {
    var l2 := TransferTokens(l, Escrow(a), a.sendAccount, 1, NftAuthority).value;
    var l3 := MintTo(l2, a.tokenMint, Receive(a), reward, TokenAuthority).value;
    var l4 := CloseTokenAccount(l3, Escrow(a), a.owner, NftAuthority).value;
    assert Release(l, a, reward).value == l4;
    assert Amount(l2, x) == Amount(l, x) && Amount(l3, x) == Amount(l2, x);
    assert SameAccounts(l.tokens, l2.tokens) && SameAccounts(l2.tokens, l3.tokens);
    assert l4.tokens == l3.tokens - {Escrow(a)};
    assert l3.tokens[x] == TokenAccount(l.tokens[x].mint, l.tokens[x].owner, l.tokens[x].amount);
  }

  /** Unstaking returns the NFT and mints the reward in the collection's
      reward token; no other supply changes. */
  lemma UnstakeSupply(v: Vault, reg: Registry, now: I64, a: UnstakeNftArgs, m: Address)
    requires UnstakeNft(v, reg, now, a).Ok?
    ensures var reward := CalcEmission(v.stakes[StakePda(a.nftMint)].time, reg[a.collection].emission, now).value;
            Supply(UnstakeNft(v, reg, now, a).value.ledger, m)
            == Supply(v.ledger, m) + (if reg[a.collection].tokenMint == Some(m) then reward else 0)
  {
  }
}

=== FILE: validate_token.dfy ===
/** `validate_token_account`: a vote-giving NFT must sit in an initialised
    token account owned by the signer and holding exactly one token. */
module TokenCheck {
  import opened Keys
  import opened Errors
  import opened Wrappers
  import opened Ledger

  function ValidateToken(l: Ledger, tokenAccount: Address, signer: Address): (r: Result<Address>)
    ensures tokenAccount !in l.tokens ==> r == Err(Program(AccountNotInitialized))
    ensures tokenAccount in l.tokens && l.tokens[tokenAccount].owner != signer ==> r == Err(Panic)
    ensures (tokenAccount in l.tokens && l.tokens[tokenAccount].owner == signer
             && l.tokens[tokenAccount].amount != 1) ==> r == Err(Program(TokenNotOne))
    ensures r.Ok? <==> tokenAccount in l.tokens && l.tokens[tokenAccount].owner == signer && l.tokens[tokenAccount].amount == 1
    ensures r.Ok? ==> r.value == l.tokens[tokenAccount].mint
  {
    if tokenAccount !in l.tokens then Err(Program(AccountNotInitialized))
    else
      var t := l.tokens[tokenAccount];
      if t.owner != signer then Err(Panic)          // assert_eq! on the owner
      else if t.amount != 1 then Err(Program(TokenNotOne))
      else Ok(t.mint)
  }
}

=== FILE: withdraw_tokens.dfy ===
/** `withdraw_tokens`: the staker of an NFT collects the reward accrued
    since staking or since the last withdrawal; the NFT stays staked. */
module StakeWithdraw {
  import opened Keys
  import opened Errors
  import opened Wrappers
  import opened Ints
  import opened Ledger
  import opened Registry
  import opened StakeState

  datatype WithdrawTokensArgs = WithdrawTokensArgs(
    collection: Address,    // the collection record's address
    nftMint: Address,       // the staked NFT's mint
    tokenMint: Address,     // the mint to pay the reward in
    owner: Address)         // the signer

  /** The reward is paid into the owner's associated token account. */
  function Receive(a: WithdrawTokensArgs): Address {
    AssociatedToken(a.owner, a.tokenMint)
  }

  /** The instruction's account constraints as the source declares them, in
      field order. Returns the stake record and the ledger with the receive
      account created if it was missing. Nothing ties `tokenMint` to the
      collection. */
  function CheckAccounts(v: Vault, reg: Registry, a: WithdrawTokensArgs): (r: Result<(Stake, Ledger)>)
    ensures StakePda(a.nftMint) !in v.stakes ==> r == Err(Framework(NotInitialized))
    ensures r.Ok? <==>
      && StakePda(a.nftMint) in v.stakes
      && v.stakes[StakePda(a.nftMint)].collection == a.collection
      && v.stakes[StakePda(a.nftMint)].owner == a.owner
      && a.collection in reg
      && a.tokenMint in v.ledger.mints
      && InitTokenIfNeeded(v.ledger, Receive(a), a.tokenMint, a.owner).Ok?
      && a.nftMint in v.ledger.mints && v.ledger.mints[a.nftMint].decimals == 0
    ensures r.Ok? ==> r.value.0 == v.stakes[StakePda(a.nftMint)]
    ensures r.Ok? ==> r.value.1 == InitTokenIfNeeded(v.ledger, Receive(a), a.tokenMint, a.owner).value
  {
    var l := v.ledger;
    :- Need(StakePda(a.nftMint) in v.stakes, Framework(NotInitialized));
    var s := v.stakes[StakePda(a.nftMint)];
    :- Need(s.collection == a.collection, Framework(ConstraintHasOne));
    :- Need(s.owner == a.owner, Framework(ConstraintHasOne));
    :- Need(a.collection in reg, Framework(NotInitialized));
    :- Need(a.tokenMint in l.mints, Framework(NotInitialized));
    var l1 :- InitTokenIfNeeded(l, Receive(a), a.tokenMint, a.owner);
    :- Need(a.nftMint in l.mints, Framework(NotInitialized));
    :- Need(l.mints[a.nftMint].decimals == 0, Framework(ConstraintMintDecimals));
    Ok((s, l1))
  }

  /** `withdraw_tokens_handler`: the reward accrued since the record's time
      is minted into the receive account by the token authority, and the
      record's time moves to `now`. */
  function Handler(v: Vault, s: Stake, l: Ledger, c: Collection, now: I64, a: WithdrawTokensArgs): (r: Result<Vault>)
    ensures r.Ok? <==>
      && CalcEmission(s.time, c.emission, now).Ok?
      && MintTo(l, a.tokenMint, Receive(a), CalcEmission(s.time, c.emission, now).value, TokenAuthority).Ok?
    ensures CalcEmission(s.time, c.emission, now).Err? ==> r == Err(Panic)
    ensures r.Ok? ==> r.value.stakes == v.stakes[StakePda(a.nftMint) := s.(time := now)]
    ensures r.Ok? ==> r.value.ledger == MintTo(l, a.tokenMint, Receive(a), CalcEmission(s.time, c.emission, now).value, TokenAuthority).value
  {
    var reward :- CalcEmission(s.time, c.emission, now);
    var l2 :- MintTo(l, a.tokenMint, Receive(a), reward, TokenAuthority);
    Ok(Vault(v.stakes[StakePda(a.nftMint) := s.(time := now)], l2))
  }

  /** `withdraw_tokens` as the source writes it: any mint whose authority is
      the program's token authority is accepted as the reward mint, and
      every collection's reward mint has that authority. */
  function WithdrawTokensAsWritten(v: Vault, reg: Registry, now: I64, a: WithdrawTokensArgs): (r: Result<Vault>)
    ensures r.Ok? <==>
      && CheckAccounts(v, reg, a).Ok?
      && Handler(v, CheckAccounts(v, reg, a).value.0, CheckAccounts(v, reg, a).value.1, reg[a.collection], now, a).Ok?
    ensures r.Ok? ==> r == Handler(v, CheckAccounts(v, reg, a).value.0, CheckAccounts(v, reg, a).value.1, reg[a.collection], now, a)
  {
    var x :- CheckAccounts(v, reg, a);
    Handler(v, x.0, x.1, reg[a.collection], now, a)
  }

  /** `withdraw_tokens` with the reward mint tied to the collection.
      Exactly the admissible calls succeed; the accrued reward is minted
      into the owner's receive account and nowhere else, the record's time
      moves to `now`, and no other record changes. */
  function WithdrawTokens(v: Vault, reg: Registry, now: I64, a: WithdrawTokensArgs): (r: Result<Vault>)
    ensures StakePda(a.nftMint) !in v.stakes ==> r == Err(Framework(NotInitialized))
    ensures CheckAccounts(v, reg, a).Ok? && !IsRewardMint(reg[a.collection], a.tokenMint) ==> r == Err(Framework(ConstraintRaw))
    ensures r.Ok? <==>
      && CheckAccounts(v, reg, a).Ok?
      && IsRewardMint(reg[a.collection], a.tokenMint)
      && CalcEmission(v.stakes[StakePda(a.nftMint)].time, reg[a.collection].emission, now).Ok?
      && v.ledger.mints[a.tokenMint].authority == Some(TokenAuthority)
    ensures r.Ok? ==>
      var reward := CalcEmission(v.stakes[StakePda(a.nftMint)].time, reg[a.collection].emission, now).value;
      && r.value.stakes == v.stakes[StakePda(a.nftMint) := v.stakes[StakePda(a.nftMint)].(time := now)]
      && (forall x {:trigger Amount(r.value.ledger, x)} ::
            Amount(r.value.ledger, x) == Amount(v.ledger, x) + (if x == Receive(a) then reward else 0))
      && r.value.ledger.lamports == v.ledger.lamports && r.value.ledger.mints == v.ledger.mints
      && Receive(a) in r.value.ledger.tokens
      && r.value.ledger.tokens[Receive(a)].mint == a.tokenMint && r.value.ledger.tokens[Receive(a)].owner == a.owner
  {
    var x :- CheckAccounts(v, reg, a);
    :- Need(IsRewardMint(reg[a.collection], a.tokenMint), Framework(ConstraintRaw));
    Handler(v, x.0, x.1, reg[a.collection], now, a)
  }

  /** With the reward mint tied, the only effect on supply is the reward,
      minted in the collection's own reward token. */
  lemma WithdrawMintsReward(v: Vault, reg: Registry, now: I64, a: WithdrawTokensArgs, m: Address)
    requires WithdrawTokens(v, reg, now, a).Ok?
    ensures var reward := CalcEmission(v.stakes[StakePda(a.nftMint)].time, reg[a.collection].emission, now).value;
            Supply(WithdrawTokens(v, reg, now, a).value.ledger, m)
            == Supply(v.ledger, m) + (if reg[a.collection].tokenMint == Some(m) then reward else 0)
  {
    var x := CheckAccounts(v, reg, a).value;
    assert Supply(x.1, m) == Supply(v.ledger, m);
  }

  /** The two versions agree whenever the mint passed is the collection's;
      otherwise only the source's version can succeed. */
  lemma TieOnlyRejectsForeignMints(v: Vault, reg: Registry, now: I64, a: WithdrawTokensArgs)
    ensures CheckAccounts(v, reg, a).Ok? && IsRewardMint(reg[a.collection], a.tokenMint) ==>
            WithdrawTokens(v, reg, now, a) == WithdrawTokensAsWritten(v, reg, now, a)
    ensures WithdrawTokens(v, reg, now, a).Ok? ==> WithdrawTokens(v, reg, now, a) == WithdrawTokensAsWritten(v, reg, now, a)
    ensures WithdrawTokensAsWritten(v, reg, now, a).Ok? && !IsRewardMint(reg[a.collection], a.tokenMint) ==>
            WithdrawTokens(v, reg, now, a) == Err(Framework(ConstraintRaw))
  {
  }

  /** A concrete instance of the source's version paying a staker of
      collection A in collection B's reward token: both reward mints are
      controlled by the same token authority. */
  lemma AsWrittenPaysForeignReward()
    ensures
      var nft := Key(1);
      var owner := Key(2);
      var mintA := Key(3);
      var mintB := Key(4);
      var colA := CollectionPda(Key(5));
      var c := Collection(Key(6), Key(7), Some(mintA), true, false, false, false, 1, 0, 0, 0, 0, 1);
      var l := Ledger(map[], map[NftEscrowPda(nft) := TokenAccount(nft, NftAuthority, 1)],
                      map[nft := Mint(0, None), mintA := Mint(9, Some(TokenAuthority)), mintB := Mint(9, Some(TokenAuthority))]);
      var v := Vault(map[StakePda(nft) := Stake(owner, 0, Key(8), colA)], l);
      var a := WithdrawTokensArgs(colA, nft, mintB, owner);
      && WithdrawTokensAsWritten(v, map[colA := c], 3600, a).Ok?
      && Amount(WithdrawTokensAsWritten(v, map[colA := c], 3600, a).value.ledger, AssociatedToken(owner, mintB)) == NANOS
      && WithdrawTokens(v, map[colA := c], 3600, a) == Err(Framework(ConstraintRaw))
  {
    var owner := Key(2);
    var mintB := Key(4);
    var colA := CollectionPda(Key(5));
    var c := Collection(Key(6), Key(7), Some(Key(3)), true, false, false, false, 1, 0, 0, 0, 0, 1);
    var l := Ledger(map[], map[NftEscrowPda(Key(1)) := TokenAccount(Key(1), NftAuthority, 1)],
                    map[Key(1) := Mint(0, None), Key(3) := Mint(9, Some(TokenAuthority)), mintB := Mint(9, Some(TokenAuthority))]);
    var v := Vault(map[StakePda(Key(1)) := Stake(owner, 0, Key(8), colA)], l);
    var a := WithdrawTokensArgs(colA, Key(1), mintB, owner);
    var reg := map[colA := c];
    assert CalcEmission(0, 1, 3600) == Ok(NANOS);
    var l1 := CreateTokenAccount(l, Receive(a), mintB, owner);
    assert InitTokenIfNeeded(l, Receive(a), mintB, owner) == Ok(l1);
    assert CheckAccounts(v, reg, a) == Ok((v.stakes[StakePda(Key(1))], l1));
    assert MintTo(l1, mintB, Receive(a), NANOS, TokenAuthority).Ok?;
    assert Amount(l1, Receive(a)) == 0;
    assert !IsRewardMint(c, mintB);
  }

  /** Withdrawing keeps records and escrows in correspondence: the reward
      goes to an associated token account, never to an escrow. */
  lemma WithdrawKeepsBacked(v: Vault, reg: Registry, now: I64, a: WithdrawTokensArgs)
    requires Backed(v)
    requires WithdrawTokens(v, reg, now, a).Ok?
    ensures Backed(WithdrawTokens(v, reg, now, a).value)
  {
    var w := WithdrawTokens(v, reg, now, a).value;
    var x := CheckAccounts(v, reg, a).value;
    assert w.ledger.tokens.Keys == x.1.tokens.Keys == v.ledger.tokens.Keys + {Receive(a)};
    forall k | k in w.stakes
      ensures k.StakePda? && Escrowed(w.ledger, k.mint) && IsWallet(w.stakes[k].owner)
    {
      assert k in v.stakes && Escrowed(v.ledger, k.mint);
      assert Amount(w.ledger, NftEscrowPda(k.mint)) == 1;
    }
  }

  /** A second withdrawal at the same instant pays nothing and moves no
      balance. */
  lemma WithdrawAgainPaysNothing(v: Vault, reg: Registry, now: I64, a: WithdrawTokensArgs)
    requires WithdrawTokens(v, reg, now, a).Ok?
    ensures var w := WithdrawTokens(v, reg, now, a).value;
            && WithdrawTokens(w, reg, now, a).Ok?
            && WithdrawTokens(w, reg, now, a).value.ledger == w.ledger
            && WithdrawTokens(w, reg, now, a).value.stakes == w.stakes
  {
    var w := WithdrawTokens(v, reg, now, a).value;
    assert CalcEmission(now, reg[a.collection].emission, now) == Ok(0);
    var y := CheckAccounts(w, reg, a).value;
    assert y.1 == w.ledger;
    var l2 := MintTo(w.ledger, a.tokenMint, Receive(a), 0, TokenAuthority).value;
    assert l2.tokens == w.ledger.tokens;
  }

  /** A reward that fits from the stake time to `now` also fits from any
      later instant `mid`. */
  lemma LaterRewardFits(t: I64, e: U64, mid: I64, now: I64)
    requires t <= mid <= now
    requires CalcEmission(t, e, now).Ok?
    ensures CalcEmission(mid, e, now).Ok?
    ensures CalcEmission(mid, e, now).value == Reward(now - mid, e)
  {
    assert now - t <= I64_MAX;
    assert (now - t) * e * NANOS <= U64_MAX;
    MulMonotone(now - mid, now - t, e);
    MulMonotone((now - mid) * e, (now - t) * e, NANOS);
  }

  /** After a successful withdrawal, a withdrawal at a later instant
      succeeds whenever its reward fits. */
  lemma WithdrawAgainSucceeds(v: Vault, reg: Registry, mid: I64, now: I64, a: WithdrawTokensArgs)
    requires WithdrawTokens(v, reg, mid, a).Ok?
    requires CalcEmission(mid, reg[a.collection].emission, now).Ok?
    ensures WithdrawTokens(WithdrawTokens(v, reg, mid, a).value, reg, now, a).Ok?
  {
    var w := WithdrawTokens(v, reg, mid, a).value;
    var x := CheckAccounts(v, reg, a).value;
    assert Receive(a) in x.1.tokens;
    assert w.ledger.tokens.Keys == x.1.tokens.Keys;
    assert w.ledger.tokens[Receive(a)].mint == a.tokenMint && w.ledger.tokens[Receive(a)].owner == a.owner;
    assert InitTokenIfNeeded(w.ledger, Receive(a), a.tokenMint, a.owner).Ok?;
    assert w.stakes[StakePda(a.nftMint)].time == mid;
    assert CheckAccounts(w, reg, a).Ok?;
  }

  /** Collecting in two withdrawals loses at most one base unit to rounding
      against one withdrawal over the same span, and never gains. */
  lemma SplitWithdrawalLosesAtMostOne(v: Vault, reg: Registry, mid: I64, now: I64, a: WithdrawTokensArgs)
    requires WithdrawTokens(v, reg, mid, a).Ok?
    requires v.stakes[StakePda(a.nftMint)].time <= mid <= now
    requires WithdrawTokens(v, reg, now, a).Ok?
    ensures var w := WithdrawTokens(v, reg, mid, a).value;
            && WithdrawTokens(w, reg, now, a).Ok?
            && var split := Amount(WithdrawTokens(w, reg, now, a).value.ledger, Receive(a));
               var whole := Amount(WithdrawTokens(v, reg, now, a).value.ledger, Receive(a));
               whole - 1 <= split <= whole
  {
    var t := v.stakes[StakePda(a.nftMint)].time;
    var e := reg[a.collection].emission;
    RewardSplit(mid - t, now - mid, e);
    assert (mid - t) + (now - mid) == now - t;
    LaterRewardFits(t, e, mid, now);
    WithdrawAgainSucceeds(v, reg, mid, now, a);
  }
}

=== FILE: wrappers.dfy ===
/** Failure-compatible wrappers shared by every instruction of the model.
    Every instruction returns a `Result`; a failed `Result` means the whole
    transaction aborts and no account changes. */
module Wrappers {
  import opened Errors

  datatype Option<+T> = None | Some(value: T)

  /** Success value or the error that aborted the instruction. */
  datatype Result<+T> = Ok(value: T) | Err(error: Error) {
    predicate IsFailure() { Err? }

    function PropagateFailure<U>(): Result<U>
      requires Err?
    {
      Err(error)
    }

    function Extract(): T
      requires Ok?
    {
      value
    }
  }

  /** A check without a value, used with `:-` like Anchor's `require!` macros. */
  datatype Outcome = Pass | Fail(error: Error) {
    predicate IsFailure() { Fail? }

    function PropagateFailure<U>(): Result<U>
      requires Fail?
    {
      Err(error)
    }
  }

  function Need(condition: bool, error: Error): (o: Outcome)
    ensures o.Pass? <==> condition
    ensures o.Fail? ==> o.error == error
  {
    if condition then Pass else Fail(error)
  }
}
